=== FILE: README.md ===
# leisure_video backend core, modelled in Dafny

This project models the Node.js backend of leisure_video. The backend scrapes a video site at
`https://ccios.cc`: its home page, category lists, search results, detail pages and play pages.
It turns those pages into JSON, caches the results in Redis under keys of the form
`ccios:<kind>:<params>`, and keeps the cache warm. To do that it prefetches detail and play
pages through a queue that lets at most three tasks run at once.

The model has three layers:

- **Scraper** (`backend/scraper.js`). HTML parsing is abstracted into records that hold what
  each selector yields (module `Document`). On top of those records, the project models:
  - `absoluteUrl`;
  - the three regular expressions (the lazy `《…》` capture, the first digit run, and the
    `-----N.html` page number);
  - `extractVideoUrlFromHtml`, `parseSourceLinks` and the pure part of `resolveM3u8`;
  - `getVideoUrlFromPlayPage`, `parseInfoFromHtml` and `parseDetailInfo`;
  - `parseEpisodeAnchors` and `parseEpisodes`;
  - `search`, `getHomeRecommend` and `getCategoryList`.

  Every HTTP request becomes a function parameter (`fetchPage`, `fetchText`, `fetchList`)
  that answers `None` when the request throws.
- **Cache** (`backend/cache.js`). Redis is a map from keys to `(value, ttl)` plus a
  connection flag. Every command takes a `fault` flag that stands for the command throwing.
  The model covers `generateKey`, `get`, `set`, `del`, `clearByPrefix`, `withCache` and
  `getStats`.
- **Server** (`backend/server.js`). The model covers:
  - the scheduled home and category jobs;
  - `prefetchDetail` and `prefetchPlayUrl`, and the tasks they queue;
  - the detail URLs each route prefetches;
  - `prefetchNextEpisodes`, the batch endpoint and the clear endpoint;
  - the admission counter of `runPrefetchTask`, modelled as an event system (module
    `Admission`).

Values cross the cache as JSON (module `Json`). Module `Encode` writes the scraper's results
the way the objects are built in the source. The prefetch logic then reads those values back
the way the server code reads them. For example, `ep.link` on a `null` element throws, and
`s.items || []` keeps a truthy non-array value as one element.

Some behaviour of the source is surprising:

- `search` builds detail URLs as `BASE_URL + link`, without `absoluteUrl`, so an absolute
  link gets the origin prepended anyway (`Listing.SearchKeepsAbsoluteLinksWrong`).
- `absoluteUrl("foo")` is `https://ccios.ccfoo`, with no slash between origin and path
  (`Urls.AbsoluteUrlNoSlash`).
- The section-title clean-up is a single pass, so `NNEWEW` becomes `NEW`
  (`Listing.StripDecorJoins`).
- `withCache` stores the error-shaped objects the scraper returns on failure, but not empty
  lists (`Cache.ErrorObjectCached`, `Cache.EmptyListNotCached`). So a failed detail parse
  is cached for seven days, while the prefetch path never caches it.
- A task woken from the queue re-checks the counter. A task that arrives in between can take
  its slot, so admission is not first-come-first-served (`Admission.WokenTaskOvertaken`).
- A failed play-page fetch inside `parseEpisodes` is caught by the outer handler, so the
  detail metadata already read is lost (`Episodes.ParseEpisodes`).

## Model

| member | source | states |
|---|---|---|
| Urls.AbsoluteUrl | backend/scraper.js:209-214 | The result is null exactly for the empty link. A present result starts with `http` and ends with the link. An `http` link is returned unchanged. |
| Urls.AbsoluteUrlCases | backend/scraper.js:209-214 | Covers each of the four branches separately: empty link, `http` link, protocol-relative link (`https:` prepended) and anything else (the origin prepended). |
| Urls.AbsoluteUrlIdempotent | backend/scraper.js:209-214 | Normalising an already normalised link changes nothing. |
| Urls.AbsoluteUrlNoSlash | backend/scraper.js:213 | A relative path without a leading slash is glued to the origin with no separator. |
| Urls.Origin | backend/scraper.js:138-140 | The protocol ends in `:` and the host contains no `/`. |
| Urls.OriginAt | backend/scraper.js:138-140 | A URL of the form `scheme://host/rest` yields its lower-cased scheme with `:` and its lower-cased host. |
| Capture.LazyCapture | backend/scraper.js:219 | A lazy `open(.+?)close` capture gives the text between the open marker and the first later close on the same line. It is `None` exactly when no position starts a match. |
| Capture.LazyCaptureStopsAtClose | backend/scraper.js:44 | An optional lazy capture never contains its closing character. |
| Capture.FindMatch | backend/scraper.js:219 | Finds the leftmost match: no earlier position matches. |
| Capture.CaptureEndComplete | backend/scraper.js:219 | Any match that starts at a position is the one the search finds there. |
| Capture.FirstDigitRun | backend/scraper.js:341 | `(\d+)` finds a non-empty run of digits, and finds none exactly when the text has no digit. |
| Capture.FirstDigitRunSplit | backend/scraper.js:341 | The run found is maximal and only non-digits come before it. |
| Capture.PageDigits | backend/scraper.js:585 | `-----(\d+)\.html` captures the greedy digits of the leftmost match, or nothing when no position matches. |
| StreamRef.UrlField | backend/scraper.js:44 | The capture of `"url":"(.*?)"` is the text of the leftmost match and contains no `"`. It is absent exactly when the page has no such field. |
| StreamRef.ExtractVideoUrl | backend/scraper.js:27-51 | A truthy player `url` wins. Otherwise, when the page has a `"url":"…"` field, its capture is used with every backslash removed. Otherwise the player value itself is returned. |
| Manifest.Candidate | backend/scraper.js:102-124 | The forward pass takes the URI after the first `#EXT-X-STREAM-INF` that names a playlist or is not a `.ts` segment. If there is none, the backward pass takes the last URI line naming a `.m3u8`. The result is `None` exactly when both passes find nothing. |
| Manifest.Directory | backend/scraper.js:142 | The URL up to its last `/`, with no `/` after the cut. |
| Manifest.JoinCandidate | backend/scraper.js:134-144 | An `http` candidate is returned as is. Otherwise a URL without an origin makes the result the URL itself; a candidate starting with `/` follows the URL's scheme and host; any other candidate follows the URL's directory and a slash. |
| Manifest.JoinStaysInDirectory | backend/scraper.js:138-143 | A relative candidate without a slash of its own resolves to a URL whose directory is the playlist's directory. |
| Manifest.ResolveM3u8 | backend/scraper.js:93-149 | The URL comes back unchanged when the fetch fails, the text is not a master playlist, or no candidate is found; both `.ts` branches give the same result. Otherwise the candidate is joined to the URL. |
| Manifest.ExampleMasterPlaylist | backend/scraper.js:93-144 | A master playlist with a relative variant resolves to that variant inside the playlist's directory. |
| Manifest.ExampleRootRelativeJoin | backend/scraper.js:139-140 | A root-relative variant keeps only the scheme and host of the playlist URL. |
| Manifest.TrimLinesTrimmed | backend/scraper.js:106-107 | Trimming lines that have no surrounding whitespace changes nothing. |
| Mirrors.SourceOf | backend/scraper.js:59-68 | The mirror name is the trimmed text, or `备用线路` when the text is blank. A missing or `javascript:;` target points at the play page and marks the mirror active. |
| Mirrors.ParseSourceLinks | backend/scraper.js:53-88 | There is at least one line, and page URLs are distinct. Every usable link's page URL is represented. With no usable link the result is the single default line for the play page. |
| Mirrors.ParseSourceLinksInOrder | backend/scraper.js:58-78 | With a usable link, the lines are the first line for each page URL, kept in document order, with lines lacking a page URL dropped. |
| Mirrors.ParseSourceLinksFirstWins | backend/scraper.js:69-71 | Each listed line is the line of some link, and no earlier link had the same page URL. |
| Mirrors.ParseSourceLinksDistinct | backend/scraper.js:53-77 | Links with distinct absolute targets are kept one for one, in page order. |
| Mirrors.UsableEmpty | backend/scraper.js:79-85 | The default line is used exactly when no link yields a page URL. |
| Mirrors.StreamOf | backend/scraper.js:169-172 | Only a truthy reference ending in `.m3u8` goes through the playlist resolver. Every other reference is kept. |
| Mirrors.ResolveSource | backend/scraper.js:160-190 | The already fetched page is reused when the page URL matches. A failed fetch gives a line without URLs. The name, page URL and active flag are always kept. |
| Mirrors.Primary | backend/scraper.js:195-197 | The primary stream is that of the first active line with a stream, else that of the first line with one. It is `None` exactly when no line has a stream. |
| Mirrors.GetVideoUrlFromPlayPage | backend/scraper.js:154-207 | A failed play-page fetch gives `{url:null, sources:[]}`. Otherwise there is one resolved line per mirror, and `url` is the primary stream. |
| Mirrors.PlayLinesInOrder | backend/scraper.js:193 | The i-th resolved line is the resolution of the i-th discovered mirror. |
| Mirrors.ThreeMirrors | backend/scraper.js:154-202 | With three mirrors where only the active second one yields a stream, all three lines are reported and the second one's stream is the primary. |
| Detail.KeywordTags | backend/scraper.js:228-233 | The tags are the first eight usable keywords in order (all of them when there are fewer). Each tag is a trimmed keyword part that is neither empty nor the site name. |
| Detail.KeywordTagsComplete | backend/scraper.js:229-233 | With at most eight usable keywords, every usable keyword is kept. |
| Detail.InfoTitle | backend/scraper.js:217-224 | The title is never empty. The `《…》` capture wins. Failing that, a `-` selects the trimmed text before it, and when that text is empty the fallback title or else `未知标题` is used. Without a `-`, the fallback title is used, else the raw title, and `未知标题` when both are empty. |
| Detail.BracketBeatsDash | backend/scraper.js:219-224 | The bracketed title wins even when the title also contains a dash. |
| Detail.ParseInfoFromHtml | backend/scraper.js:216-242 | The fallback metadata: the title rule, an absolute `og:image` cover, the normalised description, the keyword tags and no facts. |
| Detail.CoverLink | backend/scraper.js:246-248 | The cover is `data-src`, else `data-original`, else `src`, and empty only when all three are empty. |
| Detail.DetailTags | backend/scraper.js:255-259 | At most eight tags, all distinct. Each is a usable trimmed tag text from the page. |
| Detail.DetailTagsFirstWins | backend/scraper.js:284 | The tags are the first occurrences of the usable tags, in page order, cut to eight. |
| Detail.DetailTagsComplete | backend/scraper.js:255-259 | With at most eight distinct usable tags, every one of them is kept. |
| Detail.FactOf | backend/scraper.js:263-271 | The label is the marker text, else the class name, else `信息`. The value is the element's own trimmed text. |
| Detail.DetailFacts | backend/scraper.js:261-273 | The facts are the first six fact blocks with a value, in page order (all of them when there are fewer). Each has a non-empty caption and value and comes from an element of the page. |
| Detail.ParseDetailInfo | backend/scraper.js:244-287 | A meaningful heading selects the structured blocks. Otherwise the `<title>` fallback is used with the heading as fallback title. The title is never empty, and the tag and fact counts are bounded. |
| Detail.BrandHeadingKept | backend/scraper.js:275-277 | A page headed by the site name, whose `<title>` has neither brackets nor a dash, keeps the site name as its title. |
| Episodes.AnchorEpisodesWellFormed | backend/scraper.js:294-303 | Every episode has a name and an absolute link. |
| Episodes.AnchorEpisodesAppend | backend/scraper.js:294-303 | Episodes keep document order: consecutive runs of anchors give the concatenation of their episodes. |
| Episodes.AnchorEpisodesExact | backend/scraper.js:297 | An episode is listed exactly when some anchor qualifies and yields it. |
| Episodes.FirstPlayHref | backend/scraper.js:306 | The result is the first `/ccplay/` target. It is absent exactly when no anchor has such a target. |
| Episodes.ParseEpisodeAnchors | backend/scraper.js:291-316 | The `.jisu` episodes are used when any anchor qualifies, and the fallback entry otherwise. Every episode has a name and an absolute link. |
| Episodes.PlayNowEpisode | backend/scraper.js:305-313 | There is at most one `立即播放` entry. It is present exactly when the page has a `/ccplay/` link, and it links to the first such link made absolute. |
| Episodes.PlayLinkGuess | backend/scraper.js:340-345 | A guess exists exactly when the detail URL has a digit. It has the form `/ccplay/…-1-1.html`. |
| Episodes.PlayLinkGuessId | backend/scraper.js:341-343 | The guessed link carries the detail URL's first digit run as its own id. |
| Episodes.PlayLink | backend/scraper.js:334-345 | The play link is the detail page's first play link, and the guess only when the detail page is missing or has no play link. |
| Episodes.SourcePage | backend/scraper.js:356-378 | Each mirror keeps its name and page URL. The play page is reused for its own URL. Any other page URL is fetched, and a failed fetch, or a mirror without a page URL, gives no page and no episodes. |
| Episodes.FirstEpisodes | backend/scraper.js:394 | The result is the first non-empty episode list, or none. |
| Episodes.FirstBody | backend/scraper.js:384 | The result is the first mirror page with a body. It is absent exactly when no page has one. |
| Episodes.FromPlayPage | backend/scraper.js:351-403 | One entry per mirror, in order, and metadata is always present. The detail metadata wins when it exists. Otherwise it is parsed from the first mirror page with a body, else from the play page. The episodes are the first non-empty list. |
| Episodes.ParseEpisodes | backend/scraper.js:321-408 | Without a play link, the result is the detail metadata with nothing else. A failed play-page fetch gives the all-empty result. Otherwise the result is built from the play page. |
| Episodes.GuessUsedWithoutDetail | backend/scraper.js:340-345 | Without a detail page, a detail URL with digits leads to the guessed play page, carrying the same id. |
| Listing.Search | backend/scraper.js:413-443 | A failed request gives no results. A result exists exactly for each entry with a link and a non-blank title, and its title is trimmed. |
| Listing.SearchItemOf | backend/scraper.js:429-434 | The detail URL is the origin followed by the raw link. The title is trimmed. |
| Listing.SearchAppend | backend/scraper.js:423-436 | The results for two runs of entries are the results for each, in order; nothing is deduplicated. |
| Listing.SearchSingle | backend/scraper.js:424-435 | One entry yields its item exactly when it has a link and a non-blank title, and nothing otherwise. |
| Listing.SearchKeepsAbsoluteLinksWrong | backend/scraper.js:433 | An absolute link still gets the origin prepended, so the detail URL differs from the `absoluteUrl` form. |
| Listing.StripDecorNew | backend/scraper.js:482 | Every `NEW` after plain text is removed. |
| Listing.StripDecorMore | backend/scraper.js:482 | A single-line `更多…` tail is cut off. |
| Listing.StripDecorJoins | backend/scraper.js:482 | One pass is not idempotent: removing `NEW` can form a new one. |
| Listing.HomeItemsEmpty | backend/scraper.js:470 | A block yields no item exactly when no entry has a link and a title free of `策驰`. |
| Listing.HomeItemsMembers | backend/scraper.js:462-478 | The items are exactly the images of the qualifying entries. |
| Listing.SectionOf | backend/scraper.js:454-485 | Skipped titles give no section. A section has between 1 and 12 items, and its title is the block title with the decorations stripped and trimmed. |
| Listing.SectionOfNone | backend/scraper.js:459-480 | A block is dropped exactly when its title is skipped or no entry qualifies. |
| Listing.SectionItemsQualify | backend/scraper.js:470-477 | Every item of a section comes from a qualifying entry. |
| Listing.BlockSectionsEmpty | backend/scraper.js:488 | There are no block sections exactly when every block is dropped. This is the condition for the fallback. |
| Listing.HotItems | backend/scraper.js:489-512 | Fallback items are unique by detail URL. |
| Listing.HotItemsFirstWins | backend/scraper.js:490-512 | The fallback items are the first item for each detail URL among the qualifying anchors, in page order. |
| Listing.HotItemsQualify | backend/scraper.js:497-503 | Every fallback item comes from a qualifying anchor and has a cover. |
| Listing.HotSection | backend/scraper.js:514-519 | The `热门推荐` section holds the first twenty unique items. It is absent exactly when there is none. |
| Listing.GetHomeRecommend | backend/scraper.js:448-527 | A failed request gives nothing. Block sections win. Only when there are none is the fallback section used, when it exists. |
| Listing.HomeFallback | backend/scraper.js:488-520 | Without block sections, the home page has a section exactly when some `/ccvod/` anchor qualifies. |
| Listing.NormalizeCategory | backend/scraper.js:534-537 | Known categories are kept and anything else becomes `tv`. |
| Listing.PageSuffix | backend/scraper.js:539 | The suffix is empty exactly for pages up to 1. Otherwise it is decimal digits that `parseInt` reads back as the page. |
| Listing.CategoryItems | backend/scraper.js:546-571 | Items are unique by detail URL. |
| Listing.CategoryItemsFirstWins | backend/scraper.js:546-571 | The items are the first item for each detail URL among the qualifying entries, in page order. |
| Listing.CategoryItemsSound | backend/scraper.js:555-563 | Every item comes from a qualifying entry. |
| Listing.CategoryItemsComplete | backend/scraper.js:555-571 | Every qualifying entry's detail URL is represented. |
| Listing.TotalPages | backend/scraper.js:573-590 | The total is at least 1 and at least every number read from a label or an href. It is one of those numbers, or 1. |
| Listing.TotalPagesShown | backend/scraper.js:573-590 | A total that is not 1 is a number shown by a label or an href of some pagination link. |
| Listing.GetCategoryList | backend/scraper.js:532-602 | A failed request gives the empty page 1 of 1. Otherwise the result has the unique items, the requested page and a total bounding every pagination number. That total is 1 or a number some pagination link shows. `hasMore` is true exactly when the page is below the total. |
| Text.Trim | backend/scraper.js:217 | The result has no surrounding whitespace and is no longer than the input. |
| Text.TrimSlice | backend/scraper.js:217 | Trimming removes exactly the leading and trailing whitespace runs. |
| Text.TrimIdempotent | backend/scraper.js:217 | Trimming twice is trimming once. |
| Text.NormalizeSpacesSpec | backend/scraper.js:238 | The normalised description is trimmed. Whitespace runs are collapsed to single spaces and every visible character is kept. |
| Text.RemoveAll | backend/scraper.js:46 | Every backslash goes and every other character stays. |
| Text.RemoveAllSingle | backend/scraper.js:46 | A single character is dropped exactly when it is the removed character, and kept otherwise. |
| Text.RemoveAllAppend | backend/scraper.js:46 | Removing from a concatenation is removing from each part and concatenating, so the kept characters stay in their original order. |
| Text.Split | backend/scraper.js:229-230 | Parts contain no separator and join back to the input. |
| Text.SplitJoin | backend/scraper.js:102 | Splitting undoes joining on separator-free parts. |
| Text.Utf16LengthSingle | backend/scraper.js:497 | A one-character title passes `length > 1` only outside the Basic Multilingual Plane. |
| Text.ParseIntNatToString | backend/scraper.js:577 | `parseInt` of a decimal rendering gives the number back. |
| Text.NatToStringInjective | backend/cache.js:57-61 | Different page numbers render differently. |
| Ordering.SortBySorted | backend/cache.js:58 | With distinct names, the sort orders the entries strictly and permutes them. |
| Ordering.SortByPermutationInvariant | backend/cache.js:57-58 | The sorted order does not depend on the order the object's entries come in. |
| Ordering.CodePointOrder | backend/cache.js:58 | Code-point order meets the strict-total-order requirement placed on the collation. |
| Cache.GenerateKey | backend/cache.js:53-62 | The key starts with `ccios:<prefix>:`, followed by the string parameter verbatim or the sorted `k=v` pairs joined by `&`. |
| Cache.VerbatimKeyInjective | backend/cache.js:54-56 | Different string parameters under one prefix give different keys. |
| Cache.NamedKeyPermutation | backend/cache.js:57-61 | The key of an object does not depend on the order of its properties. |
| Cache.NamedKeySorted | backend/cache.js:57-61 | The key of an object is its pairs in collation order, joined by `&`. |
| Cache.Ttl | backend/cache.js:14-20 | Home is kept 1800 s and category 900 s. Search, detail and play are kept 604800 s. |
| Cache.Get | backend/cache.js:65-78 | Offline, a failed read or a missing key reads as `null`; a present key reads back exactly the value stored under it. |
| Cache.Set | backend/cache.js:81-91 | The write succeeds exactly when connected and not failing. On success the key holds the value and lifetime. No other key changes. |
| Cache.Del | backend/cache.js:94-103 | The delete succeeds exactly when connected and not failing. On success the key is gone. No other key changes. |
| Cache.ClearByPrefix | backend/cache.js:106-119 | On success, exactly the keys under `ccios:<prefix>:` are gone. No surviving key changes value. |
| Cache.SetThenGet | backend/cache.js:65-91 | A successful write is read back. |
| Cache.SetOtherKey | backend/cache.js:81-91 | A write leaves every other key's reading unchanged. |
| Cache.ClearRemovesGenerated | backend/cache.js:53-62 | Clearing a prefix removes every key generated under it. |
| Cache.WithCache | backend/cache.js:122-138 | A cached non-null value is returned and nothing else happens. Otherwise the fresh answer is returned. It is stored exactly when it is a non-empty array or an object with keys. |
| Cache.EmptyListNotCached | backend/cache.js:133 | An empty list is never stored. |
| Cache.ErrorObjectCached | backend/cache.js:133 | The error-shaped `{url:null, sources:[]}` is stored. |
| Cache.SecondCallHits | backend/cache.js:124-134 | After a stored answer, the next call returns it without producing. |
| Cache.GetStats | backend/cache.js:141-172 | Offline and failed replies are distinguished. Online, there is one count per kind and their sum, which never exceeds the number of keys. |
| Cache.CountAllDisjoint | backend/cache.js:152-160 | The five kinds' key sets are disjoint, so the summed counts equal the size of their union. |
| Cache.OfflineJson | backend/cache.js:142-144 | The offline reply is `{connected:false, keys:0, memory:'0'}`. |
| Encode.EpisodeListJson | backend/scraper.js:403 | The detail object has at least three fields, and its `episodes` field is the encoded episode list. |
| Encode.EpisodesRoundTrip | backend/scraper.js:394-403 | Reading back an encoded episode list gives the episodes unchanged. |
| Encode.DetailEpisodesRoundTrip | backend/server.js:141-143 | The episode list of a detail result survives the cache. |
| Encode.DetailAlwaysWorth | backend/scraper.js:404-407 | Every detail result, the failure object included, passes the store test of `withCache`. |
| Encode.PlayJson | backend/scraper.js:199-202 | The play object has two fields: `url` is the chosen stream or `null`, and `sources` lists every line. |
| Encode.PlayUrlTruthy | backend/server.js:162 | `playInfo.url` is truthy exactly when a non-empty stream was chosen. |
| Encode.PlayAlwaysWorth | backend/scraper.js:203-206 | The failure object `{url:null, sources:[]}` is stored by `withCache`. |
| Encode.ListingsWorth | backend/cache.js:133 | Sections and search hits are stored exactly when there are some. A category page is always stored, even an empty one. |
| Prefetch.PageKey | backend/server.js:135 | A URL's key is `ccios:<kind>:` followed by the URL. |
| Prefetch.PrefetchDetail | backend/server.js:134-151 | A task is queued exactly when the detail key does not read back truthy. A failed read counts as a miss. |
| Prefetch.PrefetchPlay | backend/server.js:154-166 | A task is queued exactly when the play key does not read back truthy. |
| Prefetch.RunDetailJob | backend/server.js:141-149 | A result without episodes changes nothing. One with episodes is stored and read back. Only that key changes. The first three episode links are passed on. |
| Prefetch.RunPlayJob | backend/server.js:159-165 | A resolution is stored only when it chose a non-empty stream. Only that key changes. |
| Prefetch.DetailJobThenSkip | backend/server.js:136-143 | Once a detail task has stored its result, prefetching the page again queues nothing. |
| Prefetch.EmptyDetailRequeued | backend/server.js:142 | A detail without episodes is not stored, so it is queued again next time. |
| Prefetch.PlayJobThenSkip | backend/server.js:156-163 | Once a play task has stored a stream, prefetching it again queues nothing. |
| Prefetch.DetailRouteBlocksPrefetch | backend/server.js:257-260 | The detail route caches every result, an empty one included, so a later prefetch of the page is skipped. |
| Prefetch.FieldRefs | backend/server.js:179-183 | The URLs read are non-empty and at most one per item. Reading stops at the first `null` item. |
| Prefetch.FieldRefsStopsAtNull | backend/server.js:179-183 | A `null` item ends the reading: whatever follows it is never read. |
| Prefetch.FieldRefsEncoded | backend/server.js:179-183 | Read from encoded records, the URLs are the records' own non-empty URLs, in order. |
| Prefetch.FlatItems | backend/server.js:178 | `flatMap` throws exactly when a section is `null`. |
| Prefetch.HomeRouteRefs | backend/server.js:177-184 | At most ten detail URLs, and none for a non-array. |
| Prefetch.HomeRouteRefsOfListing | backend/server.js:177-184 | A fresh listing and the same listing read back from the cache start the same prefetches: the non-empty detail URLs of the first ten items. |
| Prefetch.HomeJob | backend/server.js:25-47 | An empty listing changes nothing. A non-empty one is stored under `ccios:home:recommend` and read back. The detail URLs of the first fifteen items are followed. |
| Prefetch.HomeRouteWithinJob | backend/server.js:36-41 | What the home route prefetches is a prefix of what the scheduled job prefetches from the same listing. |
| Prefetch.CategoryRouteRefs | backend/server.js:205-211 | At most five detail URLs, and none for a falsy result. |
| Prefetch.CategoryRouteRefsOfPage | backend/server.js:205-211 | The route prefetches the non-empty detail URLs among the first five items of the page. |
| Prefetch.CategoryKey | backend/server.js:56 | A category page key lies under `ccios:category:`. |
| Prefetch.CategoryJob | backend/server.js:56-72 | A page without items changes nothing. A page with items is stored and read back. Only page 1 starts prefetches, for its first five items. |
| Prefetch.CategoryJobMatchesRoute | backend/server.js:64-71 | On page 1 the job prefetches exactly what the route would. |
| Prefetch.CategoryVisits | backend/server.js:53-54 | The job visits every category in order, pages 1 to 3 each: twelve visits. |
| Prefetch.SearchRouteRefs | backend/server.js:234-240 | At most one detail URL per hit, and none for a non-array. |
| Prefetch.SearchRouteRefsAll | backend/server.js:234-240 | Every search hit's detail page is prefetched, in order. |
| Prefetch.DetailRouteRefs | backend/server.js:263-269 | A falsy detail prefetches nothing. |
| Prefetch.DetailRouteRefsOfList | backend/server.js:263-269 | The detail route prefetches the play page of every episode with a link. |
| Prefetch.MatchIndex | backend/server.js:315 | The index is that of the first episode whose link equals the URL. It is absent when there is no match, or when a `null` element before the match throws. |
| Prefetch.NextEpisodes | backend/server.js:304-336 | At most five non-empty links, and none without a truthy cached detail. |
| Prefetch.MatchIndexEncoded | backend/server.js:315 | On an encoded episode list, the search finds the first episode playing the URL. |
| Prefetch.NextEpisodesOfList | backend/server.js:315-331 | A cached detail selects the links of the five episodes after the first one playing the URL. |
| Prefetch.NextEpisodesNeedCache | backend/server.js:307-312 | Nothing is selected while the detail is not cached. |
| Prefetch.BatchPrefetch | backend/server.js:339-358 | At most twenty detail URLs and fifty play URLs are taken, each list a prefix of its input. Non-arrays give none. `queued` is the count, at most seventy. |
| Prefetch.ClearAll | backend/server.js:361-378 | A given kind clears that kind only. Clearing never adds or changes a key. |
| Prefetch.ClearEachExact | backend/server.js:368-372 | With the store up, clearing the kinds in turn removes exactly the keys under any of them. |
| Prefetch.ClearAllExact | backend/server.js:364-373 | With no kind given, exactly the keys of the five kinds are removed, and every other key stays. |
| Admission.Admit | backend/server.js:116-119 | When all slots are taken, the task queues at the tail. Otherwise it takes a slot and runs. |
| Admission.Step | backend/server.js:115-131 | The counter rises only below three, by one, and only when a task is admitted to run. |
| Admission.FinishWakesHead | backend/server.js:124-129 | A finishing task gives its slot back and wakes only the head of the queue. |
| Admission.ResumeRechecks | backend/server.js:116-118 | A woken task that finds every slot taken queues again. Otherwise it runs. |
| Admission.StepInv | backend/server.js:111-131 | Every event keeps the invariant: the counter equals the number of running tasks and is at most three, and the queue holds exactly the waiting tasks, once each. |
| Admission.RunBounded | backend/server.js:111-131 | No sequence of events ever lets more than three tasks run. |
| Admission.WokenTaskOvertaken | backend/server.js:116-129 | A task arriving between a wake-up and the woken task's re-check takes the slot. |

## Left out

- HTTP (axios), timeouts and headers become `fetchPage`, `fetchText` and `fetchList`
  parameters that answer `None` when the request throws. The fixed search URL and the `wd`
  query are not modelled.
- HTML parsing with cheerio is not modelled. Module `Document` holds what each selector
  yields, as record fields.
- `JSON.parse` of the player blob is not modelled. The player's `url`, when the blob parses
  and holds a string, is a parameter. A non-string `url` is not modelled.
- `JSON.stringify`/`JSON.parse` through Redis are modelled as the identity on `Json` values.
  Numbers are integers.
- Prefetch.FieldRefs: a truthy non-string `detailUrl` or `link` field is passed on by the
  source but skipped here. The model's encoders never produce one.
- Urls.Origin: `new URL` is reduced to scheme and host for `scheme://host` URLs. Ports,
  credentials, IDNA and percent-encoding are not modelled. Anything else counts as a failed
  parse, which the resolver's handler turns into the original URL.
- Ordering.SortBy: `localeCompare` is any strict total order. The locale collation itself
  is not modelled.
- Cache.GenerateKey: object parameter values are strings. Numbers enter as their decimal
  rendering (see `Prefetch.CategoryKey`). Other value types are not modelled.
- Text.ParseInt: arbitrary precision. The float rounding of very long digit strings is not
  modelled.
- Redis TTL expiry, the `KEYS` glob beyond a plain prefix, the `INFO memory` string and its
  `used_memory_human` match, and connection events are not modelled. The connection is a
  flag and each command has a failure flag.
- Timers (`setTimeout`, `setInterval`, `sleep`), logging, `/health`, the `prefetch` counters
  added to the stats route, and Express response shaping are not modelled. This includes the
  `{error: …}` objects the routes send when a handler throws.
- `Promise.all` is modelled as an order-preserving map. The concurrency of mirror requests is
  not modelled.
- Episodes.ParseEpisodes: when `absoluteUrl(detailUrl)` is null, the source omits
  `detailUrl`. The model writes `None`, which the encoder also omits.
- Admission: the promise interleaving is abstracted into `Arrive`, `Finish` and `Resume`
  events. Task bodies are not modelled.
- The Flutter client code (`flutter/macos/Runner/MainFlutterWindow.swift`) is not part of
  this model. It holds no backend logic.

=== FILE: admission.dfy ===
/** The admission counter in front of the prefetch tasks: at most three run
    at once, later ones wait in a queue of resolvers, and each finishing
    task wakes the head of the queue. A woken task does not take a slot
    handed to it; it re-checks the counter and, when another task got in
    first, queues again at the tail. The interleaving of promises is
    modelled as a sequence of events on one state. */
module Admission {

  /** `MAX_CONCURRENT_PREFETCH`. */
  const MaxConcurrent: nat := 3

  /** Where one task stands: waiting in the queue, woken but not yet
      resumed, running, or finished (successfully or not). */
  datatype Phase = Waiting | Woken | Running | Done

  /** `activePrefetchCount`, `prefetchQueue` (the waiting tasks' resolvers,
      named by task) and each known task's phase. */
  datatype Sched = Sched(active: nat, queue: seq<nat>, phase: map<nat, Phase>)

  /** Something that can happen to the counter. */
  datatype Event =
    | Arrive(task: nat)   // `runPrefetchTask` is called
    | Finish(task: nat)   // the running task settles, its `finally` runs
    | Resume(task: nat)   // a woken task's `await` returns and it re-checks

  function Initial(): Sched {
    Sched(0, [], map[])
  }

  function RunningTasks(s: Sched): set<nat> {
    set t | t in s.phase && s.phase[t] == Running
  }

  /** The invariant: the count is the number of running tasks and at most
      three; the queue holds each waiting task once and nothing else. */
  predicate Inv(s: Sched) {
    && s.active <= MaxConcurrent
    && s.active == |RunningTasks(s)|
    && (forall i, j :: 0 <= i < j < |s.queue| ==> s.queue[i] != s.queue[j])
    && (forall i :: 0 <= i < |s.queue| ==> s.queue[i] in s.phase && s.phase[s.queue[i]] == Waiting)
    && (forall t :: t in s.phase && s.phase[t] == Waiting ==> t in s.queue)
  }

  /** The `while` test and what follows it, for a new or a woken task: with
      all slots taken the task queues at the tail, otherwise it takes a slot. */
  function Admit(s: Sched, t: nat): (r: Sched)
    ensures s.active >= MaxConcurrent ==> r == Sched(s.active, s.queue + [t], s.phase[t := Waiting])
    ensures s.active < MaxConcurrent ==> r == Sched(s.active + 1, s.queue, s.phase[t := Running])
  {
    if s.active >= MaxConcurrent then Sched(s.active, s.queue + [t], s.phase[t := Waiting])
    else Sched(s.active + 1, s.queue, s.phase[t := Running])
  }

  /** One event. An event that does not apply (an unknown task finishing, a
      task arriving twice) changes nothing. */
  function Step(s: Sched, e: Event): (r: Sched)
    ensures r.active > s.active ==> s.active < MaxConcurrent
    ensures r.active > s.active ==> r.active == s.active + 1
    ensures r.active > s.active ==> !e.Finish? && e.task in r.phase && r.phase[e.task] == Running
  {
    match e
    case Arrive(t) =>
      if t in s.phase then s else Admit(s, t)
    case Finish(t) =>
      if t !in s.phase || s.phase[t] != Running || s.active == 0 then s
      else
        var done := Sched(s.active - 1, s.queue, s.phase[t := Done]);
        if done.queue == [] then done
        else Sched(done.active, done.queue[1..], done.phase[done.queue[0] := Woken])
    case Resume(t) =>
      if t !in s.phase || s.phase[t] != Woken then s else Admit(s, t)
  }

  /** A finishing task, failed or not, gives its slot back and wakes at most
      one waiter, the head of the queue; no other task changes phase. */
  lemma FinishWakesHead(s: Sched, t: nat)
    requires Inv(s) && t in s.phase && s.phase[t] == Running
    ensures var r := Step(s, Finish(t));
            && r.active + 1 == s.active
            && t in r.phase && r.phase[t] == Done
            && (s.queue == [] ==> r.queue == [] && r.phase == s.phase[t := Done])
            && (s.queue != [] ==> r.queue == s.queue[1..] && r.phase == s.phase[t := Done][s.queue[0] := Woken])
  {
    assert t in RunningTasks(s);
    if s.queue != [] {
      assert s.phase[s.queue[0]] == Waiting;
    }
  }

  /** A woken task that finds every slot taken queues again at the tail and
      does not run; finding a free slot it runs at once. */
  lemma ResumeRechecks(s: Sched, t: nat)
    requires Inv(s) && t in s.phase && s.phase[t] == Woken
    ensures var r := Step(s, Resume(t));
            && (s.active >= MaxConcurrent ==> r.queue == s.queue + [t] && r.phase[t] == Waiting && r.active == s.active)
            && (s.active < MaxConcurrent ==> r.queue == s.queue && r.phase[t] == Running && r.active == s.active + 1)
  {
  }

  lemma SetPlusOne(a: set<nat>, t: nat)
    requires t !in a
    ensures |a + {t}| == |a| + 1
  {
  }

  lemma SetMinusOne(a: set<nat>, t: nat)
    requires t in a
    ensures |a - {t}| == |a| - 1
  {
  }

  lemma RunningAdmit(s: Sched, t: nat)
    requires t !in s.phase || s.phase[t] != Running
    ensures s.active < MaxConcurrent ==> RunningTasks(Admit(s, t)) == RunningTasks(s) + {t}
    ensures s.active >= MaxConcurrent ==> RunningTasks(Admit(s, t)) == RunningTasks(s)
  {
  }

  /** Admitting a task that is not yet waiting keeps the invariant. */
  lemma AdmitInv(s: Sched, t: nat)
    requires Inv(s)
    requires t !in s.phase || s.phase[t] == Woken
    ensures Inv(Admit(s, t))
  {
    RunningAdmit(s, t);
    var r := Admit(s, t);
    if s.active < MaxConcurrent {
      SetPlusOne(RunningTasks(s), t);
    } else {
      assert t !in s.queue;
      forall i | 0 <= i < |r.queue| ensures r.queue[i] in r.phase && r.phase[r.queue[i]] == Waiting {
        if i < |s.queue| {
          assert r.queue[i] == s.queue[i];
        }
      }
    }
  }

  /** Finishing a running task keeps the invariant. */
  lemma FinishInv(s: Sched, t: nat)
    requires Inv(s) && t in s.phase && s.phase[t] == Running
    ensures Inv(Step(s, Finish(t)))
  {
    assert t in RunningTasks(s);
    var done := Sched(s.active - 1, s.queue, s.phase[t := Done]);
    assert RunningTasks(done) == RunningTasks(s) - {t};
    SetMinusOne(RunningTasks(s), t);
    if s.queue != [] {
      var h := s.queue[0];
      var r := Step(s, Finish(t));
      assert RunningTasks(r) == RunningTasks(done);
      forall i | 0 <= i < |r.queue| ensures r.queue[i] in r.phase && r.phase[r.queue[i]] == Waiting {
        assert r.queue[i] == s.queue[i + 1];
      }
      forall u | u in r.phase && r.phase[u] == Waiting ensures u in r.queue {
        assert u in s.queue && u != h;
        var k :| 0 <= k < |s.queue| && s.queue[k] == u;
        assert r.queue[k - 1] == u;
      }
    }
  }

  /** Every event keeps the invariant. */
  lemma StepInv(s: Sched, e: Event)
    requires Inv(s)
    ensures Inv(Step(s, e))
  {
    match e
    case Arrive(t) =>
      if t !in s.phase {
        AdmitInv(s, t);
      }
    case Finish(t) =>
      if t in s.phase && s.phase[t] == Running {
        FinishInv(s, t);
      }
    case Resume(t) =>
      if t in s.phase && s.phase[t] == Woken {
        AdmitInv(s, t);
      }
  }

  /** The state after a run of events. */
  function Run(s: Sched, events: seq<Event>): Sched
    decreases |events|
  {
    if events == [] then s else Run(Step(s, events[0]), events[1..])
  }

  /** No run of events ever lets more than three tasks run at once. */
  lemma {:induction false} RunBounded(s: Sched, events: seq<Event>)
    requires Inv(s)
    ensures Inv(Run(s, events))
    ensures Run(s, events).active <= MaxConcurrent
    decreases |events|
  {
    if events != [] {
      StepInv(s, events[0]);
      RunBounded(Step(s, events[0]), events[1..]);
    }
  }

  lemma InitialInv()
    ensures Inv(Initial())
  {
    assert RunningTasks(Initial()) == {};
  }

  /** Admission is not first-come-first-served: task 3 waits, task 0
      finishes and wakes it, but task 4 arrives before 3 resumes, takes the
      slot, and sends 3 back to the tail of the queue. */
  lemma WokenTaskOvertaken()
    ensures var s := Run(Initial(), [Arrive(0), Arrive(1), Arrive(2), Arrive(3), Finish(0), Arrive(4), Resume(3)]);
            && s.phase[4] == Running && s.phase[3] == Waiting
            && s.queue == [3] && s.active == MaxConcurrent
  {
  }
}

=== FILE: cache.dfy ===
/** The cache-aside layer of backend/cache.js: key construction, the TTL
    table, a fail-open store over a connection flag and a key/value map,
    `withCache` and the key counts of `getStats`. Redis is the map; its
    expiry clock is not modelled, and a command that throws is a `fault`
    argument. */
module Cache {
  import opened Options
  import opened Text
  import opened Lists
  import opened Json
  import opened Ordering

  // ---------------------------------------------------------------------------
  // generateKey
  // ---------------------------------------------------------------------------

  const Namespace: string := "ccios"

  /** One own property of a parameter object, its value already in the
      string form a template literal gives it. */
  datatype Param = Param(name: string, value: string)

  /** The `params` argument: a string used verbatim, or an object. */
  datatype Params = Verbatim(text: string) | Named(entries: seq<Param>)

  /** `ccios:<prefix>:`, the start of every key of one kind. */
  function KeyPrefix(prefix: string): (r: string)
    ensures |r| == |prefix| + 7
  {
    Namespace + ":" + prefix + ":"
  }

  function NameOf(p: Param): string {
    p.name
  }

  function PairText(p: Param): string {
    p.name + "=" + p.value
  }

  /** `parts.join(sep)`, also for no parts. */
  function JoinAll(parts: seq<string>, sep: char): (r: string)
    ensures parts == [] ==> r == ""
    ensures parts != [] ==> r == Join(parts, sep)
  {
    if parts == [] then "" else Join(parts, sep)
  }

  /** The object form: `name=value` pairs ordered by name under the
      collation `less`, joined with `&`. */
  function ParamText(entries: seq<Param>, less: (string, string) -> bool): string {
    JoinAll(Map(SortBy(entries, NameOf, less), PairText), '&')
  }

  /** `generateKey(prefix, params)`. */
  function GenerateKey(prefix: string, params: Params, less: (string, string) -> bool): (key: string)
    ensures StartsWith(key, KeyPrefix(prefix))
    ensures params.Verbatim? ==> key[|KeyPrefix(prefix)|..] == params.text
    ensures params.Named? ==> key[|KeyPrefix(prefix)|..] == ParamText(params.entries, less)
  {
    var body := match params
      case Verbatim(text) => text
      case Named(entries) => ParamText(entries, less);
    var key := KeyPrefix(prefix) + body;
    assert key[..|KeyPrefix(prefix)|] == KeyPrefix(prefix);
    assert key[|KeyPrefix(prefix)|..] == body;
    key
  }

  /** Distinct string parameters give distinct keys. */
  lemma VerbatimKeyInjective(prefix: string, a: string, b: string, less: (string, string) -> bool)
    requires GenerateKey(prefix, Verbatim(a), less) == GenerateKey(prefix, Verbatim(b), less)
    ensures a == b
  {
  }

  /** An object's key does not depend on the order of its properties: any
      reordering of the same entries (names compare unequal when they
      differ) yields the same key. */
  lemma NamedKeyPermutation(prefix: string, e1: seq<Param>, e2: seq<Param>, less: (string, string) -> bool)
    requires StrictTotalOrder(less)
    requires Distinct(e1, NameOf)
    requires multiset(e1) == multiset(e2)
    ensures GenerateKey(prefix, Named(e1), less) == GenerateKey(prefix, Named(e2), less)
  {
    SortByPermutationInvariant(e1, e2, NameOf, less);
  }

  /** Reference form of the object part: the pairs of the one arrangement
      of the entries that is ordered by name. */
  lemma NamedKeySorted(entries: seq<Param>, sorted: seq<Param>, less: (string, string) -> bool)
    requires StrictTotalOrder(less)
    requires Distinct(entries, NameOf)
    requires SortedBy(sorted, NameOf, less) && multiset(sorted) == multiset(entries)
    ensures ParamText(entries, less) == JoinAll(Map(sorted, PairText), '&')
  {
    SortBySorted(entries, NameOf, less);
    SortedUnique(SortBy(entries, NameOf, less), sorted, NameOf, less);
  }

  // ---------------------------------------------------------------------------
  // TTL
  // ---------------------------------------------------------------------------

  const Minute: nat := 60
  const Day: nat := 24 * 60 * Minute

  /** The kinds of cached answer, one TTL each. */
  datatype Kind = Home | Category | Search | Detail | PlayUrl

  /** Seconds an entry of each kind is kept: home half an hour, category a
      quarter of an hour, the rest a week. */
  function Ttl(kind: Kind): (seconds: nat)
    ensures kind == Home ==> seconds == 1800
    ensures kind == Category ==> seconds == 900
    ensures kind in {Search, Detail, PlayUrl} ==> seconds == 604800
  {
    match kind
    case Home => 30 * Minute
    case Category => 15 * Minute
    case Search => 7 * Day
    case Detail => 7 * Day
    case PlayUrl => 7 * Day
  }

  // ---------------------------------------------------------------------------
  // The store
  // ---------------------------------------------------------------------------

  /** A stored value with the TTL it was written with. */
  datatype Entry = Entry(value: Json, ttl: nat)

  /** The connection flag and the key space. */
  datatype Store = Store(connected: bool, data: map<string, Entry>)

  /** The reply of a write-like command: the new store and the boolean the
      function returns. */
  datatype Reply = Reply(store: Store, ok: bool)

  /** `get(key)`: `null` when disconnected, on a fault, or when the key is
      absent; otherwise the stored value (the JSON text round trip is the
      identity). */
  function Get(st: Store, key: string, fault: bool): (v: Json)
    ensures (!st.connected || fault || key !in st.data) ==> v == Null
    ensures st.connected && !fault && key in st.data ==> v == st.data[key].value
  {
    if !st.connected || fault || key !in st.data then Null else st.data[key].value
  }

  /** `set(key, value, ttl)`. */
  function Set(st: Store, key: string, value: Json, ttl: nat, fault: bool): (r: Reply)
    ensures r.ok <==> st.connected && !fault
    ensures !r.ok ==> r.store == st
    ensures r.store.connected == st.connected
    ensures r.ok ==> key in r.store.data && r.store.data[key] == Entry(value, ttl)
    ensures forall k :: k != key ==> (k in r.store.data <==> k in st.data)
    ensures forall k :: k != key && k in st.data ==> r.store.data[k] == st.data[k]
  {
    if !st.connected || fault then Reply(st, false)
    else Reply(Store(st.connected, st.data[key := Entry(value, ttl)]), true)
  }

  /** `del(key)`. */
  function Del(st: Store, key: string, fault: bool): (r: Reply)
    ensures r.ok <==> st.connected && !fault
    ensures !r.ok ==> r.store == st
    ensures r.store.connected == st.connected
    ensures r.ok ==> key !in r.store.data
    ensures forall k :: k != key ==> (k in r.store.data <==> k in st.data)
    ensures forall k :: k != key && k in st.data ==> r.store.data[k] == st.data[k]
  {
    if !st.connected || fault then Reply(st, false)
    else Reply(Store(st.connected, st.data - {key}), true)
  }

  /** `clearByPrefix(prefix)`: removes the keys the pattern `ccios:<prefix>:*`
      matches (the prefix words are plain, so the pattern is a prefix test). */
  function ClearByPrefix(st: Store, prefix: string, fault: bool): (r: Reply)
    ensures r.ok <==> st.connected && !fault
    ensures !r.ok ==> r.store == st
    ensures r.store.connected == st.connected
    ensures r.ok ==> forall k :: k in r.store.data <==> k in st.data && !StartsWith(k, KeyPrefix(prefix))
    ensures forall k :: k in r.store.data ==> k in st.data && r.store.data[k] == st.data[k]
  {
    if !st.connected || fault then Reply(st, false)
    else
      var kept := map k | k in st.data && !StartsWith(k, KeyPrefix(prefix)) :: st.data[k];
      Reply(Store(st.connected, kept), true)
  }

  /** A value written while connected is read back. */
  lemma SetThenGet(st: Store, key: string, value: Json, ttl: nat)
    requires st.connected
    ensures Get(Set(st, key, value, ttl, false).store, key, false) == value
  {
  }

  /** A write leaves every other key's reading alone. */
  lemma SetOtherKey(st: Store, key: string, other: string, value: Json, ttl: nat, fault: bool)
    requires other != key
    ensures Get(Set(st, key, value, ttl, fault).store, other, false) == Get(st, other, false)
  {
  }

  /** Clearing one kind removes every key generated for it. */
  lemma ClearRemovesGenerated(st: Store, prefix: string, params: Params, less: (string, string) -> bool)
    requires st.connected
    ensures Get(ClearByPrefix(st, prefix, false).store, GenerateKey(prefix, params, less), false) == Null
  {
  }

  // ---------------------------------------------------------------------------
  // withCache
  // ---------------------------------------------------------------------------

  /** The "store only valid data" test: truthy, and a non-empty array or a
      value with at least one own key. */
  predicate Worth(v: Json) {
    Truthy(v) && (if v.Arr? then |v.items| > 0 else KeyCount(v) > 0)
  }

  /** What `withCache` leaves behind: its result (`None` when the producer
      threw, which `withCache` passes on), the store, and whether the
      producer ran. */
  datatype Outcome = Outcome(result: Option<Json>, store: Store, produced: bool)

  /** `withCache(key, ttl, fetchFn)`: `answer` is what `fetchFn` would
      produce; `getFault` and `setFault` are failures of the two Redis
      commands. */
  function WithCache(st: Store, key: string, ttl: nat, answer: Option<Json>, getFault: bool, setFault: bool): (o: Outcome)
    ensures Get(st, key, getFault) != Null ==> o == Outcome(Some(Get(st, key, getFault)), st, false)
    ensures Get(st, key, getFault) == Null ==> o.produced && o.result == answer
    ensures Get(st, key, getFault) == Null && answer.Some? && Worth(answer.value) ==>
              o.store == Set(st, key, answer.value, ttl, setFault).store
    ensures !(answer.Some? && Worth(answer.value)) ==> o.store == st
    ensures o.store.connected == st.connected
  {
    var cached := Get(st, key, getFault);
    if cached != Null then Outcome(Some(cached), st, false)
    else
      match answer
      case None => Outcome(None, st, true)
      case Some(v) =>
        if Worth(v) then Outcome(answer, Set(st, key, v, ttl, setFault).store, true)
        else Outcome(answer, st, true)
  }

  /** An empty list is never cached, so the next request produces again. */
  lemma EmptyListNotCached(st: Store, key: string, ttl: nat, getFault: bool, setFault: bool)
    ensures WithCache(st, key, ttl, Some(Arr([])), getFault, setFault).store == st
  {
  }

  /** An error object with one or more fields is cached like a real answer. */
  lemma ErrorObjectCached(st: Store, key: string, ttl: nat)
    requires st.connected && key !in st.data
    ensures var err := Obj([("url", Null), ("sources", Arr([]))]);
            Get(WithCache(st, key, ttl, Some(err), false, false).store, key, false) == err
  {
  }

  /** After a miss that stored its answer, the same key is a hit: the second
      call returns the first answer without producing. */
  lemma SecondCallHits(st: Store, key: string, ttl: nat, v: Json, answer: Option<Json>)
    requires st.connected && key !in st.data && Worth(v)
    ensures var first := WithCache(st, key, ttl, Some(v), false, false);
            var second := WithCache(first.store, key, ttl, answer, false, false);
            second.result == Some(v) && !second.produced && second.store == first.store
  {
    assert v != Null;
  }

  // ---------------------------------------------------------------------------
  // getStats
  // ---------------------------------------------------------------------------

  /** The kinds `getStats` counts, in its order. */
  const StatPrefixes: seq<string> := ["home", "category", "search", "detail", "play"]

  /** The counting part of `getStats`; the memory figure read from `INFO`
      is not modelled. */
  datatype Stats = Offline | Online(counts: seq<nat>, totalKeys: nat) | Failed

  /** The keys of one kind: what `redis.keys('ccios:<prefix>:*')` lists. */
  function Matching(st: Store, prefix: string): set<string> {
    set k | k in st.data && StartsWith(k, KeyPrefix(prefix))
  }

  /** `redis.keys('ccios:<prefix>:*').length`. */
  function CountPrefix(st: Store, prefix: string): nat {
    |Matching(st, prefix)|
  }

  function Sum(xs: seq<nat>): nat {
    if xs == [] then 0 else xs[0] + Sum(xs[1..])
  }

  lemma SumAppend(xs: seq<nat>, x: nat)
    ensures Sum(xs + [x]) == Sum(xs) + x
  {
    if xs != [] {
      assert (xs + [x])[1..] == xs[1..] + [x];
      SumAppend(xs[1..], x);
    }
  }

  /** `getStats()`: offline when disconnected, failed when a command throws,
      otherwise one count per kind and their sum, which never exceeds the
      number of keys since the kinds' keys are disjoint. */
  method GetStats(st: Store, fault: bool) returns (stats: Stats)
    ensures !st.connected ==> stats == Offline
    ensures st.connected && fault ==> stats == Failed
    ensures st.connected && !fault ==>
              && stats.Online?
              && |stats.counts| == |StatPrefixes|
              && (forall i :: 0 <= i < |StatPrefixes| ==> stats.counts[i] == CountPrefix(st, StatPrefixes[i]))
              && stats.totalKeys == Sum(stats.counts)
              && stats.totalKeys <= |st.data|
  {
    if !st.connected {
      return Offline;
    }
    if fault {
      return Failed;
    }
    var counts: seq<nat> := [];
    var total: nat := 0;
    var i := 0;
    while i < |StatPrefixes|
      invariant 0 <= i <= |StatPrefixes|
      invariant |counts| == i
      invariant forall j :: 0 <= j < i ==> counts[j] == CountPrefix(st, StatPrefixes[j])
      invariant total == Sum(counts)
    {
      var n := CountPrefix(st, StatPrefixes[i]);
      SumAppend(counts, n);
      counts := counts + [n];
      total := total + n;
      i := i + 1;
    }
    StatPrefixesDisjoint();
    SumCounts(counts, st, StatPrefixes);
    CountAllDisjoint(st, StatPrefixes);
    SubsetSize(MatchingAny(st, StatPrefixes), st.data.Keys);
    stats := Online(counts, total);
  }

  /** The keys of any of several kinds. */
  function MatchingAny(st: Store, ps: seq<string>): (r: set<string>)
    ensures r <= st.data.Keys
  {
    if ps == [] then {} else Matching(st, ps[0]) + MatchingAny(st, ps[1..])
  }

  lemma SubsetSize(a: set<string>, b: set<string>)
    requires a <= b
    ensures |a| <= |b|
  {
    assert b == a + (b - a);
    assert a * (b - a) == {};
  }

  /** The total of the per-kind counts. */
  function CountAll(st: Store, ps: seq<string>): nat {
    if ps == [] then 0 else CountPrefix(st, ps[0]) + CountAll(st, ps[1..])
  }

  /** Kind words that are non-empty and start with different letters. */
  predicate FirstLettersDistinct(ps: seq<string>) {
    && (forall i :: 0 <= i < |ps| ==> ps[i] != "")
    && (forall i, j :: 0 <= i < j < |ps| ==> ps[i][0] != ps[j][0])
  }

  lemma StatPrefixesDisjoint()
    ensures FirstLettersDistinct(StatPrefixes)
  {
  }

  lemma {:induction false} SumCounts(counts: seq<nat>, st: Store, ps: seq<string>)
    requires |counts| == |ps|
    requires forall i :: 0 <= i < |ps| ==> counts[i] == CountPrefix(st, ps[i])
    ensures Sum(counts) == CountAll(st, ps)
  {
    if ps != [] {
      SumCounts(counts[1..], st, ps[1..]);
    }
  }

  /** A key of kind `p` carries the first letter of `p` right after `ccios:`. */
  lemma KindLetter(k: string, p: string)
    requires p != "" && StartsWith(k, KeyPrefix(p))
    ensures |k| > 6 && k[6] == p[0]
  {
    assert k[6] == k[..|KeyPrefix(p)|][6] == KeyPrefix(p)[6];
  }

  lemma {:induction false} MatchingAnyKinds(st: Store, ps: seq<string>, k: string)
    requires k in MatchingAny(st, ps)
    ensures exists j :: 0 <= j < |ps| && StartsWith(k, KeyPrefix(ps[j]))
  {
    if k !in Matching(st, ps[0]) {
      MatchingAnyKinds(st, ps[1..], k);
      var j :| 0 <= j < |ps[1..]| && StartsWith(k, KeyPrefix(ps[1..][j]));
      assert ps[1..][j] == ps[j + 1];
    }
  }

  /** Keys of kinds with different first letters never overlap, so the
      counts add up to the number of keys of any of the kinds. */
  lemma {:induction false} CountAllDisjoint(st: Store, ps: seq<string>)
    requires FirstLettersDistinct(ps)
    ensures CountAll(st, ps) == |MatchingAny(st, ps)|
  {
    if ps != [] {
      var rest := ps[1..];
      assert FirstLettersDistinct(rest) by {
        forall i, j | 0 <= i < j < |rest| ensures rest[i][0] != rest[j][0] {
          assert rest[i] == ps[i + 1] && rest[j] == ps[j + 1];
        }
      }
      CountAllDisjoint(st, rest);
      var a := Matching(st, ps[0]);
      var b := MatchingAny(st, rest);
      forall k | k in a ensures k !in b {
        if k in b {
          MatchingAnyKinds(st, rest, k);
          var j :| 0 <= j < |rest| && StartsWith(k, KeyPrefix(rest[j]));
          KindLetter(k, ps[0]);
          KindLetter(k, rest[j]);
          assert false;
        }
      }
      assert a * b == {};
      assert |a + b| == |a| + |b|;
    }
  }

  /** `{connected:false, keys:0, memory:'0'}`, the offline answer. */
  function OfflineJson(): (v: Json)
    ensures Field(v, "connected") == Bool(false) && Field(v, "keys") == Num(0) && Field(v, "memory") == Str("0")
  {
    Obj([("connected", Bool(false)), ("keys", Num(0)), ("memory", Str("0"))])
  }
}

=== FILE: capture.dfy ===
/** The three regular expressions of the scraper that are not whole-string
    tests, as first-match searches over `seq<char>`:
      - `<open>(.*?)<close>` and `<open>(.+?)<close>`: a lazy capture between
        two delimiters that may not cross a line (`"url":"…"`, `《…》`);
      - `(\d+)`: the first run of ASCII digits;
      - `-----(\d+)\.html`: a page number inside a pagination link. */
module Capture {
  import opened Options
  import opened Text

  // ---------------------------------------------------------------------------
  // Lazy delimited capture
  // ---------------------------------------------------------------------------

  /** No line terminator among `s[lo..hi]`. */
  predicate SingleLine(s: string, lo: int, hi: int)
    requires 0 <= lo && hi <= |s|
  {
    forall m :: lo <= m < hi ==> !IsLineTerminator(s[m])
  }

  /** `<open>(.{min,}?)<close>` matches at `i` and the closing character is at
      `j`: the captured text `s[i + |open|..j]` has at least `min` characters
      and no line terminator, and `j` is the first `close` once the `min`
      mandatory characters are consumed (the lazy quantifier stops there). */
  predicate MatchAt(s: string, open: string, close: char, min: nat, i: int, j: int) {
    && OccursAt(s, open, i)
    && i + |open| + min <= j < |s|
    && s[j] == close
    && SingleLine(s, i + |open|, j)
    && (forall m :: i + |open| + min <= m < j ==> s[m] != close)
  }

  /** First `close` at or after `k`, provided no line terminator comes first. */
  function CloseFrom(s: string, close: char, k: nat): (j: Option<nat>)
    requires !IsLineTerminator(close)
    ensures j.Some? ==> k <= j.value < |s| && s[j.value] == close
    ensures j.Some? ==> SingleLine(s, k, j.value) && forall m :: k <= m < j.value ==> s[m] != close
    ensures j.None? ==> forall e :: k <= e < |s| && s[e] == close ==> !SingleLine(s, k, e)
    decreases |s| - k
  {
    if k >= |s| then None
    else if s[k] == close then Some(k)
    else if IsLineTerminator(s[k]) then None
    else CloseFrom(s, close, k + 1)
  }

  /** Where the capture that starts at `start` ends, if it can. */
  function CaptureEnd(s: string, close: char, min: nat, start: nat): (j: Option<nat>)
    requires !IsLineTerminator(close)
    ensures j.Some? ==> start + min <= j.value < |s| && s[j.value] == close
    ensures j.Some? ==> SingleLine(s, start, j.value) && forall m :: start + min <= m < j.value ==> s[m] != close
  {
    if start + min > |s| || !SingleLine(s, start, start + min) then None
    else CloseFrom(s, close, start + min)
  }

  /** No match of the expression starts at `i`. */
  ghost predicate NoMatchAt(s: string, open: string, close: char, min: nat, i: int) {
    forall j :: !MatchAt(s, open, close, min, i, j)
  }

  lemma CaptureEndComplete(s: string, open: string, close: char, min: nat, i: nat, j: int)
    requires !IsLineTerminator(close)
    requires MatchAt(s, open, close, min, i, j)
    ensures CaptureEnd(s, close, min, i + |open|) == Some(j)
  {
    var start := i + |open|;
    assert SingleLine(s, start, start + min);
    assert SingleLine(s, start + min, j);
    var r := CloseFrom(s, close, start + min);
    assert r.Some?;
  }

  /** The leftmost match at or after `from`, as (start, index of close). */
  function FindMatch(s: string, open: string, close: char, min: nat, from: nat): (r: Option<(nat, nat)>)
    requires !IsLineTerminator(close)
    ensures r.Some? ==> from <= r.value.0 && MatchAt(s, open, close, min, r.value.0, r.value.1)
    ensures r.Some? ==> forall i :: from <= i < r.value.0 ==> NoMatchAt(s, open, close, min, i)
    ensures r.None? ==> forall i :: from <= i ==> NoMatchAt(s, open, close, min, i)
    decreases |s| - from
  {
    if from + |open| > |s| then
      None
    else
      var e := if OccursAt(s, open, from) then CaptureEnd(s, close, min, from + |open|) else None;
      if e.Some? then Some((from, e.value))
      else
        assert NoMatchAt(s, open, close, min, from) by {
          forall j | MatchAt(s, open, close, min, from, j) ensures false {
            CaptureEndComplete(s, open, close, min, from, j);
          }
        }
        FindMatch(s, open, close, min, from + 1)
  }

  /** No start position matches, so no (start, close) pair matches. */
  lemma NoMatchAnywhere(s: string, open: string, close: char, min: nat)
    requires forall i :: 0 <= i ==> NoMatchAt(s, open, close, min, i)
    ensures forall i, j :: !MatchAt(s, open, close, min, i, j)
  {
    forall i, j
      ensures !MatchAt(s, open, close, min, i, j)
    {
      if 0 <= i {
        assert NoMatchAt(s, open, close, min, i);
      }
    }
  }

  /** `s.match(/<open>(.{min,}?)<close>/)[1]`: the text captured by the
      leftmost match, or `None` when the expression does not match. */
  function LazyCapture(s: string, open: string, close: char, min: nat): (c: Option<string>)
    requires !IsLineTerminator(close)
    ensures c.Some? ==> |c.value| >= min
    ensures c.Some? ==> exists i, j :: MatchAt(s, open, close, min, i, j) && c.value == s[i + |open|..j]
    ensures c.None? ==> forall i :: 0 <= i ==> NoMatchAt(s, open, close, min, i)
  {
    match FindMatch(s, open, close, min, 0)
    case None => None
    case Some((i, j)) => Some(s[i + |open|..j])
  }

  /** With an optional capture (`min == 0`) the captured text never contains
      the closing character: the lazy quantifier stops at the first one. */
  lemma LazyCaptureStopsAtClose(s: string, open: string, close: char)
    requires !IsLineTerminator(close)
    requires LazyCapture(s, open, close, 0).Some?
    ensures close !in LazyCapture(s, open, close, 0).value
  {
    var r := FindMatch(s, open, close, 0, 0);
    var i, j := r.value.0, r.value.1;
    var c := s[i + |open|..j];
    assert forall m :: 0 <= m < |c| ==> c[m] == s[i + |open| + m];
  }

  // ---------------------------------------------------------------------------
  // (\d+)
  // ---------------------------------------------------------------------------

  /** Length of the run of digits starting at `k`. */
  function DigitRunLength(s: string, k: nat): (n: nat)
    requires k <= |s|
    ensures k + n <= |s|
    ensures AllDigits(s[k..k + n])
    ensures k + n == |s| || !IsDigit(s[k + n])
    decreases |s| - k
  {
    if k < |s| && IsDigit(s[k]) then
      var n := 1 + DigitRunLength(s, k + 1);
      assert s[k..k + n] == [s[k]] + s[k + 1..k + n];
      n
    else 0
  }

  /** The first maximal run of digits at or after `k`, as [start, end). */
  function DigitRunFrom(s: string, k: nat): (r: Option<(nat, nat)>)
    requires k <= |s|
    ensures r.Some? ==> k <= r.value.0 < r.value.1 <= |s|
    ensures r.Some? ==> AllDigits(s[r.value.0..r.value.1]) && (r.value.1 == |s| || !IsDigit(s[r.value.1]))
    ensures r.Some? ==> forall m :: k <= m < r.value.0 ==> !IsDigit(s[m])
    ensures r.None? ==> forall m :: k <= m < |s| ==> !IsDigit(s[m])
    decreases |s| - k
  {
    if k == |s| then None
    else if IsDigit(s[k]) then Some((k, k + DigitRunLength(s, k)))
    else DigitRunFrom(s, k + 1)
  }

  /** `s.match(/(\d+)/)[1]`: the leftmost run of digits, taken whole. */
  function FirstDigitRun(s: string): (d: Option<string>)
    ensures d.Some? ==> d.value != [] && AllDigits(d.value)
    ensures d.None? <==> forall m :: 0 <= m < |s| ==> !IsDigit(s[m])
  {
    match DigitRunFrom(s, 0)
    case None => None
    case Some((a, b)) =>
      assert s[a..b][0] == s[a];
      Some(s[a..b])
  }

  /** The leftmost digit run is preceded only by non-digits and is maximal:
      `s` splits as (non-digits) + run + (rest not starting with a digit). */
  lemma FirstDigitRunSplit(s: string)
    requires FirstDigitRun(s).Some?
    ensures exists a, b :: (0 <= a < b <= |s| && s[a..b] == FirstDigitRun(s).value
                            && (forall m :: 0 <= m < a ==> !IsDigit(s[m])) && (b == |s| || !IsDigit(s[b])))
  {
    var r := DigitRunFrom(s, 0).value;
    assert s[r.0..r.1] == FirstDigitRun(s).value;
  }

  // ---------------------------------------------------------------------------
  // -----(\d+)\.html
  // ---------------------------------------------------------------------------

  const PageMarker: string := "-----"
  const HtmlSuffix: string := ".html"

  /** `-----(\d+)\.html` matches at `i`. Digits are taken greedily and `.` is
      not a digit, so backtracking never shortens the run. */
  predicate PageHrefAt(s: string, i: int) {
    && OccursAt(s, PageMarker, i)
    && DigitRunLength(s, i + 5) > 0
    && OccursAt(s, HtmlSuffix, i + 5 + DigitRunLength(s, i + 5))
  }

  function FindPageHref(s: string, from: nat): (r: Option<nat>)
    ensures r.Some? ==> from <= r.value && PageHrefAt(s, r.value)
    ensures r.Some? ==> forall i :: from <= i < r.value ==> !PageHrefAt(s, i)
    ensures r.None? ==> forall i :: from <= i ==> !PageHrefAt(s, i)
    decreases |s| - from
  {
    if from + 5 > |s| then None
    else if PageHrefAt(s, from) then Some(from)
    else FindPageHref(s, from + 1)
  }

  /** `href.match(/-----(\d+)\.html/)[1]`: the digits of the leftmost match. */
  function PageDigits(s: string): (d: Option<string>)
    ensures d.Some? ==> d.value != [] && AllDigits(d.value)
    ensures d.Some? ==> exists i :: PageHrefAt(s, i) && d.value == s[i + 5..i + 5 + DigitRunLength(s, i + 5)]
    ensures d.None? ==> forall i :: 0 <= i ==> !PageHrefAt(s, i)
  {
    match FindPageHref(s, 0)
    case None => None
    case Some(i) => Some(s[i + 5..i + 5 + DigitRunLength(s, i + 5)])
  }
}

=== FILE: detail.dfy ===
/** Detail-page metadata of backend/scraper.js: `parseDetailInfo`, which reads
    the page's structured blocks, and `parseInfoFromHtml`, the fallback that
    reads `<title>` and the `<meta>` tags. */
module Detail {
  import opened Options
  import opened Text
  import opened Lists
  import opened Capture
  import opened Urls
  import opened Document

  /** The site's own name, which is never a useful title or tag. */
  const Brand: string := "策驰影院"
  const UnknownTitle: string := "未知标题"
  const DefaultLabel: string := "信息"
  const MaxTags: nat := 8
  const MaxFacts: nat := 6
  const TitleOpen: string := "《"
  const TitleClose: char := '》'

  /** One `extra` entry, `{label, value}`: a labelled fact such as the year or
      the director (`label` is a Dafny keyword, hence `caption`). */
  datatype Fact = Fact(caption: string, value: string)

  /** The detail metadata of a title. */
  datatype Info = Info(title: string, cover: Option<string>, description: string, tags: seq<string>, extra: seq<Fact>)

  /** A tag worth keeping: non-empty and not the site's name. */
  predicate IsTagText(s: string) {
    s != "" && s != Brand
  }

  // ---------------------------------------------------------------------------
  // parseInfoFromHtml
  // ---------------------------------------------------------------------------

  /** The trimmed parts of the keywords that are usable tags. */
  function KeywordCandidates(keywords: string): seq<string> {
    Filter(Map(Split(keywords, ','), Trim), IsTagText)
  }

  lemma KeywordCandidate(keywords: string, x: string)
    requires x in KeywordCandidates(keywords)
    ensures IsTagText(x) && IsTrimmed(x) && ',' !in x
    ensures exists p :: p in Split(keywords, ',') && x == Trim(p)
  {
    var parts := Split(keywords, ',');
    var trimmed := Map(parts, Trim);
    var kept := Filter(trimmed, IsTagText);
    var i :| 0 <= i < |kept| && kept[i] == x;
    assert IsTagText(x);
    assert x in trimmed;
    var k :| 0 <= k < |trimmed| && trimmed[k] == x;
    assert parts[k] in parts;
    TrimInfix(parts[k], ',');
  }

  /** `keywords.split(',').map(trim).filter(s => s && s !== '策驰影院').slice(0, 8)`. */
  function KeywordTags(keywords: string): (tags: seq<string>)
    ensures |tags| <= MaxTags
    ensures forall i :: 0 <= i < |tags| ==> IsTagText(tags[i]) && IsTrimmed(tags[i]) && ',' !in tags[i]
    ensures forall i :: 0 <= i < |tags| ==> exists p :: p in Split(keywords, ',') && tags[i] == Trim(p)
    ensures IsPrefix(tags, KeywordCandidates(keywords))
    ensures |tags| == Min(MaxTags, |KeywordCandidates(keywords)|)
  {
    KeywordPrefixQualifies(keywords, MaxTags);
    TakeIsPrefix(KeywordCandidates(keywords), MaxTags);
    Take(KeywordCandidates(keywords), MaxTags)
  }

  lemma KeywordPrefixQualifies(keywords: string, n: nat)
    ensures forall i :: 0 <= i < |Take(KeywordCandidates(keywords), n)| ==>
              var t := Take(KeywordCandidates(keywords), n)[i];
              IsTagText(t) && IsTrimmed(t) && ',' !in t && exists p :: p in Split(keywords, ',') && t == Trim(p)
  {
    var kept := KeywordCandidates(keywords);
    var tags := Take(kept, n);
    forall i | 0 <= i < |tags|
      ensures IsTagText(tags[i]) && IsTrimmed(tags[i]) && ',' !in tags[i]
      ensures exists p :: p in Split(keywords, ',') && tags[i] == Trim(p)
    {
      assert tags[i] == kept[i];
      KeywordCandidate(keywords, kept[i]);
    }
  }

  /** A character absent from a string is absent from its trimmed form. */
  lemma TrimInfix(s: string, c: char)
    requires c !in s
    ensures c !in Trim(s)
  {
    TrimSlice(s);
    var k := LeadingSpaces(s);
    var r := Trim(s);
    forall i | 0 <= i < |r| ensures r[i] != c {
      assert r[i] == s[k + i];
    }
  }

  /** With at most eight usable keywords, every one of them is kept. */
  lemma KeywordTagsComplete(keywords: string, p: string)
    requires p in Split(keywords, ',') && IsTagText(Trim(p))
    requires |KeywordCandidates(keywords)| <= MaxTags
    ensures Trim(p) in KeywordTags(keywords)
  {
    var parts := Split(keywords, ',');
    var k :| 0 <= k < |parts| && parts[k] == p;
    MapFilterTakeKeeps(parts, Trim, IsTagText, MaxTags, k);
  }

  /** The title rule of `parseInfoFromHtml` over the trimmed `<title>` text:
      the `《…》` capture when there is one, else the trimmed text before the
      first `-` when there is a `-`, else the caller's fallback or the raw
      title; an empty outcome falls back to the fallback title and then to
      `未知标题`. */
  function InfoTitle(rawTitle: string, fallbackTitle: string): (title: string)
    ensures title != ""
    ensures LazyCapture(rawTitle, TitleOpen, TitleClose, 1).Some? ==>
              title == LazyCapture(rawTitle, TitleOpen, TitleClose, 1).value
    ensures (LazyCapture(rawTitle, TitleOpen, TitleClose, 1).None? && '-' in rawTitle
             && Trim(rawTitle[..IndexOf(rawTitle, '-')]) != "") ==>
              title == Trim(rawTitle[..IndexOf(rawTitle, '-')])
    ensures (LazyCapture(rawTitle, TitleOpen, TitleClose, 1).None? && '-' in rawTitle
             && Trim(rawTitle[..IndexOf(rawTitle, '-')]) == "") ==>
              title == (if fallbackTitle != "" then fallbackTitle else UnknownTitle)
    ensures (LazyCapture(rawTitle, TitleOpen, TitleClose, 1).None? && '-' !in rawTitle && fallbackTitle != "") ==>
              title == fallbackTitle
    ensures (LazyCapture(rawTitle, TitleOpen, TitleClose, 1).None? && '-' !in rawTitle && fallbackTitle == ""
             && rawTitle != "") ==>
              title == rawTitle
    ensures (LazyCapture(rawTitle, TitleOpen, TitleClose, 1).None? && fallbackTitle == "" && rawTitle == "") ==>
              title == UnknownTitle
  {
    var initial := if fallbackTitle != "" then fallbackTitle else rawTitle;
    var chosen :=
      match LazyCapture(rawTitle, TitleOpen, TitleClose, 1)
      case Some(c) => c
      case None => if '-' in rawTitle then Trim(Split(rawTitle, '-')[0]) else initial;
    if chosen != "" then chosen
    else if fallbackTitle != "" then fallbackTitle
    else UnknownTitle
  }

  /** `parseInfoFromHtml($, fallbackTitle)`: metadata from `<title>` and the
      description, `og:image` and keywords `<meta>` tags. */
  function ParseInfoFromHtml(page: Page, fallbackTitle: string): (info: Info)
    ensures info.title == InfoTitle(Trim(page.titleText), fallbackTitle)
    ensures info.cover == AbsoluteUrl(page.ogImage)
    ensures info.description == NormalizeSpaces(page.metaDescription)
    ensures info.tags == KeywordTags(page.metaKeywords)
    ensures info.extra == []
  {
    Info(InfoTitle(Trim(page.titleText), fallbackTitle), AbsoluteUrl(page.ogImage),
         NormalizeSpaces(page.metaDescription), KeywordTags(page.metaKeywords), [])
  }

  /** The bracketed title wins over the dash rule even when both apply. */
  lemma BracketBeatsDash(rawTitle: string, fallbackTitle: string, c: string)
    requires LazyCapture(rawTitle, TitleOpen, TitleClose, 1) == Some(c)
    ensures InfoTitle(rawTitle, fallbackTitle) == c
    ensures exists i, j :: MatchAt(rawTitle, TitleOpen, TitleClose, 1, i, j) && c == rawTitle[i + |TitleOpen|..j]
  {
  }

  // ---------------------------------------------------------------------------
  // parseDetailInfo
  // ---------------------------------------------------------------------------

  /** `data-src || data-original || src`, the empty string when all are absent. */
  function CoverLink(page: Page): (link: string)
    ensures link in [page.posterDataSrc, page.dataOriginal, page.firstImgSrc, ""]
    ensures page.posterDataSrc != "" ==> link == page.posterDataSrc
    ensures page.posterDataSrc == "" && page.dataOriginal != "" ==> link == page.dataOriginal
    ensures page.posterDataSrc == "" && page.dataOriginal == "" ==> link == page.firstImgSrc
    ensures link == "" <==> page.posterDataSrc == "" && page.dataOriginal == "" && page.firstImgSrc == ""
  {
    if page.posterDataSrc != "" then page.posterDataSrc
    else if page.dataOriginal != "" then page.dataOriginal
    else page.firstImgSrc
  }

  function Same(s: string): string {
    s
  }

  /** The trimmed, usable tag texts, before deduplication. */
  function TagCandidates(texts: seq<string>): seq<string> {
    Filter(Map(texts, Trim), IsTagText)
  }

  /** `Array.from(new Set(tags)).slice(0, 8)` over the trimmed usable tags. */
  function DetailTags(texts: seq<string>): (tags: seq<string>)
    ensures |tags| <= MaxTags
    ensures Distinct(tags, Same)
    ensures forall i :: 0 <= i < |tags| ==> IsTagText(tags[i]) && tags[i] in Map(texts, Trim)
  {
    var candidates := TagCandidates(texts);
    var unique := DedupBy(candidates, Same);
    var tags := Take(unique, MaxTags);
    forall i | 0 <= i < |tags| ensures IsTagText(tags[i]) && tags[i] in Map(texts, Trim) {
      assert tags[i] == unique[i];
      assert Same(unique[i]) in KeySet(candidates, Same);
    }
    tags
  }

  /** The tags are the first occurrences of the usable tags, in page order. */
  lemma DetailTagsFirstWins(texts: seq<string>)
    ensures DetailTags(texts) == Take(FirstOccurrences(TagCandidates(texts), Same, |TagCandidates(texts)|), MaxTags)
  {
    DedupByFirstOccurrences(TagCandidates(texts), Same);
  }

  /** With at most eight different usable tags, every one of them is kept. */
  lemma DetailTagsComplete(texts: seq<string>, t: string)
    requires t in Map(texts, Trim) && IsTagText(t)
    requires |DedupBy(TagCandidates(texts), Same)| <= MaxTags
    ensures t in DetailTags(texts)
  {
    var candidates := TagCandidates(texts);
    var k :| 0 <= k < |texts| && Map(texts, Trim)[k] == t;
    MapFilterKeeps(texts, Trim, IsTagText, k);
    var c :| 0 <= c < |candidates| && candidates[c] == t;
    DedupTakeCovers(candidates, Same, MaxTags, c);
  }

  predicate HasValue(f: FactElement) {
    Trim(f.ownText) != ""
  }

  /** The labelled fact of one element: the marker text, else the class name,
      else `信息`; the value is the element's own text. */
  function FactOf(f: FactElement): (fact: Fact)
    ensures fact.caption != "" && fact.value == Trim(f.ownText)
    ensures Trim(f.markerText) != "" ==> fact.caption == Trim(f.markerText)
    ensures Trim(f.markerText) == "" && f.className != "" ==> fact.caption == f.className
    ensures Trim(f.markerText) == "" && f.className == "" ==> fact.caption == DefaultLabel
  {
    var marked := Trim(f.markerText);
    var caption := if marked != "" then marked else f.className;
    Fact(if caption != "" then caption else DefaultLabel, Trim(f.ownText))
  }

  /** The facts with a non-empty value, at most six. */
  function DetailFacts(facts: seq<FactElement>): (extra: seq<Fact>)
    ensures |extra| <= MaxFacts
    ensures forall i :: 0 <= i < |extra| ==> extra[i].caption != "" && extra[i].value != "" && IsTrimmed(extra[i].value)
    ensures forall i :: 0 <= i < |extra| ==> exists f :: f in facts && HasValue(f) && extra[i] == FactOf(f)
    ensures IsPrefix(extra, FactCandidates(facts))
    ensures |extra| == Min(MaxFacts, |FactCandidates(facts)|)
  {
    var kept := Filter(facts, HasValue);
    FactsFrom(facts, kept);
    TakeIsPrefix(FactCandidates(facts), MaxFacts);
    Take(Map(kept, FactOf), MaxFacts)
  }

  /** Every fact block with a value, as a fact, in page order. */
  function FactCandidates(facts: seq<FactElement>): seq<Fact> {
    Map(Filter(facts, HasValue), FactOf)
  }

  lemma FactsFrom(facts: seq<FactElement>, kept: seq<FactElement>)
    requires kept == Filter(facts, HasValue)
    ensures forall i :: 0 <= i < |kept| ==> kept[i] in facts && HasValue(kept[i])
  {
  }

  /** The heading is a real title: present and not the site's name. */
  predicate MeaningfulHeading(heading: string) {
    heading != "" && heading != Brand
  }

  /** `parseDetailInfo($)`: the structured blocks when the page heading is a
      real title, else `parseInfoFromHtml` with the heading as fallback. */
  function ParseDetailInfo(page: Page): (info: Info)
    ensures MeaningfulHeading(Trim(page.heading)) ==>
              && info.title == Trim(page.heading)
              && info.cover == AbsoluteUrl(CoverLink(page))
              && info.description == NormalizeSpaces(page.descriptionText)
              && info.tags == DetailTags(page.tagTexts)
              && info.extra == DetailFacts(page.facts)
    ensures !MeaningfulHeading(Trim(page.heading)) ==> info == ParseInfoFromHtml(page, Trim(page.heading))
    ensures info.title != "" && |info.tags| <= MaxTags && |info.extra| <= MaxFacts
    ensures info.cover.Some? ==> StartsWith(info.cover.value, "http")
  {
    var heading := Trim(page.heading);
    if !MeaningfulHeading(heading) then ParseInfoFromHtml(page, heading)
    else
      Info(heading, AbsoluteUrl(CoverLink(page)), NormalizeSpaces(page.descriptionText),
           DetailTags(page.tagTexts), DetailFacts(page.facts))
  }

  /** A page headed by the site's name whose `<title>` has neither `《…》`
      nor `-` keeps the site's name as its title: the heading is passed on
      as the fallback title and the fallback wins. */
  lemma BrandHeadingKept(page: Page)
    requires LazyCapture(Trim(page.titleText), TitleOpen, TitleClose, 1).None?
    requires '-' !in Trim(page.titleText)
    requires Trim(page.heading) == Brand
    ensures ParseDetailInfo(page).title == Brand
  {
    var h := Trim(page.heading);
    FallbackTitleWins(Trim(page.titleText), h);
    HeadingFallback(page, h);
  }

  /** Without `《…》` and `-`, a non-empty fallback title wins. */
  lemma FallbackTitleWins(rawTitle: string, fallbackTitle: string)
    requires LazyCapture(rawTitle, TitleOpen, TitleClose, 1).None? && '-' !in rawTitle
    requires fallbackTitle != ""
    ensures InfoTitle(rawTitle, fallbackTitle) == fallbackTitle
  {
  }

  /** A heading that is not a real title is only the fallback title. */
  lemma HeadingFallback(page: Page, h: string)
    requires h == Trim(page.heading) && !MeaningfulHeading(h)
    ensures ParseDetailInfo(page).title == InfoTitle(Trim(page.titleText), h)
  {
  }
}

=== FILE: document.dfy ===
/** The parsed documents the scraper reads. Selector evaluation by the HTML
    library is not modelled: each record holds what the selectors of
    backend/scraper.js return, in document order, with an absent attribute
    written as the empty string (the code treats `undefined` and `''` alike). */
module Document {
  import opened Options

  /** A `.xianlu a` mirror link: its text after `<small>` badges are removed
      (untrimmed), its `href`, and whether it has class `active`. */
  datatype MirrorLink = MirrorLink(text: string, href: string, hasActiveClass: bool)

  /** An `<a>` element: `href` attribute and text (untrimmed). */
  datatype Anchor = Anchor(href: string, text: string)

  /** A `.detail-info li, .data span, .data h4, .vodh p` fact element: the text
      of its first `span`/`em` child, its `class` attribute, and its own text
      with every child element removed (all untrimmed). */
  datatype FactElement = FactElement(markerText: string, className: string, ownText: string)

  /** A fetched detail or play page.
      - `html`: the raw text, searched by regular expressions;
      - `playerUrl`: the `url` field of the `var player_aaaa = {...}` object
        when that object was found, parsed, and carries a string `url`;
      - `mirrors`: `.xianlu a`; `episodeAnchors`: `.jisu a`; `anchors`: every `a`;
      - `heading`: text of the first `h1, h2, .title, .name, .vodh h2`;
      - `posterDataSrc`: `data-src` of the first `img[data-src], .lazyload,
        .detail-poster img, .pic img`; `dataOriginal`: `data-original` of the
        first `img[data-original]`; `firstImgSrc`: `src` of the first `img`;
      - `descriptionText`: text of the first description block;
      - `tagTexts`: texts of `.detail-tags a, .tags a, .data a`; `facts`: the fact elements;
      - `titleText`, `metaDescription`, `ogImage`, `metaKeywords`: page metadata. */
  datatype Page = Page(
    html: string,
    playerUrl: Option<string>,
    mirrors: seq<MirrorLink>,
    episodeAnchors: seq<Anchor>,
    anchors: seq<Anchor>,
    heading: string,
    posterDataSrc: string,
    dataOriginal: string,
    firstImgSrc: string,
    descriptionText: string,
    tagTexts: seq<string>,
    facts: seq<FactElement>,
    titleText: string,
    metaDescription: string,
    ogImage: string,
    metaKeywords: string)

  /** One `.search-con ul li` result: the first `.info p a` (href, text) and
      the `.pic img` `data-src` / `src`. */
  datatype SearchEntry = SearchEntry(link: string, title: string, imgDataSrc: string, imgSrc: string)

  /** One `.a-con-inner` item of a home block: the first `.pic a` (href,
      `title` attribute), the `.s1 a` text, the first `img` `data-src` / `src`,
      and the `.s4` text. */
  datatype HomeEntry = HomeEntry(link: string, linkTitle: string, s1Text: string,
                                 imgDataSrc: string, imgSrc: string, noteText: string)

  /** One `.block`: the first `.a-tit h2` text, the first `h2` text, and its items. */
  datatype HomeBlock = HomeBlock(aTitText: string, h2Text: string, entries: seq<HomeEntry>)

  /** One `a[href*="/ccvod/"]` anchor of the home page: href, `title`
      attribute, text, and its `img` `data-src` / `src`. */
  datatype VodAnchor = VodAnchor(href: string, titleAttr: string, text: string, imgDataSrc: string, imgSrc: string)

  /** The home page: its blocks and its `/ccvod/` anchors, in document order. */
  datatype HomeDoc = HomeDoc(blocks: seq<HomeBlock>, vodAnchors: seq<VodAnchor>)

  /** One `.a-con-inner, .module-item, .vod-list li` item of a category page:
      the first `a` (href, `title`, text), the `.s1 a, .video-name` text, the
      first `img` `data-src` / `src`, the note text and the `.s3` rating text. */
  datatype ListEntry = ListEntry(link: string, linkTitle: string, altTitle: string, linkText: string,
                                 imgDataSrc: string, imgSrc: string, noteText: string, ratingText: string)

  /** A pagination link `.page-link a, .pagination a, .page a`: text and href. */
  datatype PageLink = PageLink(text: string, href: string)

  /** A category page. */
  datatype ListDoc = ListDoc(entries: seq<ListEntry>, pageLinks: seq<PageLink>)
}

=== FILE: encode.dfy ===
/** The scraper's results as the JSON values the routes return and the cache
    stores, with the fields in the order the result objects are built.
    `undefined` fields are dropped, as `JSON.stringify` drops them. */
module Encode {
  import opened Options
  import opened Lists
  import opened Json
  import opened Detail
  import opened Mirrors
  import opened Episodes
  import opened Listing
  import Cache

  // ---------------------------------------------------------------------------
  // Detail results
  // ---------------------------------------------------------------------------

  function FactJson(f: Fact): Json {
    Obj([("label", Str(f.caption)), ("value", Str(f.value))])
  }

  function InfoJson(i: Info): Json {
    Obj([("title", Str(i.title)), ("cover", NullableStr(i.cover)),
         ("description", Str(i.description)), ("tags", Arr(Map(i.tags, StrJson))),
         ("extra", Arr(Map(i.extra, FactJson)))])
  }

  function StrJson(s: string): Json {
    Str(s)
  }

  function EpisodeJson(e: Episode): Json {
    Obj([("name", Str(e.name)), ("link", Str(e.link))])
  }

  function EpisodesJson(eps: seq<Episode>): (j: Json)
    ensures j.Arr? && |j.items| == |eps|
  {
    Arr(Map(eps, EpisodeJson))
  }

  function SourceEpisodesJson(s: SourceEpisodes): Json {
    Obj([("name", Str(s.name)), ("pageUrl", NullableStr(s.pageUrl)), ("episodes", EpisodesJson(s.episodes))])
  }

  /** `{info, episodes, sources, detailUrl}`; the early returns carry no
      `detailUrl`, so the field is absent. */
  function EpisodeListJson(r: EpisodeList): (j: Json)
    ensures j.Obj? && |j.fields| >= 3
    ensures Field(j, "episodes") == EpisodesJson(r.episodes)
  {
    var info := if r.info.Some? then InfoJson(r.info.value) else Null;
    var tail := if r.detailUrl.Some? then [("detailUrl", Str(r.detailUrl.value))] else [];
    var fields := [("info", info), ("episodes", EpisodesJson(r.episodes)),
                   ("sources", Arr(Map(r.sources, SourceEpisodesJson)))] + tail;
    FieldOfAt(fields, "episodes", 1);
    Obj(fields)
  }

  /** Reads an episode back: its `name` and `link` when both are strings. */
  function EpisodeOfJson(j: Json): (e: Option<Episode>) {
    var name := Field(j, "name");
    var link := Field(j, "link");
    if name.Str? && link.Str? then Some(Episode(name.s, link.s)) else None
  }

  lemma EpisodeRoundTrip(e: Episode)
    ensures EpisodeOfJson(EpisodeJson(e)) == Some(e)
  {
    var fields := [("name", Str(e.name)), ("link", Str(e.link))];
    assert "name" != "link" by { assert "name"[0] != "link"[0]; }
    FieldOfAt(fields, "link", 1);
  }

  /** Reads an episode list back, dropping elements that are not episodes. */
  function EpisodesOfJson(j: Json): (eps: seq<Episode>)
    ensures j.Arr? ==> |eps| <= |j.items|
    ensures !j.Arr? ==> eps == []
  {
    if j.Arr? then Somes(Map(j.items, EpisodeOfJson)) else []
  }

  /** Decoding what an encoder wrote, element by element, gives back the
      elements when the decoder inverts the encoder. */
  lemma {:induction false} SomesRoundTrip<T>(xs: seq<T>, enc: T -> Json, dec: Json -> Option<T>)
    requires forall x :: dec(enc(x)) == Some(x)
    ensures Somes(Map(Map(xs, enc), dec)) == xs
  {
    if xs != [] {
      SomesRoundTrip(xs[1..], enc, dec);
      var opts := Map(Map(xs, enc), dec);
      assert opts[0] == Some(xs[0]);
      assert opts[1..] == Map(Map(xs[1..], enc), dec);
    }
  }

  /** Reading back what was written gives the episodes unchanged. */
  lemma EpisodesRoundTrip(eps: seq<Episode>)
    ensures EpisodesOfJson(EpisodesJson(eps)) == eps
  {
    forall e: Episode ensures EpisodeOfJson(EpisodeJson(e)) == Some(e) {
      EpisodeRoundTrip(e);
    }
    SomesRoundTrip(eps, EpisodeJson, EpisodeOfJson);
  }

  /** The episode list of a detail result survives the cache. */
  lemma DetailEpisodesRoundTrip(r: EpisodeList)
    ensures EpisodesOfJson(Field(EpisodeListJson(r), "episodes")) == r.episodes
  {
    EpisodesRoundTrip(r.episodes);
  }

  /** Every detail result, the failure `{info:null, episodes:[], sources:[]}`
      included, passes the store test of `withCache`. */
  lemma DetailAlwaysWorth(r: EpisodeList)
    ensures Cache.Worth(EpisodeListJson(r))
  {
  }

  // ---------------------------------------------------------------------------
  // Play results
  // ---------------------------------------------------------------------------

  function ResolvedSourceJson(s: ResolvedSource): Json {
    Obj([("name", Str(s.name)), ("pageUrl", NullableStr(s.pageUrl)), ("isActive", Bool(s.isActive)),
         ("rawUrl", NullableStr(s.rawUrl)), ("streamUrl", NullableStr(s.streamUrl))])
  }

  /** `{url, sources}`. */
  function PlayJson(p: PlayResolution): (j: Json)
    ensures j.Obj? && |j.fields| == 2
    ensures Field(j, "url") == NullableStr(p.url)
    ensures Field(j, "sources").Arr? && |Field(j, "sources").items| == |p.sources|
  {
    var fields := [("url", NullableStr(p.url)), ("sources", Arr(Map(p.sources, ResolvedSourceJson)))];
    FieldOfAt(fields, "sources", 1);
    Obj(fields)
  }

  /** `playInfo.url` is truthy exactly when a non-empty stream was chosen. */
  lemma PlayUrlTruthy(p: PlayResolution)
    ensures Truthy(Field(PlayJson(p), "url")) <==> TruthyString(p.url)
  {
  }

  /** The failure `{url:null, sources:[]}` is stored by `withCache` too. */
  lemma PlayAlwaysWorth(p: PlayResolution)
    ensures Cache.Worth(PlayJson(p))
  {
  }

  // ---------------------------------------------------------------------------
  // Listings
  // ---------------------------------------------------------------------------

  function SearchItemJson(i: SearchItem): Json {
    Obj([("title", Str(i.title)), ("cover", NullableStr(i.cover)), ("detailUrl", Str(i.detailUrl))])
  }

  function SearchJson(items: seq<SearchItem>): (j: Json)
    ensures j.Arr? && |j.items| == |items|
  {
    Arr(Map(items, SearchItemJson))
  }

  function HomeItemJson(i: HomeItem): Json {
    Obj([("title", Str(i.title)), ("cover", NullableStr(i.cover)),
         ("detailUrl", Str(i.detailUrl)), ("note", Str(i.note))])
  }

  function SectionJson(s: Section): Json {
    Obj([("title", Str(s.title)), ("items", Arr(Map(s.items, HomeItemJson)))])
  }

  function SectionsJson(sections: seq<Section>): (j: Json)
    ensures j.Arr? && |j.items| == |sections|
  {
    Arr(Map(sections, SectionJson))
  }

  function CategoryItemJson(i: CategoryItem): Json {
    Obj([("title", Str(i.title)), ("cover", NullableStr(i.cover)), ("detailUrl", Str(i.detailUrl)),
         ("note", Str(i.note)), ("rating", Str(i.rating))])
  }

  /** `{items, page, totalPages, hasMore}`. */
  function CategoryPageJson(p: CategoryPage): (j: Json)
    ensures j.Obj? && |j.fields| == 4
    ensures Field(j, "items").Arr? && |Field(j, "items").items| == |p.items|
  {
    Obj([("items", Arr(Map(p.items, CategoryItemJson))), ("page", Num(p.page)),
         ("totalPages", Num(p.totalPages)), ("hasMore", Bool(p.hasMore))])
  }

  /** A list of sections or search hits is stored exactly when it is not
      empty; a category page, even an empty one, is always stored. */
  lemma ListingsWorth(sections: seq<Section>, hits: seq<SearchItem>, page: CategoryPage)
    ensures Cache.Worth(SectionsJson(sections)) <==> |sections| > 0
    ensures Cache.Worth(SearchJson(hits)) <==> |hits| > 0
    ensures Cache.Worth(CategoryPageJson(page))
  {
  }
}

=== FILE: episodes.dfy ===
/** Episode discovery of backend/scraper.js: `parseEpisodeAnchors`, which
    reads a play page's episode list, and `parseEpisodes`, which finds the
    first play page of a title (or guesses it from the detail URL) and
    collects the episode list of every mirror. */
module Episodes {
  import opened Options
  import opened Text
  import opened Lists
  import opened Capture
  import opened Urls
  import opened Document
  import opened Mirrors
  import opened Detail

  const PlayPrefix: string := "/ccplay/"
  const FirstEpisodeSuffix: string := "-1-1.html"
  const PlayNow: string := "立即播放"

  /** One episode: its name and absolute play-page link. */
  datatype Episode = Episode(name: string, link: string)

  // ---------------------------------------------------------------------------
  // parseEpisodeAnchors
  // ---------------------------------------------------------------------------

  /** An episode anchor with both a target and a visible name. */
  predicate Qualifies(a: Anchor) {
    a.href != "" && Trim(a.text) != ""
  }

  /** The episode an anchor names: its trimmed text and its absolute target. */
  function EpisodeOf(a: Anchor): (e: Episode)
    ensures e.name == Trim(a.text)
    ensures a.href != "" ==> StartsWith(e.link, "http") && AbsoluteUrl(a.href) == Some(e.link)
  {
    Episode(Trim(a.text), AbsoluteUrl(a.href).GetOr(""))
  }

  /** The qualifying anchors as episodes, in document order. */
  function AnchorEpisodes(anchors: seq<Anchor>): (eps: seq<Episode>)
    ensures |eps| <= |anchors|
  {
    Map(Filter(anchors, Qualifies), EpisodeOf)
  }

  /** A named episode with an absolute link. */
  predicate WellFormed(e: Episode) {
    e.name != "" && StartsWith(e.link, "http")
  }

  /** Every episode read from the anchors has a name and an absolute link. */
  lemma AnchorEpisodesWellFormed(anchors: seq<Anchor>)
    ensures forall i :: 0 <= i < |AnchorEpisodes(anchors)| ==> WellFormed(AnchorEpisodes(anchors)[i])
  {
    var kept := Filter(anchors, Qualifies);
    forall i | 0 <= i < |kept| ensures WellFormed(EpisodeOf(kept[i])) {
      assert Qualifies(kept[i]);
    }
  }

  /** Document order: the episodes of consecutive runs of anchors are the
      concatenation of the runs' episodes. */
  lemma AnchorEpisodesAppend(a: seq<Anchor>, b: seq<Anchor>)
    ensures AnchorEpisodes(a + b) == AnchorEpisodes(a) + AnchorEpisodes(b)
  {
    FilterAppend(a, b, Qualifies);
    MapAppend(Filter(a, Qualifies), Filter(b, Qualifies), EpisodeOf);
  }

  /** Every episode comes from a qualifying anchor, and every qualifying
      anchor yields one. */
  lemma AnchorEpisodesExact(anchors: seq<Anchor>, e: Episode)
    ensures e in AnchorEpisodes(anchors) <==> exists j :: 0 <= j < |anchors| && Qualifies(anchors[j]) && e == EpisodeOf(anchors[j])
  {
    MapFilterMembers(anchors, Qualifies, EpisodeOf, e);
  }

  /** No episode exactly when no anchor qualifies. */
  lemma AnchorEpisodesEmpty(anchors: seq<Anchor>)
    ensures AnchorEpisodes(anchors) == [] <==> forall j :: 0 <= j < |anchors| ==> !Qualifies(anchors[j])
  {
    FilterEmpty(anchors, Qualifies);
  }

  /** `$('a[href^="/ccplay/"]').attr('href')`: the target of the first play
      link of a page. */
  function FirstPlayHref(anchors: seq<Anchor>): (h: Option<string>)
    ensures h.Some? ==> StartsWith(h.value, PlayPrefix) && h.value != ""
    ensures h.Some? ==> exists j :: (&& 0 <= j < |anchors| && anchors[j].href == h.value
                                     && forall m :: 0 <= m < j ==> !StartsWith(anchors[m].href, PlayPrefix))
    ensures h.None? <==> forall j :: 0 <= j < |anchors| ==> !StartsWith(anchors[j].href, PlayPrefix)
  {
    if anchors == [] then None
    else if StartsWith(anchors[0].href, PlayPrefix) then Some(anchors[0].href)
    else
      var r := FirstPlayHref(anchors[1..]);
      assert forall j :: 1 <= j < |anchors| ==> anchors[j] == anchors[1..][j - 1];
      if r.Some? then
        var j :| (&& 0 <= j < |anchors[1..]| && anchors[1..][j].href == r.value
                  && forall m :: 0 <= m < j ==> !StartsWith(anchors[1..][m].href, PlayPrefix));
        assert anchors[j + 1].href == r.value;
        r
      else r
  }

  /** The fallback entry: `立即播放` for the page's first play link, if any. */
  function PlayNowEpisode(anchors: seq<Anchor>): (eps: seq<Episode>)
    ensures |eps| <= 1
    ensures eps != [] <==> FirstPlayHref(anchors).Some?
    ensures eps != [] ==> eps[0] == Episode(PlayNow, AbsoluteUrl(FirstPlayHref(anchors).value).value)
    ensures eps != [] ==> WellFormed(eps[0])
  {
    match FirstPlayHref(anchors)
    case None => []
    case Some(h) => [Episode(PlayNow, AbsoluteUrl(h).value)]
  }

  /** `parseEpisodeAnchors(html)`: the `.jisu a` episodes; when none
      qualifies, one `立即播放` entry for the page's first play link, if any. */
  function ParseEpisodeAnchors(page: Page): (eps: seq<Episode>)
    ensures forall i :: 0 <= i < |eps| ==> WellFormed(eps[i])
    ensures (exists j :: 0 <= j < |page.episodeAnchors| && Qualifies(page.episodeAnchors[j])) ==>
              eps == AnchorEpisodes(page.episodeAnchors)
    ensures (forall j :: 0 <= j < |page.episodeAnchors| ==> !Qualifies(page.episodeAnchors[j])) ==>
              eps == PlayNowEpisode(page.anchors)
  {
    var eps := AnchorEpisodes(page.episodeAnchors);
    AnchorEpisodesEmpty(page.episodeAnchors);
    AnchorEpisodesWellFormed(page.episodeAnchors);
    if eps != [] then eps else PlayNowEpisode(page.anchors)
  }

  // ---------------------------------------------------------------------------
  // The first play link
  // ---------------------------------------------------------------------------

  /** `/ccplay/<first digit run of detailUrl>-1-1.html`, the first episode of
      the first mirror by the site's URL scheme. */
  function PlayLinkGuess(detailUrl: string): (g: Option<string>)
    ensures g.Some? <==> exists m :: 0 <= m < |detailUrl| && IsDigit(detailUrl[m])
    ensures g.Some? ==> StartsWith(g.value, PlayPrefix) && EndsWith(g.value, FirstEpisodeSuffix)
  {
    match FirstDigitRun(detailUrl)
    case None => None
    case Some(d) =>
      var g := PlayPrefix + d + FirstEpisodeSuffix;
      assert g[..|PlayPrefix|] == PlayPrefix;
      assert g[|g| - |FirstEpisodeSuffix|..] == FirstEpisodeSuffix;
      Some(g)
  }

  /** The guessed link carries the detail URL's id: its own first digit run is
      the first digit run of the detail URL. */
  lemma PlayLinkGuessId(detailUrl: string)
    requires PlayLinkGuess(detailUrl).Some?
    ensures FirstDigitRun(PlayLinkGuess(detailUrl).value) == FirstDigitRun(detailUrl)
  {
    var d := FirstDigitRun(detailUrl).value;
    var g := PlayLinkGuess(detailUrl).value;
    assert g == PlayPrefix + d + FirstEpisodeSuffix;
    var n := |PlayPrefix|;
    assert forall m :: 0 <= m < n ==> !IsDigit(g[m]) by {
      forall m | 0 <= m < n ensures !IsDigit(g[m]) {
        assert g[m] == PlayPrefix[m];
      }
    }
    assert forall m :: n <= m < n + |d| ==> g[m] == d[m - n];
    assert AllDigits(g[n..n + |d|]) by {
      assert g[n..n + |d|] == d;
    }
    assert g[n + |d|] == '-';
    DigitRunAt(g, n, n + |d|);
    assert g[n..n + |d|] == d;
  }

  /** A run of digits preceded by non-digits and followed by a non-digit is
      the first digit run. */
  lemma DigitRunAt(s: string, a: nat, b: nat)
    requires a < b <= |s|
    requires forall m :: 0 <= m < a ==> !IsDigit(s[m])
    requires AllDigits(s[a..b]) && (b == |s| || !IsDigit(s[b]))
    ensures FirstDigitRun(s) == Some(s[a..b])
  {
    DigitRunFromAt(s, 0, a, b);
  }

  lemma {:induction false} DigitRunFromAt(s: string, k: nat, a: nat, b: nat)
    requires k <= a < b <= |s|
    requires forall m :: k <= m < a ==> !IsDigit(s[m])
    requires AllDigits(s[a..b]) && (b == |s| || !IsDigit(s[b]))
    ensures DigitRunFrom(s, k) == Some((a, b))
    decreases a - k
  {
    if k < a {
      DigitRunFromAt(s, k + 1, a, b);
    } else {
      assert s[a..b][0] == s[a];
      DigitRunLengthAt(s, a, b);
    }
  }

  lemma {:induction false} DigitRunLengthAt(s: string, k: nat, b: nat)
    requires k <= b <= |s|
    requires AllDigits(s[k..b]) && (b == |s| || !IsDigit(s[b]))
    ensures DigitRunLength(s, k) == b - k
    decreases b - k
  {
    if k < b {
      assert s[k..b][0] == s[k];
      assert s[k + 1..b] == s[k..b][1..];
      DigitRunLengthAt(s, k + 1, b);
    }
  }

  // ---------------------------------------------------------------------------
  // parseEpisodes
  // ---------------------------------------------------------------------------

  /** The episodes of one mirror. */
  datatype SourceEpisodes = SourceEpisodes(name: string, pageUrl: Option<string>, episodes: seq<Episode>)

  /** `{info, episodes, sources, detailUrl}`. The two early returns of the
      source carry no `detailUrl` field, written here as `None`. */
  datatype EpisodeList = EpisodeList(info: Option<Info>, episodes: seq<Episode>,
                                     sources: seq<SourceEpisodes>, detailUrl: Option<string>)

  /** A fetched page counts only when its body is a non-empty string. */
  predicate HasBody(p: Option<Page>) {
    p.Some? && p.value.html != ""
  }

  /** The detail page, when its fetch succeeded with a body. */
  function DetailPage(detailUrl: string, fetchPage: string -> Option<Page>): (p: Option<Page>)
    ensures p.Some? ==> p.value.html != ""
  {
    match AbsoluteUrl(detailUrl)
    case None => None
    case Some(u) => if HasBody(fetchPage(u)) then fetchPage(u) else None
  }

  /** The play link: the detail page's first play link, else the guess. */
  function PlayLink(detailUrl: string, fetchPage: string -> Option<Page>): (l: Option<string>)
    ensures l.Some? ==> l.value != ""
    ensures DetailPage(detailUrl, fetchPage).Some? && FirstPlayHref(DetailPage(detailUrl, fetchPage).value.anchors).Some? ==>
              l == FirstPlayHref(DetailPage(detailUrl, fetchPage).value.anchors)
    ensures (DetailPage(detailUrl, fetchPage).None? || FirstPlayHref(DetailPage(detailUrl, fetchPage).value.anchors).None?) ==>
              l == PlayLinkGuess(detailUrl)
  {
    var found := match DetailPage(detailUrl, fetchPage)
      case None => None
      case Some(p) => FirstPlayHref(p.anchors);
    if found.Some? then found else PlayLinkGuess(detailUrl)
  }

  /** `fetchSourceEpisodes`: the mirror's page (the play page itself when the
      URLs agree) and its episodes; a failed fetch gives no page and no
      episodes. */
  function SourcePage(src: Source, playUrl: string, playPage: Page, fetchPage: string -> Option<Page>): (r: (SourceEpisodes, Option<Page>))
    ensures r.0.name == src.name && r.0.pageUrl == src.pageUrl
    ensures r.1.None? ==> r.0.episodes == []
    ensures r.1.Some? ==> r.0.episodes == ParseEpisodeAnchors(r.1.value)
    ensures src.pageUrl == Some(playUrl) ==> r.1 == Some(playPage)
    ensures src.pageUrl.Some? && src.pageUrl != Some(playUrl) ==> r.1 == fetchPage(src.pageUrl.value)
    ensures src.pageUrl.None? ==> r.1.None?
  {
    var page :=
      if src.pageUrl == Some(playUrl) then Some(playPage)
      else if src.pageUrl.None? then None
      else fetchPage(src.pageUrl.value);
    match page
    case None => (SourceEpisodes(src.name, src.pageUrl, []), None)
    case Some(p) => (SourceEpisodes(src.name, src.pageUrl, ParseEpisodeAnchors(p)), Some(p))
  }

  /** The first non-empty episode list, else none. */
  function FirstEpisodes(sources: seq<SourceEpisodes>): (eps: seq<Episode>)
    ensures forall i :: (0 <= i < |sources| && sources[i].episodes != []
                         && (forall m :: 0 <= m < i ==> sources[m].episodes == [])) ==> eps == sources[i].episodes
    ensures (forall i :: 0 <= i < |sources| ==> sources[i].episodes == []) ==> eps == []
  {
    if sources == [] then []
    else if sources[0].episodes != [] then sources[0].episodes
    else
      var r := FirstEpisodes(sources[1..]);
      assert forall i :: 1 <= i < |sources| ==> sources[i] == sources[1..][i - 1];
      r
  }

  /** The first mirror page with a body, if any. */
  function FirstBody(results: seq<(SourceEpisodes, Option<Page>)>): (p: Option<Page>)
    ensures p.Some? ==> p.value.html != "" && exists i :: 0 <= i < |results| && results[i].1 == p
    ensures p.None? <==> forall i :: 0 <= i < |results| ==> !HasBody(results[i].1)
  {
    if results == [] then None
    else if HasBody(results[0].1) then results[0].1
    else
      var r := FirstBody(results[1..]);
      assert forall i :: 1 <= i < |results| ==> results[i] == results[1..][i - 1];
      r
  }

  /** Every mirror of the play page with its page, in mirror order. */
  function MirrorResults(playUrl: string, playPage: Page, fetchPage: string -> Option<Page>): seq<(SourceEpisodes, Option<Page>)> {
    Map(ParseSourceLinks(playPage.mirrors, playUrl), (s: Source) => SourcePage(s, playUrl, playPage, fetchPage))
  }

  /** What `parseEpisodes` builds once the play page at `playUrl` is in
      hand: the episodes of every mirror, the metadata (`info` when the detail
      page supplied it, else from the first mirror page with a body, else
      from the play page), and the first non-empty episode list. */
  function FromPlayPage(playUrl: string, playPage: Page, info: Option<Info>, detailUrl: Option<string>,
                        fetchPage: string -> Option<Page>): (r: EpisodeList)
    ensures var lines := ParseSourceLinks(playPage.mirrors, playUrl);
            && |r.sources| == |lines|
            && (forall i :: 0 <= i < |lines| ==> r.sources[i] == SourcePage(lines[i], playUrl, playPage, fetchPage).0)
    ensures r.info.Some?
    ensures info.Some? ==> r.info == info
    ensures info.None? && FirstBody(MirrorResults(playUrl, playPage, fetchPage)).Some? ==>
              r.info == Some(ParseInfoFromHtml(FirstBody(MirrorResults(playUrl, playPage, fetchPage)).value, ""))
    ensures info.None? && FirstBody(MirrorResults(playUrl, playPage, fetchPage)).None? ==>
              r.info == Some(ParseInfoFromHtml(playPage, ""))
    ensures r.episodes == FirstEpisodes(r.sources)
    ensures r.detailUrl == detailUrl
  {
    var lines := ParseSourceLinks(playPage.mirrors, playUrl);
    var results := MirrorResults(playUrl, playPage, fetchPage);
    var sources := Map(results, (x: (SourceEpisodes, Option<Page>)) => x.0);
    var info' :=
      if info.Some? then info
      else match FirstBody(results)
        case Some(p) => Some(ParseInfoFromHtml(p, ""))
        case None => Some(ParseInfoFromHtml(playPage, ""));
    EpisodeList(info', FirstEpisodes(sources), sources, detailUrl)
  }

  /** The metadata read from the detail page, if it was fetched. */
  function DetailInfo(detailUrl: string, fetchPage: string -> Option<Page>): (info: Option<Info>)
    ensures info.Some? <==> DetailPage(detailUrl, fetchPage).Some?
  {
    match DetailPage(detailUrl, fetchPage)
    case None => None
    case Some(p) => Some(ParseDetailInfo(p))
  }

  /** `parseEpisodes(detailUrl)` with the HTTP requests as `fetchPage`
      (`None` when the request throws). Without a play link the detail
      metadata comes back with no episodes. A failed play-page fetch is caught
      by the outer handler and loses the detail metadata already read. */
  function ParseEpisodes(detailUrl: string, fetchPage: string -> Option<Page>): (r: EpisodeList)
    ensures PlayLink(detailUrl, fetchPage).None? ==>
              r == EpisodeList(DetailInfo(detailUrl, fetchPage), [], [], None)
    ensures PlayLink(detailUrl, fetchPage).Some? && fetchPage(AbsoluteUrl(PlayLink(detailUrl, fetchPage).value).value).None? ==>
              r == EpisodeList(None, [], [], None)
    ensures PlayLink(detailUrl, fetchPage).Some? && fetchPage(AbsoluteUrl(PlayLink(detailUrl, fetchPage).value).value).Some? ==>
              var playUrl := AbsoluteUrl(PlayLink(detailUrl, fetchPage).value).value;
              r == FromPlayPage(playUrl, fetchPage(playUrl).value, DetailInfo(detailUrl, fetchPage), AbsoluteUrl(detailUrl), fetchPage)
    ensures r.episodes == FirstEpisodes(r.sources)
  {
    match PlayLink(detailUrl, fetchPage)
    case None => EpisodeList(DetailInfo(detailUrl, fetchPage), [], [], None)
    case Some(link) =>
      var playUrl := AbsoluteUrl(link).value;
      match fetchPage(playUrl)
      case None => EpisodeList(None, [], [], None)
      case Some(playPage) => FromPlayPage(playUrl, playPage, DetailInfo(detailUrl, fetchPage), AbsoluteUrl(detailUrl), fetchPage)
  }

  /** Without a detail page, and with a detail URL holding digits, the play
      page requested is the guessed first episode. */
  lemma GuessUsedWithoutDetail(detailUrl: string, fetchPage: string -> Option<Page>)
    requires DetailPage(detailUrl, fetchPage).None?
    requires exists m :: 0 <= m < |detailUrl| && IsDigit(detailUrl[m])
    ensures PlayLink(detailUrl, fetchPage) == PlayLinkGuess(detailUrl)
    ensures PlayLink(detailUrl, fetchPage).Some?
    ensures FirstDigitRun(PlayLink(detailUrl, fetchPage).value) == FirstDigitRun(detailUrl)
  {
    PlayLinkGuessId(detailUrl);
  }
}

=== FILE: json.dfy ===
/** The values the cache stores and the API routes read back: JSON as
    `JSON.stringify` / `JSON.parse` see it, with the truthiness and
    `Object.keys` rules that decide whether a value is cached. */
module Json {
  import opened Text
  import Options

  /** A JSON value. Numbers are integers: every number the core stores is a
      page number, a page count or a flag. Object fields keep their order. */
  datatype Json =
    | Null
    | Bool(b: bool)
    | Num(n: int)
    | Str(s: string)
    | Arr(items: seq<Json>)
    | Obj(fields: seq<(string, Json)>)

  /** JavaScript truthiness. */
  predicate Truthy(v: Json) {
    match v
    case Null => false
    case Bool(b) => b
    case Num(n) => n != 0
    case Str(s) => s != ""
    case Arr(_) => true
    case Obj(_) => true
  }

  /** `Object.keys(v).length` for a non-null value: the own enumerable keys,
      which for a string are its UTF-16 indices and for a number or boolean
      are none. */
  function KeyCount(v: Json): nat {
    match v
    case Null => 0
    case Bool(_) => 0
    case Num(_) => 0
    case Str(s) => Utf16Length(s)
    case Arr(items) => |items|
    case Obj(fields) => |fields|
  }

  /** `v.name`: the field's value, `Null` when `v` is not an object or has no
      such field (`undefined` and `null` behave alike for every reader). */
  function Field(v: Json, name: string): Json {
    if v.Obj? then FieldOf(v.fields, name) else Null
  }

  function FieldOf(fields: seq<(string, Json)>, name: string): Json {
    if fields == [] then Null
    else if fields[0].0 == name then fields[0].1
    else FieldOf(fields[1..], name)
  }

  /** The first field with the name decides the lookup. */
  lemma {:induction false} FieldOfAt(fields: seq<(string, Json)>, name: string, i: nat)
    requires i < |fields| && fields[i].0 == name
    requires forall j :: 0 <= j < i ==> fields[j].0 != name
    ensures FieldOf(fields, name) == fields[i].1
  {
    if i > 0 {
      FieldOfAt(fields[1..], name, i - 1);
    }
  }

  /** A string value, or `Null` for absence. */
  function NullableStr(o: Options.Option<string>): Json {
    if o.Some? then Str(o.value) else Null
  }
}

=== FILE: listing.dfy ===
/** The catalogue listings of backend/scraper.js: `search`, `getHomeRecommend`
    and `getCategoryList`, over the parsed result, home and category pages.
    Each takes the fetched document as an input, `None` standing for a
    request or parse that threw. */
module Listing {
  import opened Options
  import opened Text
  import opened Lists
  import opened Capture
  import opened Urls
  import opened Document

  /** Part of the site's name: an item title containing it is site chrome. */
  const SiteMark: string := "策驰"
  const NoticeMark: string := "公告"
  const ForeverMark: string := "永不"
  const NewBadge: string := "NEW"
  const MoreMark: string := "更多"
  const HotTitle: string := "热门推荐"
  const MaxSectionItems: nat := 12
  const MaxHotItems: nat := 20

  /** `a || b` on attribute strings, absent ones being empty. */
  function Either(a: string, b: string): (r: string)
    ensures r == "" <==> a == "" && b == ""
    ensures a != "" ==> r == a
    ensures a == "" ==> r == b
  {
    if a != "" then a else b
  }

  // ---------------------------------------------------------------------------
  // search
  // ---------------------------------------------------------------------------

  datatype SearchItem = SearchItem(title: string, cover: Option<string>, detailUrl: string)

  predicate SearchKeeps(e: SearchEntry) {
    e.link != "" && Trim(e.title) != ""
  }

  /** One search result. The detail URL is the origin glued to the link as it
      stands, without the `absoluteUrl` rules. */
  function SearchItemOf(e: SearchEntry): (item: SearchItem)
    ensures item.detailUrl == BaseUrl + e.link
    ensures item.title == Trim(e.title)
  {
    SearchItem(Trim(e.title), AbsoluteUrl(Either(e.imgDataSrc, e.imgSrc)), BaseUrl + e.link)
  }

  /** `search(keyword)` given the result entries of the search page. */
  function Search(entries: Option<seq<SearchEntry>>): (items: seq<SearchItem>)
    ensures entries.None? ==> items == []
    ensures entries.Some? ==> |items| <= |entries.value|
    ensures forall i :: 0 <= i < |items| ==> items[i].title != "" && IsTrimmed(items[i].title)
    ensures entries.Some? ==> forall x ::
              x in items <==> exists j :: 0 <= j < |entries.value| && SearchKeeps(entries.value[j]) && x == SearchItemOf(entries.value[j])
  {
    match entries
    case None => []
    case Some(es) =>
      forall x ensures x in Map(Filter(es, SearchKeeps), SearchItemOf) <==>
                       exists j :: 0 <= j < |es| && SearchKeeps(es[j]) && x == SearchItemOf(es[j]) {
        MapFilterMembers(es, SearchKeeps, SearchItemOf, x);
      }
      Map(Filter(es, SearchKeeps), SearchItemOf)
  }

  /** The results of two runs of entries are the results of each, in order:
      every entry is judged on its own and nothing is deduplicated. */
  lemma SearchAppend(a: seq<SearchEntry>, b: seq<SearchEntry>)
    ensures Search(Some(a + b)) == Search(Some(a)) + Search(Some(b))
  {
    FilterAppend(a, b, SearchKeeps);
    MapAppend(Filter(a, SearchKeeps), Filter(b, SearchKeeps), SearchItemOf);
  }

  /** One entry yields its item exactly when it has a link and a title. */
  lemma SearchSingle(e: SearchEntry)
    ensures Search(Some([e])) == if SearchKeeps(e) then [SearchItemOf(e)] else []
  {
    assert [e][1..] == [];
  }

  /** An absolute link in a search result still gets the origin prepended, so
      its detail URL differs from what `absoluteUrl` gives. */
  lemma SearchKeepsAbsoluteLinksWrong(e: SearchEntry)
    requires StartsWith(e.link, "http")
    ensures SearchItemOf(e).detailUrl != AbsoluteUrl(e.link).value
  {
  }

  // ---------------------------------------------------------------------------
  // getHomeRecommend
  // ---------------------------------------------------------------------------

  datatype HomeItem = HomeItem(title: string, cover: Option<string>, detailUrl: string, note: string)

  datatype Section = Section(title: string, items: seq<HomeItem>)

  /** `title.replace(/NEW|更多.*$/g, '')`: every `NEW` goes, and a `更多` is
      cut together with the rest of the text when no line terminator follows
      it (`.` does not cross lines and `$` is the end of the text). */
  function StripDecor(s: string): (r: string)
    ensures |r| <= |s|
    decreases |s|
  {
    if s == [] then []
    else if StartsWith(s, NewBadge) then StripDecor(s[3..])
    else if StartsWith(s, MoreMark) && NoLineTerminator(s) then []
    else [s[0]] + StripDecor(s[1..])
  }

  /** No character that could start a decoration. */
  predicate Undecorated(p: string) {
    forall i :: 0 <= i < |p| ==> p[i] != 'N' && p[i] != '更'
  }

  /** A first character that cannot start a decoration is kept. */
  lemma StripDecorPlain(s: string)
    requires s != [] && s[0] != 'N' && s[0] != '更'
    ensures StripDecor(s) == [s[0]] + StripDecor(s[1..])
  {
    assert !StartsWith(s, NewBadge) by {
      if |s| >= 3 { assert s[..3][0] == s[0] && NewBadge[0] == 'N'; }
    }
    assert !StartsWith(s, MoreMark) by {
      if |s| >= 2 { assert s[..2][0] == s[0] && MoreMark[0] == '更'; }
    }
  }

  lemma UndecoratedTail(p: string)
    requires p != [] && Undecorated(p)
    ensures Undecorated(p[1..]) && p[0] != 'N' && p[0] != '更'
  {
    forall i | 0 <= i < |p[1..]| ensures p[1..][i] != 'N' && p[1..][i] != '更' {
      assert p[1..][i] == p[i + 1];
    }
  }

  lemma ConsSplit(p: string, t: string)
    requires p != []
    ensures (p + t)[0] == p[0] && (p + t)[1..] == p[1..] + t && [p[0]] + p[1..] == p
  {
  }

  /** Text that cannot start a decoration is kept as it is. */
  lemma {:induction false} StripDecorKeeps(p: string, t: string)
    requires Undecorated(p)
    ensures StripDecor(p + t) == p + StripDecor(t)
    decreases |p|
  {
    if p != [] {
      var s := p + t;
      var rest := p[1..];
      UndecoratedTail(p);
      ConsSplit(p, t);
      StripDecorPlain(s);
      StripDecorKeeps(rest, t);
    } else {
      assert p + t == t;
    }
  }

  /** The `NEW` badge is dropped wherever it sits after plain text. */
  lemma StripDecorNew(p: string, q: string)
    requires Undecorated(p)
    ensures StripDecor(p + NewBadge + q) == p + StripDecor(q)
  {
    var t := NewBadge + q;
    StripDecorKeeps(p, t);
    assert p + NewBadge + q == p + t;
    assert t[..3] == NewBadge;
    assert t[3..] == q;
  }

  /** A single-line `更多…` tail is cut off. */
  lemma StripDecorMore(p: string, q: string)
    requires Undecorated(p) && NoLineTerminator(q)
    ensures StripDecor(p + MoreMark + q) == p
  {
    var t := MoreMark + q;
    StripDecorKeeps(p, t);
    assert p + MoreMark + q == p + t;
    assert t[..2] == MoreMark;
    assert t != [];
    assert forall i :: 0 <= i < |t| ==> !IsLineTerminator(t[i]) by {
      forall i | 0 <= i < |t| ensures !IsLineTerminator(t[i]) {
        if i >= 2 { assert t[i] == q[i - 2]; }
      }
    }
  }

  /** Removing the badge can join its neighbours into a new one: one pass is
      not idempotent. */
  lemma StripDecorJoins()
    ensures StripDecor("NNEWEW") == "NEW"
  {
    var s := "NNEWEW";
    assert !StartsWith(s, NewBadge) by { assert s[..3][1] != NewBadge[1]; }
    assert !StartsWith(s, MoreMark) by { assert s[..2][0] != MoreMark[0]; }
    assert s[1..] == "NEWEW";
    assert StartsWith("NEWEW", NewBadge) by { assert "NEWEW"[..3] == "NEW"; }
    assert "NEWEW"[3..] == "EW";
    assert StripDecor("EW") == "EW" by {
      assert !StartsWith("EW", NewBadge);
      assert !StartsWith("EW", MoreMark) by { assert "EW"[..2][0] != MoreMark[0]; }
      assert "EW"[1..] == "W";
      assert StripDecor("W") == "W" by {
        assert "W"[1..] == [];
      }
    }
  }

  /** The block title: the `.a-tit h2` text, else the first `h2` text. */
  function BlockTitle(b: HomeBlock): string {
    Either(Trim(b.aTitText), Trim(b.h2Text))
  }

  /** The announcement and "never lost" blocks are not catalogue sections. */
  predicate SkippedTitle(title: string) {
    title == "" || Contains(title, NoticeMark) || Contains(title, ForeverMark)
  }

  /** The item title before trimming: `title` attribute, else `.s1 a` text. */
  function HomeEntryTitle(e: HomeEntry): string {
    Either(e.linkTitle, Trim(e.s1Text))
  }

  /** The filter is applied to the untrimmed title, so a whitespace-only
      `title` attribute passes and yields an empty title. */
  predicate HomeKeeps(e: HomeEntry) {
    e.link != "" && HomeEntryTitle(e) != "" && !Contains(HomeEntryTitle(e), SiteMark)
  }

  function HomeItemOf(e: HomeEntry): (item: HomeItem)
    ensures item.title == Trim(HomeEntryTitle(e)) && item.note == Trim(e.noteText)
    ensures e.link != "" ==> StartsWith(item.detailUrl, "http")
  {
    HomeItem(Trim(HomeEntryTitle(e)), AbsoluteUrl(Either(e.imgDataSrc, e.imgSrc)), AbsoluteUrl(e.link).GetOr(""), Trim(e.noteText))
  }

  /** The items of one block: one per qualifying entry, in page order. */
  function HomeItems(es: seq<HomeEntry>): (items: seq<HomeItem>)
    ensures |items| <= |es|
  {
    Map(Filter(es, HomeKeeps), HomeItemOf)
  }

  /** A block yields no item exactly when none of its entries qualifies. */
  lemma HomeItemsEmpty(es: seq<HomeEntry>)
    ensures HomeItems(es) == [] <==> forall j :: 0 <= j < |es| ==> !HomeKeeps(es[j])
  {
    FilterEmpty(es, HomeKeeps);
  }

  /** The items are exactly the images of the qualifying entries. */
  lemma HomeItemsMembers(es: seq<HomeEntry>, x: HomeItem)
    ensures x in HomeItems(es) <==> exists j :: 0 <= j < |es| && HomeKeeps(es[j]) && x == HomeItemOf(es[j])
  {
    MapFilterMembers(es, HomeKeeps, HomeItemOf, x);
  }

  /** A section of the first twelve of some items. */
  function CappedSection(title: string, items: seq<HomeItem>): (s: Section)
    requires items != []
    ensures s.title == title && s.items == Take(items, MaxSectionItems)
    ensures 1 <= |s.items| <= MaxSectionItems
  {
    Section(title, Take(items, MaxSectionItems))
  }

  /** The section one block contributes, if any: none for a skipped title or
      when no item qualifies; otherwise the cleaned title and the first
      twelve items. */
  function SectionOf(b: HomeBlock): (s: Option<Section>)
    ensures SkippedTitle(BlockTitle(b)) ==> s.None?
    ensures s.Some? ==> 1 <= |s.value.items| <= MaxSectionItems
    ensures s.Some? ==> s.value.title == Trim(StripDecor(BlockTitle(b)))
  {
    var title := BlockTitle(b);
    var items := HomeItems(b.entries);
    if SkippedTitle(title) || items == [] then None
    else Some(CappedSection(Trim(StripDecor(title)), items))
  }

  /** A block is dropped exactly when its title is skipped or none of its
      entries qualifies. */
  lemma SectionOfNone(b: HomeBlock)
    ensures SectionOf(b).None? <==> SkippedTitle(BlockTitle(b)) || forall j :: 0 <= j < |b.entries| ==> !HomeKeeps(b.entries[j])
  {
    HomeItemsEmpty(b.entries);
  }

  /** Every item of a section comes from a qualifying entry of its block. */
  lemma SectionItemsQualify(b: HomeBlock, i: nat)
    requires SectionOf(b).Some? && i < |SectionOf(b).value.items|
    ensures exists j :: 0 <= j < |b.entries| && HomeKeeps(b.entries[j]) && SectionOf(b).value.items[i] == HomeItemOf(b.entries[j])
  {
    SectionItems(b);
    var items := HomeItems(b.entries);
    assert SectionOf(b).value.items[i] == items[i];
    HomeItemsMembers(b.entries, items[i]);
  }

  /** A section's items are the first twelve items of its block. */
  lemma SectionItems(b: HomeBlock)
    requires SectionOf(b).Some?
    ensures SectionOf(b).value.items == Take(HomeItems(b.entries), MaxSectionItems)
  {
  }

  /** Between one and twelve items. */
  predicate Sized(s: Section) {
    1 <= |s.items| <= MaxSectionItems
  }

  /** The sections of the blocks, in page order. */
  function BlockSections(blocks: seq<HomeBlock>): (ss: seq<Section>)
    ensures |ss| <= |blocks|
    ensures forall i :: 0 <= i < |ss| ==> 1 <= |ss[i].items| <= MaxSectionItems
  {
    var all := Map(blocks, SectionOf);
    forall j | 0 <= j < |all| && all[j].Some? ensures Sized(all[j].value) {
      assert all[j] == SectionOf(blocks[j]);
    }
    SomesAll(all, Sized);
    Somes(all)
  }

  /** No section at all exactly when every block is skipped or empty: the
      condition for the fallback. */
  lemma BlockSectionsEmpty(blocks: seq<HomeBlock>)
    ensures BlockSections(blocks) == [] <==> forall j :: 0 <= j < |blocks| ==> SectionOf(blocks[j]).None?
  {
    SomesEmpty(Map(blocks, SectionOf));
  }

  /** The item title of a `/ccvod/` anchor: `title` attribute, else text. */
  function VodTitle(a: VodAnchor): string {
    Either(a.titleAttr, Trim(a.text))
  }

  /** A fallback candidate: link, a title longer than one UTF-16 unit without
      the site mark, and a cover. */
  predicate VodKeeps(a: VodAnchor) {
    && a.href != ""
    && VodTitle(a) != ""
    && Utf16Length(VodTitle(a)) > 1
    && !Contains(VodTitle(a), SiteMark)
    && Either(a.imgDataSrc, a.imgSrc) != ""
  }

  function VodItemOf(a: VodAnchor): (item: HomeItem)
    ensures item.title == VodTitle(a) && item.note == ""
    ensures Either(a.imgDataSrc, a.imgSrc) != "" ==> item.cover.Some?
  {
    HomeItem(VodTitle(a), AbsoluteUrl(Either(a.imgDataSrc, a.imgSrc)), AbsoluteUrl(a.href).GetOr(""), "")
  }

  function DetailUrlOf(item: HomeItem): string {
    item.detailUrl
  }

  /** The fallback candidates as items, unique by detail URL, first wins. */
  function HotItems(anchors: seq<VodAnchor>): (items: seq<HomeItem>)
    ensures Distinct(items, DetailUrlOf)
    ensures |items| <= |anchors|
  {
    DedupBy(Map(Filter(anchors, VodKeeps), VodItemOf), DetailUrlOf)
  }

  /** The fallback items, keeping repeats, in page order. */
  function VodCandidates(anchors: seq<VodAnchor>): seq<HomeItem> {
    Map(Filter(anchors, VodKeeps), VodItemOf)
  }

  /** The fallback items are the first occurrence of each detail URL among
      the qualifying anchors, in page order. */
  lemma HotItemsFirstWins(anchors: seq<VodAnchor>)
    ensures HotItems(anchors) == FirstOccurrences(VodCandidates(anchors), DetailUrlOf, |VodCandidates(anchors)|)
  {
    DedupByFirstOccurrences(VodCandidates(anchors), DetailUrlOf);
  }

  /** Every fallback item comes from a qualifying anchor, so it has a cover. */
  lemma HotItemsQualify(anchors: seq<VodAnchor>, x: HomeItem)
    requires x in HotItems(anchors)
    ensures exists j :: 0 <= j < |anchors| && VodKeeps(anchors[j]) && x == VodItemOf(anchors[j])
    ensures x.cover.Some?
  {
    var all := Map(Filter(anchors, VodKeeps), VodItemOf);
    DedupBySubset(all, DetailUrlOf);
    MapFilterMembers(anchors, VodKeeps, VodItemOf, x);
  }

  /** There is no fallback item exactly when no anchor qualifies. */
  lemma HotItemsEmpty(anchors: seq<VodAnchor>)
    ensures HotItems(anchors) == [] <==> forall j :: 0 <= j < |anchors| ==> !VodKeeps(anchors[j])
  {
    var all := Map(Filter(anchors, VodKeeps), VodItemOf);
    FilterEmpty(anchors, VodKeeps);
    if all != [] {
      assert DetailUrlOf(all[0]) in KeySet(all, DetailUrlOf);
      assert DetailUrlOf(all[0]) in KeySet(HotItems(anchors), DetailUrlOf);
    }
  }

  /** The fallback `热门推荐` section: at most twenty of the fallback items,
      none when there is no item. */
  function HotSection(anchors: seq<VodAnchor>): (s: Option<Section>)
    ensures s.Some? ==> s.value.title == HotTitle && 1 <= |s.value.items| <= MaxHotItems
    ensures s.Some? ==> Distinct(s.value.items, DetailUrlOf)
    ensures s.Some? ==> s.value.items == Take(HotItems(anchors), MaxHotItems)
    ensures s.None? <==> HotItems(anchors) == []
  {
    var unique := HotItems(anchors);
    if unique == [] then None
    else
      var taken := Take(unique, MaxHotItems);
      assert Distinct(taken, DetailUrlOf) by {
        forall i, j | 0 <= i < j < |taken| ensures DetailUrlOf(taken[i]) != DetailUrlOf(taken[j]) {
          assert taken[i] == unique[i] && taken[j] == unique[j];
        }
      }
      Some(Section(HotTitle, taken))
  }

  /** `getHomeRecommend()` given the parsed home page: the block sections, and
      only when there are none the fallback section. */
  function GetHomeRecommend(doc: Option<HomeDoc>): (sections: seq<Section>)
    ensures doc.None? ==> sections == []
    ensures doc.Some? && BlockSections(doc.value.blocks) != [] ==> sections == BlockSections(doc.value.blocks)
    ensures doc.Some? && BlockSections(doc.value.blocks) == [] ==>
              && |sections| <= 1
              && (sections == [] <==> HotSection(doc.value.vodAnchors).None?)
              && (sections != [] ==> sections[0] == HotSection(doc.value.vodAnchors).value)
  {
    match doc
    case None => []
    case Some(d) =>
      var ss := BlockSections(d.blocks);
      if ss != [] then ss
      else
        match HotSection(d.vodAnchors)
        case None => []
        case Some(h) => [h]
  }

  /** Every item of the fallback section has a cover. */
  lemma HotSectionCovers(anchors: seq<VodAnchor>)
    requires HotSection(anchors).Some?
    ensures forall k :: 0 <= k < |HotSection(anchors).value.items| ==> HotSection(anchors).value.items[k].cover.Some?
  {
    var items := HotSection(anchors).value.items;
    forall k | 0 <= k < |items| ensures items[k].cover.Some? {
      HotItemsQualify(anchors, HotItems(anchors)[k]);
    }
  }

  /** The fallback is used only when no block yields a section, and then a
      section appears exactly when some `/ccvod/` anchor qualifies. */
  lemma HomeFallback(d: HomeDoc)
    requires forall j :: 0 <= j < |d.blocks| ==> SectionOf(d.blocks[j]).None?
    ensures GetHomeRecommend(Some(d)) != [] <==> exists j :: 0 <= j < |d.vodAnchors| && VodKeeps(d.vodAnchors[j])
  {
    BlockSectionsEmpty(d.blocks);
    HotItemsEmpty(d.vodAnchors);
  }

  // ---------------------------------------------------------------------------
  // getCategoryList
  // ---------------------------------------------------------------------------

  const Categories: seq<string> := ["tv", "movie", "anime", "playlet"]

  /** An unknown category is read as `tv`. */
  function NormalizeCategory(category: string): (c: string)
    ensures c in Categories
    ensures category in Categories ==> c == category
    ensures category !in Categories ==> c == "tv"
  {
    if category in Categories then category else "tv"
  }

  /** The page part of the list URL: empty for the first page and below. */
  function PageSuffix(page: int): (s: string)
    ensures page <= 1 <==> s == ""
    ensures page > 1 ==> AllDigits(s) && ParseInt(s) == Some(page)
  {
    if page > 1 then
      ParseIntNatToString(page);
      NatToString(page)
    else ""
  }

  /** `${BASE_URL}/cclist/${category}-----${pageStr}.html`. */
  function CategoryUrl(category: string, page: int): string {
    BaseUrl + "/cclist/" + NormalizeCategory(category) + PageMarker + PageSuffix(page) + HtmlSuffix
  }

  datatype CategoryItem = CategoryItem(title: string, cover: Option<string>, detailUrl: string, note: string, rating: string)

  /** The category item title before trimming. */
  function ListTitle(e: ListEntry): string {
    Either(e.linkTitle, Either(Trim(e.altTitle), Trim(e.linkText)))
  }

  predicate ListKeeps(e: ListEntry) {
    e.link != "" && ListTitle(e) != "" && !Contains(ListTitle(e), SiteMark) && Utf16Length(ListTitle(e)) > 1
  }

  function CategoryItemOf(e: ListEntry): (item: CategoryItem)
    ensures item.title == Trim(ListTitle(e)) && item.detailUrl == LinkUrl(e)
    ensures e.link != "" ==> StartsWith(item.detailUrl, "http")
  {
    CategoryItem(Trim(ListTitle(e)), AbsoluteUrl(Either(e.imgDataSrc, e.imgSrc)), LinkUrl(e),
                 Trim(e.noteText), Trim(e.ratingText))
  }

  /** The absolute form of an entry's link. */
  function LinkUrl(e: ListEntry): string {
    AbsoluteUrl(e.link).GetOr("")
  }

  function ItemUrl(item: CategoryItem): string {
    item.detailUrl
  }

  /** The qualifying items, unique by detail URL, first wins. */
  function CategoryItems(entries: seq<ListEntry>): (items: seq<CategoryItem>)
    ensures Distinct(items, ItemUrl)
    ensures |items| <= |entries|
  {
    DedupBy(Map(Filter(entries, ListKeeps), CategoryItemOf), ItemUrl)
  }

  /** The qualifying items, keeping repeats, in page order. */
  function ListCandidates(entries: seq<ListEntry>): seq<CategoryItem> {
    Map(Filter(entries, ListKeeps), CategoryItemOf)
  }

  /** The items are the first occurrence of each detail URL among the
      qualifying entries, in page order. */
  lemma CategoryItemsFirstWins(entries: seq<ListEntry>)
    ensures CategoryItems(entries) == FirstOccurrences(ListCandidates(entries), ItemUrl, |ListCandidates(entries)|)
  {
    DedupByFirstOccurrences(ListCandidates(entries), ItemUrl);
  }

  /** Every item comes from a qualifying entry. */
  lemma CategoryItemsSound(entries: seq<ListEntry>, x: CategoryItem)
    requires x in CategoryItems(entries)
    ensures exists j :: 0 <= j < |entries| && ListKeeps(entries[j]) && x == CategoryItemOf(entries[j])
  {
    var all := Map(Filter(entries, ListKeeps), CategoryItemOf);
    DedupBySubset(all, ItemUrl);
    MapFilterMembers(entries, ListKeeps, CategoryItemOf, x);
  }

  /** Every qualifying entry's detail URL is represented, by exactly one item
      since the items are distinct by detail URL. */
  lemma CategoryItemsComplete(entries: seq<ListEntry>, j: nat)
    requires j < |entries| && ListKeeps(entries[j])
    ensures LinkUrl(entries[j]) in KeySet(CategoryItems(entries), ItemUrl)
  {
    var kept := Filter(entries, ListKeeps);
    var all := Map(kept, CategoryItemOf);
    assert entries[j] in kept;
    var k :| 0 <= k < |kept| && kept[k] == entries[j];
    assert ItemUrl(all[k]) == LinkUrl(entries[j]);
  }

  /** The number shown by a pagination label, when `parseInt` reads one. */
  function LabelNumber(l: PageLink): Option<int> {
    ParseInt(Trim(l.text))
  }

  /** The page number inside a pagination href, when it has one. */
  function HrefNumber(l: PageLink): Option<int> {
    match PageDigits(l.href)
    case None => None
    case Some(d) => Some(DecimalValue(d))
  }

  /** `totalPages`: the largest of 1, every number read from a pagination
      label and every number read from a pagination href, computed by the
      two passes over the links. */
  method TotalPages(labels: seq<Option<int>>, hrefs: seq<Option<int>>) returns (total: int)
    ensures total >= 1
    ensures forall j :: 0 <= j < |labels| && labels[j].Some? ==> total >= labels[j].value
    ensures forall j :: 0 <= j < |hrefs| && hrefs[j].Some? ==> total >= hrefs[j].value
    ensures total == 1 || Some(total) in labels || Some(total) in hrefs
  {
    total := 1;
    var i := 0;
    while i < |labels|
      invariant 0 <= i <= |labels|
      invariant total >= 1
      invariant forall j :: 0 <= j < i && labels[j].Some? ==> total >= labels[j].value
      invariant total == 1 || Some(total) in labels[..i]
    {
      if labels[i].Some? && labels[i].value > total {
        total := labels[i].value;
      }
      assert labels[..i + 1] == labels[..i] + [labels[i]];
      i := i + 1;
    }
    assert labels[..i] == labels;
    i := 0;
    while i < |hrefs|
      invariant 0 <= i <= |hrefs|
      invariant total >= 1
      invariant forall j :: 0 <= j < |labels| && labels[j].Some? ==> total >= labels[j].value
      invariant forall j :: 0 <= j < i && hrefs[j].Some? ==> total >= hrefs[j].value
      invariant total == 1 || Some(total) in labels || Some(total) in hrefs[..i]
    {
      if hrefs[i].Some? && hrefs[i].value > total {
        total := hrefs[i].value;
      }
      assert hrefs[..i + 1] == hrefs[..i] + [hrefs[i]];
      i := i + 1;
    }
    assert hrefs[..i] == hrefs;
  }

  /** A page count other than 1 is a number some pagination link shows. */
  lemma TotalPagesShown(links: seq<PageLink>, total: int)
    requires total == 1 || Some(total) in Map(links, LabelNumber) || Some(total) in Map(links, HrefNumber)
    ensures total == 1 || exists j :: 0 <= j < |links| && (LabelNumber(links[j]) == Some(total) || HrefNumber(links[j]) == Some(total))
  {
    if Some(total) in Map(links, LabelNumber) {
      MapWitness(links, LabelNumber, Some(total));
    } else if Some(total) in Map(links, HrefNumber) {
      MapWitness(links, HrefNumber, Some(total));
    }
  }

  /** `{items, page, totalPages, hasMore}`. */
  datatype CategoryPage = CategoryPage(items: seq<CategoryItem>, page: int, totalPages: int, hasMore: bool)

  /** `getCategoryList(category, page)`; `fetchList` stands for the request
      of the list URL and the parse of its answer (`None` when either threw). */
  method GetCategoryList(category: string, page: int, fetchList: string -> Option<ListDoc>) returns (r: CategoryPage)
    ensures fetchList(CategoryUrl(category, page)).None? ==> r == CategoryPage([], 1, 1, false)
    ensures fetchList(CategoryUrl(category, page)).Some? ==>
              && r.items == CategoryItems(fetchList(CategoryUrl(category, page)).value.entries)
              && r.page == page
    ensures r.totalPages >= 1
    ensures r.hasMore <==> r.page < r.totalPages
    ensures fetchList(CategoryUrl(category, page)).Some? ==>
              var links := fetchList(CategoryUrl(category, page)).value.pageLinks;
              && (forall j :: 0 <= j < |links| && LabelNumber(links[j]).Some? ==> r.totalPages >= LabelNumber(links[j]).value)
              && (forall j :: 0 <= j < |links| && HrefNumber(links[j]).Some? ==> r.totalPages >= HrefNumber(links[j]).value)
    ensures fetchList(CategoryUrl(category, page)).Some? ==>
              var links := fetchList(CategoryUrl(category, page)).value.pageLinks;
              || r.totalPages == 1
              || exists j :: 0 <= j < |links| && (LabelNumber(links[j]) == Some(r.totalPages) || HrefNumber(links[j]) == Some(r.totalPages))
  {
    match fetchList(CategoryUrl(category, page))
    case None =>
      r := CategoryPage([], 1, 1, false);
    case Some(doc) =>
      var labels := Map(doc.pageLinks, LabelNumber);
      var hrefs := Map(doc.pageLinks, HrefNumber);
      var total := TotalPages(labels, hrefs);
      TotalPagesShown(doc.pageLinks, total);
      r := CategoryPage(CategoryItems(doc.entries), page, total, page < total);
  }
}

=== FILE: lists.dfy ===
/** Sequence combinators the scraper and the scheduler use everywhere:
    `slice(0, n)`, `filter`, `map`, `flatMap` and the first-wins
    deduplication that a `seen` Set performs. */
module Lists {

  // ---------------------------------------------------------------------------
  // slice(0, n)
  // ---------------------------------------------------------------------------

  function Min(a: int, b: int): int {
    if a <= b then a else b
  }

  /** `s.slice(0, n)`: the first `n` elements, or all of them when there are fewer. */
  function Take<T>(s: seq<T>, n: nat): (r: seq<T>)
    ensures |r| == Min(n, |s|)
    ensures forall i :: 0 <= i < |r| ==> r[i] == s[i]
  {
    if |s| <= n then s else s[..n]
  }

  /** `s.slice(lo, hi)` for `0 <= lo`: clamped to the sequence. */
  function Slice<T>(s: seq<T>, lo: nat, hi: nat): (r: seq<T>)
    ensures lo >= |s| || hi <= lo ==> r == []
    ensures lo < |s| && lo < hi ==> r == s[lo..Min(hi, |s|)]
  {
    if lo >= |s| || hi <= lo then [] else s[lo..Min(hi, |s|)]
  }

  // ---------------------------------------------------------------------------
  // filter / map / flatMap
  // ---------------------------------------------------------------------------

  /** `s.filter(p)`. */
  function Filter<T>(s: seq<T>, p: T -> bool): (r: seq<T>)
    ensures |r| <= |s|
    ensures forall i :: 0 <= i < |r| ==> p(r[i])
    ensures forall i :: 0 <= i < |s| && p(s[i]) ==> s[i] in r
    ensures forall x :: x in r ==> x in s
  {
    if s == [] then []
    else
      var rest := Filter(s[1..], p);
      assert forall i :: 1 <= i < |s| ==> s[i] == s[1..][i - 1];
      if p(s[0]) then [s[0]] + rest else rest
  }

  /** `s.map(f)`. */
  function Map<T, U>(s: seq<T>, f: T -> U): (r: seq<U>)
    ensures |r| == |s|
    ensures forall i :: 0 <= i < |s| ==> r[i] == f(s[i])
  {
    seq(|s|, i requires 0 <= i < |s| => f(s[i]))
  }

  /** `a` is the start of `b`. */
  predicate IsPrefix<T(==)>(a: seq<T>, b: seq<T>) {
    |a| <= |b| && b[..|a|] == a
  }

  /** `slice(0, n)` keeps a start of the sequence, as long as it can. */
  lemma TakeIsPrefix<T>(s: seq<T>, n: nat)
    ensures IsPrefix(Take(s, n), s) && |Take(s, n)| == Min(n, |s|)
  {
  }

  /** A shorter `slice(0, m)` is the start of a longer one. */
  lemma TakePrefix<T>(s: seq<T>, m: nat, n: nat)
    requires m <= n
    ensures Take(s, n) == Take(s, m) + Take(s, n)[|Take(s, m)|..]
  {
  }

  lemma TakeMap<T, U>(s: seq<T>, f: T -> U, n: nat)
    ensures Take(Map(s, f), n) == Map(Take(s, n), f)
  {
  }

  lemma SliceMap<T, U>(s: seq<T>, f: T -> U, lo: nat, hi: nat)
    ensures Slice(Map(s, f), lo, hi) == Map(Slice(s, lo, hi), f)
  {
  }

  /** A value of the mapped sequence is the image of some element. */
  lemma MapWitness<T, U>(s: seq<T>, f: T -> U, y: U)
    requires y in Map(s, f)
    ensures exists j :: 0 <= j < |s| && f(s[j]) == y
  {
    var j :| 0 <= j < |s| && Map(s, f)[j] == y;
  }

  lemma MapAppend<T, U>(a: seq<T>, b: seq<T>, f: T -> U)
    ensures Map(a + b, f) == Map(a, f) + Map(b, f)
  {
  }

  /** Filtering distributes over concatenation. */
  lemma {:induction false} FilterAppend<T>(a: seq<T>, b: seq<T>, p: T -> bool)
    ensures Filter(a + b, p) == Filter(a, p) + Filter(b, p)
  {
    if a == [] {
      assert a + b == b;
    } else {
      assert (a + b)[0] == a[0];
      assert (a + b)[1..] == a[1..] + b;
      FilterAppend(a[1..], b, p);
    }
  }

  /** `ss.flat()`: concatenation in order. */
  function Flatten<T>(ss: seq<seq<T>>): (r: seq<T>)
  {
    if ss == [] then [] else ss[0] + Flatten(ss[1..])
  }

  // ---------------------------------------------------------------------------
  // First-wins deduplication
  // ---------------------------------------------------------------------------

  /** The keys occurring in `s`. */
  function KeySet<T, K(==)>(s: seq<T>, key: T -> K): set<K> {
    set i | 0 <= i < |s| :: key(s[i])
  }

  /** No two elements share a key. */
  predicate Distinct<T, K(==)>(s: seq<T>, key: T -> K) {
    forall i, j :: 0 <= i < j < |s| ==> key(s[i]) != key(s[j])
  }

  /** `s[k]` is the first element of `s` with its key. */
  predicate IsFirst<T, K(==)>(s: seq<T>, key: T -> K, k: int)
    requires 0 <= k < |s|
  {
    forall m :: 0 <= m < k ==> key(s[m]) != key(s[k])
  }

  lemma KeySetAppend<T, K>(s: seq<T>, x: T, key: T -> K)
    ensures KeySet(s + [x], key) == KeySet(s, key) + {key(x)}
  {
    var t := s + [x];
    assert forall i :: 0 <= i < |s| ==> t[i] == s[i];
    assert t[|s|] == x;
  }

  /** Keeps the first element of every key, in order: the `seen` Set idiom
      `items.filter(it => { if (seen.has(k(it))) return false; seen.add(k(it)); return true; })`,
      written over growing prefixes as the loop visits them. */
  function DedupBy<T, K(==)>(s: seq<T>, key: T -> K): (r: seq<T>)
    ensures Distinct(r, key)
    ensures KeySet(r, key) == KeySet(s, key)
    ensures |r| <= |s|
    decreases |s|
  {
    if s == [] then []
    else
      var init := s[..|s| - 1];
      var x := s[|s| - 1];
      var p := DedupBy(init, key);
      assert s == init + [x];
      KeySetAppend(init, x, key);
      KeySetAppend(p, x, key);
      if key(x) in KeySet(p, key) then p else p + [x]
  }

  /** Deduplication only drops elements. */
  lemma {:induction false} DedupBySubset<T, K>(s: seq<T>, key: T -> K)
    ensures forall x :: x in DedupBy(s, key) ==> x in s
    decreases |s|
  {
    if s != [] {
      var init := s[..|s| - 1];
      DedupBySubset(init, key);
      assert s == init + [s[|s| - 1]];
    }
  }

  /** Reference definition: the elements of `s[..n]` that are first
      occurrences of their key, in order. */
  function FirstOccurrences<T, K(==)>(s: seq<T>, key: T -> K, n: nat): seq<T>
    requires n <= |s|
  {
    if n == 0 then []
    else FirstOccurrences(s, key, n - 1) + (if IsFirst(s, key, n - 1) then [s[n - 1]] else [])
  }

  /** First-wins deduplication keeps exactly the first occurrence of each key,
      in their original order. */
  lemma {:induction false} DedupByFirstOccurrences<T, K>(s: seq<T>, key: T -> K)
    ensures DedupBy(s, key) == FirstOccurrences(s, key, |s|)
  {
    DedupPrefix(s, key, |s|);
    assert s[..|s|] == s;
  }

  lemma {:induction false} DedupPrefix<T, K>(s: seq<T>, key: T -> K, n: nat)
    requires n <= |s|
    ensures DedupBy(s[..n], key) == FirstOccurrences(s, key, n)
  {
    if n > 0 {
      DedupPrefix(s, key, n - 1);
      var pre := s[..n];
      assert pre[..n - 1] == s[..n - 1];
      assert pre[n - 1] == s[n - 1];
      var p := DedupBy(s[..n - 1], key);
      // The key of s[n - 1] was seen before exactly when it is not a first occurrence.
      assert key(s[n - 1]) in KeySet(s[..n - 1], key) <==> !IsFirst(s, key, n - 1) by {
        if !IsFirst(s, key, n - 1) {
          var m :| 0 <= m < n - 1 && key(s[m]) == key(s[n - 1]);
          assert s[..n - 1][m] == s[m];
        }
      }
    }
  }

  /** Every element of the deduplicated sequence comes from the input, and is
      the first element there with its key. */
  lemma DedupByFirstWins<T, K>(s: seq<T>, key: T -> K, i: nat)
    requires i < |DedupBy(s, key)|
    ensures exists k :: 0 <= k < |s| && s[k] == DedupBy(s, key)[i] && IsFirst(s, key, k)
  {
    DedupByFirstOccurrences(s, key);
    FirstOccurrencesFrom(s, key, |s|, i);
  }

  /** An element kept by a filter after a first-wins deduplication of
      `xs.map(f)` is the image of the first element of `xs` with its key. */
  lemma FilterDedupFirst<T, U, K>(xs: seq<T>, f: T -> U, key: U -> K, p: U -> bool, y: U) returns (j: nat)
    requires y in Filter(DedupBy(Map(xs, f), key), p)
    ensures j < |xs| && y == f(xs[j])
    ensures forall m :: 0 <= m < j ==> key(f(xs[m])) != key(f(xs[j]))
  {
    var ys := Map(xs, f);
    var d := DedupBy(ys, key);
    var i :| 0 <= i < |d| && d[i] == y;
    DedupByFirstWins(ys, key, i);
    j :| 0 <= j < |ys| && ys[j] == y && IsFirst(ys, key, j);
    assert forall m :: 0 <= m < j ==> ys[m] == f(xs[m]);
  }

  lemma {:induction false} FirstOccurrencesFrom<T, K>(s: seq<T>, key: T -> K, n: nat, i: nat)
    requires n <= |s| && i < |FirstOccurrences(s, key, n)|
    ensures exists k :: 0 <= k < n && s[k] == FirstOccurrences(s, key, n)[i] && IsFirst(s, key, k)
  {
    var p := FirstOccurrences(s, key, n - 1);
    if i < |p| {
      FirstOccurrencesFrom(s, key, n - 1, i);
    } else {
      assert FirstOccurrences(s, key, n)[i] == s[n - 1];
    }
  }

  /** Filtering keeps the relative order, so it keeps keys distinct. */
  lemma {:induction false} FilterDistinct<T, K>(s: seq<T>, p: T -> bool, key: T -> K)
    requires Distinct(s, key)
    ensures Distinct(Filter(s, p), key)
  {
    if s != [] {
      var rest := Filter(s[1..], p);
      assert Distinct(s[1..], key) by {
        forall i, j | 0 <= i < j < |s[1..]| ensures key(s[1..][i]) != key(s[1..][j]) {
          assert s[1..][i] == s[i + 1] && s[1..][j] == s[j + 1];
        }
      }
      FilterDistinct(s[1..], p, key);
      if p(s[0]) {
        forall x | x in rest ensures key(x) != key(s[0]) {
          var k :| 0 <= k < |s[1..]| && s[1..][k] == x;
          assert x == s[k + 1];
        }
        var r := [s[0]] + rest;
        forall i, j | 0 <= i < j < |r| ensures key(r[i]) != key(r[j]) {
          if i == 0 {
            assert r[j] == rest[j - 1] && r[j] in rest;
          } else {
            assert r[i] == rest[i - 1] && r[j] == rest[j - 1];
          }
        }
      }
    }
  }

  /** A filter every element passes changes nothing. */
  lemma {:induction false} FilterAll<T>(s: seq<T>, p: T -> bool)
    requires forall i :: 0 <= i < |s| ==> p(s[i])
    ensures Filter(s, p) == s
  {
    if s != [] {
      FilterAll(s[1..], p);
    }
  }

  /** Deduplication leaves a sequence whose keys are already distinct alone. */
  lemma {:induction false} DedupByDistinct<T, K>(s: seq<T>, key: T -> K)
    requires Distinct(s, key)
    ensures DedupBy(s, key) == s
    decreases |s|
  {
    if s != [] {
      var init := s[..|s| - 1];
      var x := s[|s| - 1];
      DedupByDistinct(init, key);
      assert key(x) !in KeySet(init, key);
    }
  }

  /** When at most `n` keys occur, every key survives `slice(0, n)` after
      the deduplication. */
  lemma DedupTakeCovers<T, K>(s: seq<T>, key: T -> K, n: nat, i: nat)
    requires i < |s| && |DedupBy(s, key)| <= n
    ensures exists j :: 0 <= j < |Take(DedupBy(s, key), n)| && key(Take(DedupBy(s, key), n)[j]) == key(s[i])
  {
    var d := DedupBy(s, key);
    assert key(s[i]) in KeySet(s, key);
    assert key(s[i]) in KeySet(d, key);
    var j :| 0 <= j < |d| && key(d[j]) == key(s[i]);
    assert Take(d, n)[j] == d[j];
  }

  /** Deduplicating and filtering change nothing when the keys are distinct
      and every element passes. */
  lemma FilterDedupUnchanged<T, K>(s: seq<T>, key: T -> K, p: T -> bool)
    requires Distinct(s, key)
    requires forall i :: 0 <= i < |s| ==> p(s[i])
    ensures Filter(DedupBy(s, key), p) == s
  {
    DedupByDistinct(s, key);
    FilterAll(s, p);
  }

  /** An image that passes the filter is kept by `s.map(f).filter(p)`. */
  lemma MapFilterKeeps<T, U>(s: seq<T>, f: T -> U, p: U -> bool, k: nat)
    requires k < |s| && p(f(s[k]))
    ensures f(s[k]) in Filter(Map(s, f), p)
  {
    assert Map(s, f)[k] == f(s[k]);
  }

  /** ... and survives a `slice(0, n)` that cuts nothing off. */
  lemma MapFilterTakeKeeps<T, U>(s: seq<T>, f: T -> U, p: U -> bool, n: nat, k: nat)
    requires k < |s| && p(f(s[k]))
    requires |Filter(Map(s, f), p)| <= n
    ensures f(s[k]) in Take(Filter(Map(s, f), p), n)
  {
    MapFilterKeeps(s, f, p, k);
  }

  /** `s.filter(p).map(f)` holds exactly the images of the elements that pass. */
  lemma MapFilterMembers<T, U>(s: seq<T>, p: T -> bool, f: T -> U, y: U)
    ensures y in Map(Filter(s, p), f) <==> exists i :: 0 <= i < |s| && p(s[i]) && y == f(s[i])
  {
    var kept := Filter(s, p);
    if y in Map(kept, f) {
      var k :| 0 <= k < |kept| && Map(kept, f)[k] == y;
      assert kept[k] in s;
      var i :| 0 <= i < |s| && s[i] == kept[k];
      assert p(s[i]);
    }
    if exists i :: 0 <= i < |s| && p(s[i]) && y == f(s[i]) {
      var i :| 0 <= i < |s| && p(s[i]) && y == f(s[i]);
      assert s[i] in kept;
      var k :| 0 <= k < |kept| && kept[k] == s[i];
      assert Map(kept, f)[k] == y;
    }
  }

  /** `s.filter(p)` is empty exactly when no element passes. */
  lemma FilterEmpty<T>(s: seq<T>, p: T -> bool)
    ensures Filter(s, p) == [] <==> forall i :: 0 <= i < |s| ==> !p(s[i])
  {
    var r := Filter(s, p);
    if r != [] {
      assert r[0] in s;
      var i :| 0 <= i < |s| && s[i] == r[0];
      assert p(s[i]);
    }
  }
}

=== FILE: manifest.dfy ===
/** The pure part of `resolveM3u8` (backend/scraper.js): given the text of an
    HLS playlist (section 4.3.4.2 of RFC 8216 defines the `#EXTM3U` and
    `#EXT-X-STREAM-INF` tags), pick the variant playlist to play and join its
    URI to the playlist's own URL with a simplified form of the reference
    resolution of section 5.2 of RFC 3986. */
module Manifest {
  import opened Options
  import opened Text
  import opened Urls

  const MasterTag: string := "#EXTM3U"
  const StreamInfTag: string := "#EXT-X-STREAM-INF"
  const PlaylistExt: string := ".m3u8"
  const SegmentExt: string := ".ts"

  // ---------------------------------------------------------------------------
  // Candidate selection
  // ---------------------------------------------------------------------------

  /** Every line with `trim()` applied: both passes compare trimmed lines. */
  function TrimLines(lines: seq<string>): (t: seq<string>)
    ensures |t| == |lines|
    ensures forall i :: 0 <= i < |lines| ==> t[i] == Trim(lines[i])
  {
    seq(|lines|, i requires 0 <= i < |lines| => Trim(lines[i]))
  }

  /** A line that is a URI rather than a tag or comment. */
  predicate IsUriLine(line: string) {
    line != "" && !StartsWith(line, "#")
  }

  /** Forward rule over trimmed lines `t`: line `i` starts with the
      stream-info tag and line `i + 1` is a URI that names a playlist or at
      least does not name a segment. */
  predicate VariantAt(t: seq<string>, i: int) {
    && 0 <= i < |t| - 1
    && StartsWith(t[i], StreamInfTag)
    && IsUriLine(t[i + 1])
    && (Contains(t[i + 1], PlaylistExt) || !Contains(t[i + 1], SegmentExt))
  }

  /** Backward rule over trimmed lines `t`: line `k` is a URI naming a playlist. */
  predicate PlaylistLineAt(t: seq<string>, k: int) {
    0 <= k < |t| && IsUriLine(t[k]) && Contains(t[k], PlaylistExt)
  }

  /** The first `i >= from` satisfying the forward rule. */
  function FirstVariant(t: seq<string>, from: nat): (r: Option<nat>)
    ensures r.Some? ==> from <= r.value && VariantAt(t, r.value)
    ensures r.Some? ==> forall m :: from <= m < r.value ==> !VariantAt(t, m)
    ensures r.None? ==> forall m :: from <= m ==> !VariantAt(t, m)
    decreases |t| - from
  {
    if from + 1 >= |t| then None
    else if VariantAt(t, from) then Some(from)
    else FirstVariant(t, from + 1)
  }

  /** The last `k < n` satisfying the backward rule. */
  function LastPlaylistLine(t: seq<string>, n: nat): (r: Option<nat>)
    requires n <= |t|
    ensures r.Some? ==> r.value < n && PlaylistLineAt(t, r.value)
    ensures r.Some? ==> forall m :: r.value < m < n ==> !PlaylistLineAt(t, m)
    ensures r.None? ==> forall m :: 0 <= m < n ==> !PlaylistLineAt(t, m)
  {
    if n == 0 then None
    else if PlaylistLineAt(t, n - 1) then Some(n - 1)
    else LastPlaylistLine(t, n - 1)
  }

  /** The variant URI to follow among the (untrimmed) playlist lines: the
      first forward-rule match, else the last backward-rule match. */
  function Candidate(lines: seq<string>): (c: Option<string>)
    ensures c.Some? ==> IsUriLine(c.value) && IsTrimmed(c.value) && c.value in TrimLines(lines)
    ensures (exists i :: VariantAt(TrimLines(lines), i)) ==>
              && c.Some?
              && exists i :: (&& VariantAt(TrimLines(lines), i)
                              && (forall m :: 0 <= m < i ==> !VariantAt(TrimLines(lines), m))
                              && c.value == TrimLines(lines)[i + 1])
    ensures ((forall i :: !VariantAt(TrimLines(lines), i)) && c.Some?) ==>
              exists k :: (&& PlaylistLineAt(TrimLines(lines), k)
                           && (forall m :: k < m < |lines| ==> !PlaylistLineAt(TrimLines(lines), m))
                           && c.value == TrimLines(lines)[k])
    ensures c.None? <==> (forall i :: !VariantAt(TrimLines(lines), i)) && (forall k :: !PlaylistLineAt(TrimLines(lines), k))
  {
    var t := TrimLines(lines);
    match FirstVariant(t, 0)
    case Some(i) => Some(t[i + 1])
    case None =>
      match LastPlaylistLine(t, |t|)
      case Some(k) => Some(t[k])
      case None => None
  }

  // ---------------------------------------------------------------------------
  // Joining
  // ---------------------------------------------------------------------------

  /** Index of the last `c` in `s`. */
  function LastIndexOf(s: string, c: char): (r: Option<nat>)
    ensures r.Some? ==> r.value < |s| && s[r.value] == c && c !in s[r.value + 1..]
    ensures r.None? <==> c !in s
  {
    if s == [] then None
    else if s[|s| - 1] == c then Some(|s| - 1)
    else
      var r := LastIndexOf(s[..|s| - 1], c);
      assert s == s[..|s| - 1] + [s[|s| - 1]];
      r
  }

  /** `url.substring(0, url.lastIndexOf('/'))`: the URL up to, not including,
      its last slash (empty when there is none). */
  function Directory(url: string): (d: string)
    ensures |d| <= |url| && d == url[..|d|]
    ensures '/' in url ==> |d| < |url| && url[|d|] == '/' && '/' !in url[|d| + 1..]
  {
    match LastIndexOf(url, '/')
    case Some(i) => url[..i]
    case None => ""
  }

  /** Resolves the candidate against the playlist URL: absolute (`http…`)
      candidates are kept, root-relative ones get the playlist's scheme and
      host, and the rest are put in the playlist's directory. A URL that
      `new URL` rejects makes the whole resolution fall back to `url`. */
  function JoinCandidate(url: string, candidate: string): (r: string)
    ensures StartsWith(candidate, "http") ==> r == candidate
    ensures !StartsWith(candidate, "http") && Origin(url).None? ==> r == url
    ensures (!StartsWith(candidate, "http") && StartsWith(candidate, "/") && Origin(url).Some?)
            ==> r == Origin(url).value.0 + "//" + Origin(url).value.1 + candidate
    ensures (!StartsWith(candidate, "http") && !StartsWith(candidate, "/") && Origin(url).Some?)
            ==> r == Directory(url) + "/" + candidate
    ensures r == url || EndsWith(r, candidate)
  {
    if StartsWith(candidate, "http") then candidate
    else
      match Origin(url)
      case None => url
      case Some((protocol, host)) =>
        if StartsWith(candidate, "/") then protocol + "//" + host + candidate
        else Directory(url) + "/" + candidate
  }

  /** A relative candidate without a slash of its own lands in the
      playlist's directory: the joined URL's directory is the playlist's. */
  lemma JoinStaysInDirectory(url: string, candidate: string)
    requires !StartsWith(candidate, "http") && !StartsWith(candidate, "/")
    requires Origin(url).Some? && '/' !in candidate
    ensures Directory(JoinCandidate(url, candidate)) == Directory(url)
  {
    var d := Directory(url);
    var r := JoinCandidate(url, candidate);
    assert r == d + "/" + candidate;
    assert r[|d|] == '/';
    assert r[|d| + 1..] == candidate;
    LastIndexOfAt(r, '/', |d|);
    assert r[..|d|] == d;
  }

  // ---------------------------------------------------------------------------
  // resolveM3u8
  // ---------------------------------------------------------------------------

  /** `resolveM3u8(url)` once the playlist has been fetched: `content` is the
      response body, `None` when the request (or anything after it) threw.
      Content that is not an HLS playlist, and a playlist with no candidate,
      resolve to `url` itself; the source's separate check for `.ts`
      segments returns `url` on both of its branches. */
  function ResolveM3u8(url: string, content: Option<string>): (r: string)
    ensures content.None? ==> r == url
    ensures content.Some? && !Contains(content.value, MasterTag) ==> r == url
    ensures content.Some? && Candidate(Split(content.value, '\n')).None? ==> r == url
    ensures (content.Some? && Contains(content.value, MasterTag) && Candidate(Split(content.value, '\n')).Some?)
            ==> r == JoinCandidate(url, Candidate(Split(content.value, '\n')).value)
  {
    match content
    case None => url
    case Some(text) =>
      if !Contains(text, MasterTag) then url
      else
        match Candidate(Split(text, '\n'))
        case None => url
        case Some(c) => JoinCandidate(url, c)
  }

  // ---------------------------------------------------------------------------
  // Worked examples
  // ---------------------------------------------------------------------------

  /** `LastIndexOf` finds the one position that holds `c` with none after it. */
  lemma LastIndexOfAt(s: string, c: char, i: nat)
    requires i < |s| && s[i] == c && c !in s[i + 1..]
    ensures LastIndexOf(s, c) == Some(i)
  {
    var r := LastIndexOf(s, c);
    assert r.Some?;
  }

  const ExampleUrl: string := "https://host/path/master.m3u8"

  lemma ExampleUrlShape()
    ensures ExampleUrl[5] == ':' && ExampleUrl[6] == '/' && ExampleUrl[7] == '/' && ExampleUrl[12] == '/'
    ensures ':' !in ExampleUrl[..5] && ExampleUrl[..5] == "https" && ExampleUrl[8..12] == "host"
    ensures forall m :: 0 <= m < 5 ==> IsSchemeChar(ExampleUrl[m])
    ensures forall m :: 8 <= m < 12 ==> ExampleUrl[m] !in "/?#"
  {
    var u := ExampleUrl;
    assert u[..5] == "https" by {
      assert u[0] == 'h';
      assert u[1] == 't';
      assert u[2] == 't';
      assert u[3] == 'p';
      assert u[4] == 's';
    }
    assert u[8..12] == "host" by {
      assert u[8] == 'h';
      assert u[9] == 'o';
      assert u[10] == 's';
      assert u[11] == 't';
    }
    assert u[5] == ':';
    assert u[6] == '/';
    assert u[7] == '/';
    assert u[12] == '/';
  }

  // The examples take the URL as a parameter equal to `ExampleUrl`, which
  // keeps the verifier from evaluating the functions on the literal itself.

  lemma ExampleOrigin(u: string)
    requires u == ExampleUrl
    ensures Origin(u) == Some(("https:", "host"))
  {
    ExampleOriginParts(u);
    ExampleUrlPieces(u);
    LowerAsciiExample();
    HttpsColon();
  }

  lemma ExampleUrlPieces(u: string)
    requires u == ExampleUrl
    ensures u[..5] == "https" && u[8..12] == "host"
  {
    ExampleUrlShape();
  }

  lemma HttpsColon()
    ensures "https" + ":" == "https:"
  {
  }

  lemma ExampleOriginParts(u: string)
    requires u == ExampleUrl
    ensures Origin(u) == Some((LowerAscii(u[..5]) + ":", LowerAscii(u[8..12])))
  {
    ExampleUrlShape();
    assert |u| == 29;
    assert 'a' <= u[0] <= 'z' by {
      assert u[0] == u[..5][0];
    }
    assert u[12] in "/?#";
    OriginAt(u, 5, 12);
  }

  lemma LowerAsciiExample()
    ensures LowerAscii("host") == "host" && LowerAscii("https") == "https"
  {
  }

  lemma ExampleDirectory(u: string)
    requires u == ExampleUrl
    ensures Directory(u) == "https://host/path"
  {
    assert u[17] == '/' && u[18..] == "master.m3u8";
    LastIndexOfAt(u, '/', 17);
    assert u[..17] == "https://host/path";
  }

  /** A relative variant URI is put in the directory of the master playlist. */
  lemma ExampleRelativeJoin(u: string, c: string)
    requires u == ExampleUrl && c == "720p/index.m3u8"
    ensures JoinCandidate(u, c) == "https://host/path/720p/index.m3u8"
  {
    ExampleOrigin(u);
    ExampleDirectory(u);
    RelativePieces(c);
  }

  lemma RelativePieces(c: string)
    requires c == "720p/index.m3u8"
    ensures !StartsWith(c, "http") && !StartsWith(c, "/")
    ensures "https://host/path" + "/" + c == "https://host/path/720p/index.m3u8"
  {
    assert c[0] == '7';
    assert c[..4][0] != "http"[0];
    assert c[..1][0] != '/';
  }

  /** A root-relative variant URI keeps only the scheme and host. */
  lemma ExampleRootRelativeJoin(u: string, c: string)
    requires u == ExampleUrl && c == "/cdn/a.m3u8"
    ensures JoinCandidate(u, c) == "https://host/cdn/a.m3u8"
  {
    ExampleOrigin(u);
    RootRelativePieces(c);
  }

  lemma RootRelativePieces(c: string)
    requires c == "/cdn/a.m3u8"
    ensures !StartsWith(c, "http") && StartsWith(c, "/")
    ensures "https:" + "//" + "host" + c == "https://host/cdn/a.m3u8"
  {
    assert c[1] == 'c';
    assert c[..4][0] != "http"[0];
    assert c[..1] == [c[0]] == "/";
  }

  const ExampleLines: seq<string> := ["#EXTM3U", "#EXT-X-STREAM-INF:BANDWIDTH=800000", "720p/index.m3u8"]

  /** End to end: the master playlist made of `ExampleLines`, fetched from
      `ExampleUrl`, resolves to its one variant in the same directory. */
  lemma ExampleMasterPlaylist(u: string, lines: seq<string>)
    requires u == ExampleUrl && lines == ExampleLines
    ensures ResolveM3u8(u, Some(Join(lines, '\n'))) == "https://host/path/720p/index.m3u8"
  {
    ExampleText(lines);
    ExampleCandidate(lines);
    ExampleRelativeJoin(u, lines[2]);
  }

  lemma ExampleText(lines: seq<string>)
    requires lines == ExampleLines
    ensures Split(Join(lines, '\n'), '\n') == lines
    ensures Contains(Join(lines, '\n'), MasterTag)
  {
    ExampleTextStart(lines);
    ExampleLinesClean(lines);
    SplitJoin(lines, '\n');
  }

  lemma ExampleTextStart(lines: seq<string>)
    requires lines == ExampleLines
    ensures OccursAt(Join(lines, '\n'), MasterTag, 0)
  {
    var text := Join(lines, '\n');
    var tail := Join(lines[1..], '\n');
    assert text == lines[0] + ['\n'] + tail;
    assert text[..7] == lines[0];
  }

  lemma ExampleLinesClean(lines: seq<string>)
    requires lines == ExampleLines
    ensures forall i :: 0 <= i < |lines| ==> '\n' !in lines[i]
  {
  }

  /** Lines without surrounding whitespace come through `trim` unchanged. */
  lemma TrimLinesTrimmed(lines: seq<string>)
    requires forall i :: 0 <= i < |lines| ==> IsTrimmed(lines[i])
    ensures TrimLines(lines) == lines
  {
    forall i | 0 <= i < |lines| ensures TrimLines(lines)[i] == lines[i] {
      TrimTrimmed(lines[i]);
    }
  }

  lemma ExampleLinesTrimmed(lines: seq<string>)
    requires lines == ExampleLines
    ensures TrimLines(lines) == lines
  {
    assert IsTrimmed(lines[0]) && IsTrimmed(lines[1]) && IsTrimmed(lines[2]);
    TrimLinesTrimmed(lines);
  }

  lemma ExampleCandidate(lines: seq<string>)
    requires lines == ExampleLines
    ensures Candidate(lines) == Some(lines[2])
  {
    ExampleLinesTrimmed(lines);
    var t := TrimLines(lines);
    assert !VariantAt(t, 0);
    assert t[1][..17] == StreamInfTag;
    assert t[2][0] == '7';
    assert OccursAt(t[2], PlaylistExt, 10);
    assert VariantAt(t, 1);
    assert FirstVariant(t, 0) == Some(1);
  }
}

=== FILE: mirrors.dfy ===
/** Mirror discovery (`parseSourceLinks`) and play-page resolution
    (`getVideoUrlFromPlayPage`) of backend/scraper.js: every mirror link of a
    play page becomes a source line, each source line is resolved on its own,
    and one stream is chosen as the primary. */
module Mirrors {
  import opened Options
  import opened Text
  import opened Lists
  import opened Urls
  import opened Document
  import opened StreamRef
  import opened Manifest

  const SpareName: string := "备用线路"
  const DefaultName: string := "默认线路"
  const Placeholder: string := "javascript:;"

  /** A discovered mirror: display name, absolute page URL (absent only for
      the default line of a play URL that has none), and the active flag. */
  datatype Source = Source(name: string, pageUrl: Option<string>, isActive: bool)

  function PageKey(s: Source): Option<string> {
    s.pageUrl
  }

  // ---------------------------------------------------------------------------
  // parseSourceLinks
  // ---------------------------------------------------------------------------

  /** A link without a real target points at the page itself. */
  predicate IsPlaceholder(link: MirrorLink) {
    link.href == "" || link.href == Placeholder
  }

  /** The source line one mirror link describes, before deduplication. */
  function SourceOf(link: MirrorLink, playUrl: string): (s: Source)
    ensures s.name != ""
    ensures Trim(link.text) != "" ==> s.name == Trim(link.text)
    ensures Trim(link.text) == "" ==> s.name == SpareName
    ensures IsPlaceholder(link) ==> s.pageUrl == AbsoluteUrl(playUrl) && s.isActive
    ensures !IsPlaceholder(link) ==> s.pageUrl == AbsoluteUrl(link.href) && s.isActive == link.hasActiveClass
  {
    var name := if Trim(link.text) != "" then Trim(link.text) else SpareName;
    var href := if IsPlaceholder(link) then playUrl else link.href;
    Source(name, AbsoluteUrl(href), link.hasActiveClass || IsPlaceholder(link))
  }

  /** The line synthesised when the page lists no usable mirror. */
  function DefaultSource(playUrl: string): Source {
    Source(DefaultName, AbsoluteUrl(playUrl), true)
  }

  function Described(links: seq<MirrorLink>, playUrl: string): seq<Source> {
    Map(links, (link: MirrorLink) => SourceOf(link, playUrl))
  }

  /** Some link resolves to a page URL. */
  predicate AnyUsable(links: seq<MirrorLink>, playUrl: string) {
    exists j :: 0 <= j < |links| && SourceOf(links[j], playUrl).pageUrl.Some?
  }

  predicate HasPage(s: Source) {
    s.pageUrl.Some?
  }

  /** The loop of `parseSourceLinks`: lines without a page URL are skipped and
      a page URL already seen is skipped. */
  function Usable(links: seq<MirrorLink>, playUrl: string): seq<Source> {
    Filter(DedupBy(Described(links, playUrl), PageKey), HasPage)
  }

  lemma UsableDistinct(links: seq<MirrorLink>, playUrl: string)
    ensures Distinct(Usable(links, playUrl), PageKey)
  {
    FilterDistinct(DedupBy(Described(links, playUrl), PageKey), HasPage, PageKey);
  }

  lemma UsableCovers(links: seq<MirrorLink>, playUrl: string, j: nat)
    requires j < |links| && SourceOf(links[j], playUrl).pageUrl.Some?
    ensures exists k :: 0 <= k < |Usable(links, playUrl)| && Usable(links, playUrl)[k].pageUrl == SourceOf(links[j], playUrl).pageUrl
  {
    var described := Described(links, playUrl);
    var u := Usable(links, playUrl);
    assert described[j] == SourceOf(links[j], playUrl);
    var k := KeptPageCovers(described, j);
    assert u == Filter(DedupBy(described, PageKey), HasPage);
    assert 0 <= k < |u| && u[k].pageUrl == SourceOf(links[j], playUrl).pageUrl;
  }

  /** A line with a page URL survives the skipping as the first line for that URL. */
  lemma KeptPageCovers(described: seq<Source>, j: nat) returns (k: nat)
    requires j < |described| && described[j].pageUrl.Some?
    ensures k < |Filter(DedupBy(described, PageKey), HasPage)|
    ensures Filter(DedupBy(described, PageKey), HasPage)[k].pageUrl == described[j].pageUrl
  {
    var d := DedupBy(described, PageKey);
    assert PageKey(described[j]) in KeySet(described, PageKey);
    var i :| 0 <= i < |d| && PageKey(d[i]) == PageKey(described[j]);
    assert HasPage(d[i]);
    var kept := Filter(d, HasPage);
    assert d[i] in kept;
    k :| 0 <= k < |kept| && kept[k] == d[i];
  }

  lemma UsableEmpty(links: seq<MirrorLink>, playUrl: string)
    ensures Usable(links, playUrl) == [] <==> !AnyUsable(links, playUrl)
  {
    var u := Usable(links, playUrl);
    if u != [] {
      var d := DedupBy(Described(links, playUrl), PageKey);
      assert u[0] in d && HasPage(u[0]);
      assert PageKey(u[0]) in KeySet(d, PageKey);
    }
    if AnyUsable(links, playUrl) {
      var j :| 0 <= j < |links| && SourceOf(links[j], playUrl).pageUrl.Some?;
      UsableCovers(links, playUrl, j);
    }
  }

  /** `parseSourceLinks(html, playUrl)` over the page's `.xianlu a` links: the
      usable links, first page URL wins, in document order; the default line
      when no link is usable. */
  function ParseSourceLinks(links: seq<MirrorLink>, playUrl: string): (r: seq<Source>)
    ensures |r| >= 1
    ensures Distinct(r, PageKey)
    ensures !AnyUsable(links, playUrl) ==> r == [DefaultSource(playUrl)]
    ensures AnyUsable(links, playUrl) ==> forall k :: 0 <= k < |r| ==> r[k].pageUrl.Some?
    ensures forall j :: 0 <= j < |links| && SourceOf(links[j], playUrl).pageUrl.Some? ==>
              exists k :: 0 <= k < |r| && r[k].pageUrl == SourceOf(links[j], playUrl).pageUrl
  {
    var usable := Usable(links, playUrl);
    UsableDistinct(links, playUrl);
    UsableEmpty(links, playUrl);
    forall j | 0 <= j < |links| && SourceOf(links[j], playUrl).pageUrl.Some?
      ensures exists k :: 0 <= k < |usable| && usable[k].pageUrl == SourceOf(links[j], playUrl).pageUrl
    {
      UsableCovers(links, playUrl, j);
    }
    if usable == [] then [DefaultSource(playUrl)] else usable
  }

  /** With a usable link, the lines are the first line for each page URL,
      in document order, without the lines that have no page URL. */
  lemma ParseSourceLinksInOrder(links: seq<MirrorLink>, playUrl: string)
    requires AnyUsable(links, playUrl)
    ensures ParseSourceLinks(links, playUrl)
            == Filter(FirstOccurrences(Described(links, playUrl), PageKey, |links|), HasPage)
  {
    UsableEmpty(links, playUrl);
    DedupByFirstOccurrences(Described(links, playUrl), PageKey);
  }

  /** First wins: every listed line is the line of some link, and no earlier
      link resolves to the same page URL. */
  lemma ParseSourceLinksFirstWins(links: seq<MirrorLink>, playUrl: string, k: nat)
    requires AnyUsable(links, playUrl)
    requires k < |ParseSourceLinks(links, playUrl)|
    ensures exists j :: (&& 0 <= j < |links|
                         && ParseSourceLinks(links, playUrl)[k] == SourceOf(links[j], playUrl)
                         && forall m :: 0 <= m < j ==> SourceOf(links[m], playUrl).pageUrl != SourceOf(links[j], playUrl).pageUrl)
  {
    UsableEmpty(links, playUrl);
    var r := Usable(links, playUrl);
    assert ParseSourceLinks(links, playUrl) == r;
    var f := (link: MirrorLink) => SourceOf(link, playUrl);
    assert r[k] in Filter(DedupBy(Map(links, f), PageKey), HasPage);
    var j := FilterDedupFirst(links, f, PageKey, HasPage, r[k]);
    assert r[k] == SourceOf(links[j], playUrl);
    assert forall m :: 0 <= m < j ==> SourceOf(links[m], playUrl).pageUrl != SourceOf(links[j], playUrl).pageUrl by {
      forall m | 0 <= m < j ensures SourceOf(links[m], playUrl).pageUrl != SourceOf(links[j], playUrl).pageUrl {
        assert f(links[m]) == SourceOf(links[m], playUrl);
      }
    }
  }

  /** Links with distinct absolute targets are kept one for one, in order. */
  lemma ParseSourceLinksDistinct(links: seq<MirrorLink>, playUrl: string)
    requires |links| > 0
    requires forall j :: 0 <= j < |links| ==> SourceOf(links[j], playUrl).pageUrl.Some?
    requires Distinct(Described(links, playUrl), PageKey)
    ensures ParseSourceLinks(links, playUrl) == Described(links, playUrl)
  {
    var described := Described(links, playUrl);
    forall i | 0 <= i < |described| ensures HasPage(described[i]) {
      assert described[i] == SourceOf(links[i], playUrl);
    }
    FilterDedupUnchanged(described, PageKey, HasPage);
    assert Usable(links, playUrl) == described;
  }

  // ---------------------------------------------------------------------------
  // Per-mirror resolution
  // ---------------------------------------------------------------------------

  /** A source line resolved in the play context. */
  datatype ResolvedSource = ResolvedSource(name: string, pageUrl: Option<string>, isActive: bool,
                                           rawUrl: Option<string>, streamUrl: Option<string>)

  /** The raw reference becomes a stream: playlists are resolved through the
      fetched playlist text, anything else is kept as it is. */
  function StreamOf(raw: Option<string>, fetchText: string -> Option<string>): (s: Option<string>)
    ensures !(TruthyString(raw) && EndsWith(raw.value, PlaylistExt)) ==> s == raw
    ensures TruthyString(raw) && EndsWith(raw.value, PlaylistExt) ==>
              s == Some(ResolveM3u8(raw.value, fetchText(raw.value)))
  {
    if TruthyString(raw) && EndsWith(raw.value, PlaylistExt) then Some(ResolveM3u8(raw.value, fetchText(raw.value)))
    else raw
  }

  /** `resolveSource`: the mirror's page is the already fetched one when its
      URL is the play page's, else it is fetched; a failed fetch yields a
      line with neither raw nor stream URL. `fetchPage` and `fetchText` stand
      for the HTTP requests (`None` when the request throws). */
  function ResolveSource(src: Source, finalUrl: string, page: Page,
                         fetchPage: string -> Option<Page>, fetchText: string -> Option<string>): (r: ResolvedSource)
    ensures r.name == src.name && r.pageUrl == src.pageUrl && r.isActive == src.isActive
    ensures src.pageUrl == Some(finalUrl) ==> r.rawUrl == ExtractVideoUrl(page.html, page.playerUrl)
    ensures (src.pageUrl.None? || (src.pageUrl != Some(finalUrl) && fetchPage(src.pageUrl.value).None?))
            ==> r.rawUrl.None? && r.streamUrl.None?
    ensures (src.pageUrl.Some? && src.pageUrl != Some(finalUrl) && fetchPage(src.pageUrl.value).Some?)
            ==> r.rawUrl == ExtractVideoUrl(fetchPage(src.pageUrl.value).value.html, fetchPage(src.pageUrl.value).value.playerUrl)
    ensures r.streamUrl == StreamOf(r.rawUrl, fetchText)
  {
    var pageOf: Option<Page> :=
      if src.pageUrl == Some(finalUrl) then Some(page)
      else if src.pageUrl.None? then None
      else fetchPage(src.pageUrl.value);
    match pageOf
    case None => ResolvedSource(src.name, src.pageUrl, src.isActive, None, None)
    case Some(p) =>
      var raw := ExtractVideoUrl(p.html, p.playerUrl);
      ResolvedSource(src.name, src.pageUrl, src.isActive, raw, StreamOf(raw, fetchText))
  }

  // ---------------------------------------------------------------------------
  // Primary selection
  // ---------------------------------------------------------------------------

  predicate HasStream(s: ResolvedSource) {
    TruthyString(s.streamUrl)
  }

  predicate ActiveWithStream(s: ResolvedSource) {
    s.isActive && HasStream(s)
  }

  /** The first index from `from` on whose element satisfies `p`. */
  function FirstIndex(rs: seq<ResolvedSource>, p: ResolvedSource -> bool, from: nat): (i: Option<nat>)
    ensures i.Some? ==> from <= i.value < |rs| && p(rs[i.value])
    ensures i.Some? ==> forall m :: from <= m < i.value ==> !p(rs[m])
    ensures i.None? ==> forall m :: from <= m < |rs| ==> !p(rs[m])
    decreases |rs| - from
  {
    if from >= |rs| then None
    else if p(rs[from]) then Some(from)
    else FirstIndex(rs, p, from + 1)
  }

  /** The stream of the first active line that has one, else of the first
      line that has one, else none. */
  function Primary(rs: seq<ResolvedSource>): (u: Option<string>)
    ensures u.None? <==> forall i :: 0 <= i < |rs| ==> !HasStream(rs[i])
    ensures u.Some? ==> u.value != ""
    ensures forall i :: (0 <= i < |rs| && ActiveWithStream(rs[i])
                         && (forall m :: 0 <= m < i ==> !ActiveWithStream(rs[m]))) ==> u == rs[i].streamUrl
    ensures (forall i :: 0 <= i < |rs| ==> !ActiveWithStream(rs[i])) ==>
              forall i :: (0 <= i < |rs| && HasStream(rs[i])
                           && (forall m :: 0 <= m < i ==> !HasStream(rs[m]))) ==> u == rs[i].streamUrl
  {
    match FirstIndex(rs, ActiveWithStream, 0)
    case Some(i) => rs[i].streamUrl
    case None =>
      match FirstIndex(rs, HasStream, 0)
      case Some(i) => rs[i].streamUrl
      case None => None
  }

  // ---------------------------------------------------------------------------
  // getVideoUrlFromPlayPage
  // ---------------------------------------------------------------------------

  /** The chosen stream and every resolved line, so a client can fail over. */
  datatype PlayResolution = PlayResolution(url: Option<string>, sources: seq<ResolvedSource>)

  /** `getVideoUrlFromPlayPage(playUrl)`. The play page is fetched at
      `absoluteUrl(playUrl)`; when that is absent or the fetch fails the
      result is no URL and no lines. The parallel resolution of
      `Promise.all` is an order-preserving map, each element's failure being
      caught inside its own resolution. */
  function GetVideoUrlFromPlayPage(playUrl: string, fetchPage: string -> Option<Page>,
                                   fetchText: string -> Option<string>): (r: PlayResolution)
    ensures (AbsoluteUrl(playUrl).None? || fetchPage(AbsoluteUrl(playUrl).value).None?) ==> r == PlayResolution(None, [])
    ensures AbsoluteUrl(playUrl).Some? && fetchPage(AbsoluteUrl(playUrl).value).Some? ==>
              var finalUrl := AbsoluteUrl(playUrl).value;
              var page := fetchPage(finalUrl).value;
              var lines := ParseSourceLinks(page.mirrors, finalUrl);
              && |r.sources| == |lines|
              && (forall i :: 0 <= i < |lines| ==> r.sources[i] == ResolveSource(lines[i], finalUrl, page, fetchPage, fetchText))
    ensures r.url == Primary(r.sources)
  {
    match AbsoluteUrl(playUrl)
    case None => PlayResolution(None, [])
    case Some(finalUrl) =>
      match fetchPage(finalUrl)
      case None => PlayResolution(None, [])
      case Some(page) =>
        var lines := ParseSourceLinks(page.mirrors, finalUrl);
        var resolved := Map(lines, (s: Source) => ResolveSource(s, finalUrl, page, fetchPage, fetchText));
        PlayResolution(Primary(resolved), resolved)
  }

  /** One resolved line per discovered mirror, in discovery order, with the
      mirror's name, page URL and active flag. */
  lemma PlayLinesInOrder(playUrl: string, fetchPage: string -> Option<Page>, fetchText: string -> Option<string>, i: nat)
    requires AbsoluteUrl(playUrl).Some? && fetchPage(AbsoluteUrl(playUrl).value).Some?
    requires i < |ParseSourceLinks(fetchPage(AbsoluteUrl(playUrl).value).value.mirrors, AbsoluteUrl(playUrl).value)|
    ensures var src := ParseSourceLinks(fetchPage(AbsoluteUrl(playUrl).value).value.mirrors, AbsoluteUrl(playUrl).value)[i];
            var r := GetVideoUrlFromPlayPage(playUrl, fetchPage, fetchText);
            && i < |r.sources|
            && r.sources[i].name == src.name
            && r.sources[i].pageUrl == src.pageUrl
            && r.sources[i].isActive == src.isActive
  {
  }

  /** Links whose targets are absolute, pairwise different and different
      from the play page keep one line each. */
  lemma DirectLinks(links: seq<MirrorLink>, finalUrl: string)
    requires |links| > 0
    requires forall j :: 0 <= j < |links| ==> StartsWith(links[j].href, "http")
    requires forall i, j :: 0 <= i < j < |links| ==> links[i].href != links[j].href
    ensures ParseSourceLinks(links, finalUrl) == Described(links, finalUrl)
    ensures forall j :: 0 <= j < |links| ==>
              ParseSourceLinks(links, finalUrl)[j] == Source(SourceOf(links[j], finalUrl).name, Some(links[j].href), links[j].hasActiveClass)
  {
    var described := Described(links, finalUrl);
    forall j | 0 <= j < |links|
      ensures described[j] == Source(SourceOf(links[j], finalUrl).name, Some(links[j].href), links[j].hasActiveClass)
    {
      assert links[j].href[..4] == "http";
      assert Placeholder[..4][0] == 'j';
      assert !IsPlaceholder(links[j]);
    }
    ParseSourceLinksDistinct(links, finalUrl);
  }

  /** The three-mirror scenario: the second mirror is the active one and
      yields a stream, the fetches of the other two fail. All three lines are
      reported, the other two without URLs, and the second one's stream is
      the primary. */
  lemma ThreeMirrors(playUrl: string, fetchPage: string -> Option<Page>, fetchText: string -> Option<string>)
    requires AbsoluteUrl(playUrl).Some? && fetchPage(AbsoluteUrl(playUrl).value).Some?
    requires var finalUrl := AbsoluteUrl(playUrl).value;
             var links := fetchPage(finalUrl).value.mirrors;
             && |links| == 3
             && (forall j :: 0 <= j < 3 ==> StartsWith(links[j].href, "http") && links[j].href != finalUrl)
             && links[0].href != links[1].href && links[1].href != links[2].href && links[0].href != links[2].href
             && links[1].hasActiveClass
             && fetchPage(links[0].href).None? && fetchPage(links[2].href).None?
             && fetchPage(links[1].href).Some?
             && TruthyString(StreamOf(ExtractVideoUrl(fetchPage(links[1].href).value.html,
                                                      fetchPage(links[1].href).value.playerUrl), fetchText))
    ensures var r := GetVideoUrlFromPlayPage(playUrl, fetchPage, fetchText);
            && |r.sources| == 3
            && r.sources[0].streamUrl.None? && r.sources[2].streamUrl.None?
            && r.url == r.sources[1].streamUrl && r.url.Some?
  {
    var finalUrl := AbsoluteUrl(playUrl).value;
    var page := fetchPage(finalUrl).value;
    var links := page.mirrors;
    ThreeLines(links, finalUrl);
    var lines := ParseSourceLinks(links, finalUrl);
    var rs := GetVideoUrlFromPlayPage(playUrl, fetchPage, fetchText).sources;
    ResolveFetchFailed(lines[0], finalUrl, page, fetchPage, fetchText);
    ResolveFetchFailed(lines[2], finalUrl, page, fetchPage, fetchText);
    ResolveFetched(lines[1], finalUrl, page, fetchPage, fetchText);
    PrimaryOfThree(rs);
  }

  /** Three absolute, pairwise different links other than the play page
      give three lines, in order, each on its own link. */
  lemma ThreeLines(links: seq<MirrorLink>, finalUrl: string)
    requires |links| == 3
    requires forall j :: 0 <= j < 3 ==> StartsWith(links[j].href, "http") && links[j].href != finalUrl
    requires links[0].href != links[1].href && links[1].href != links[2].href && links[0].href != links[2].href
    ensures |ParseSourceLinks(links, finalUrl)| == 3
    ensures forall j :: 0 <= j < 3 ==> (&& ParseSourceLinks(links, finalUrl)[j].pageUrl == Some(links[j].href)
                                         && ParseSourceLinks(links, finalUrl)[j].isActive == links[j].hasActiveClass)
  {
    DirectLinks(links, finalUrl);
  }

  /** A line whose page is another one that cannot be fetched has no stream. */
  lemma ResolveFetchFailed(src: Source, finalUrl: string, page: Page,
                           fetchPage: string -> Option<Page>, fetchText: string -> Option<string>)
    requires src.pageUrl.Some? && src.pageUrl != Some(finalUrl) && fetchPage(src.pageUrl.value).None?
    ensures ResolveSource(src, finalUrl, page, fetchPage, fetchText).streamUrl.None?
  {
  }

  /** A line whose page is another one that is fetched takes that page's stream. */
  lemma ResolveFetched(src: Source, finalUrl: string, page: Page,
                       fetchPage: string -> Option<Page>, fetchText: string -> Option<string>)
    requires src.pageUrl.Some? && src.pageUrl != Some(finalUrl) && fetchPage(src.pageUrl.value).Some?
    ensures var p := fetchPage(src.pageUrl.value).value;
            var r := ResolveSource(src, finalUrl, page, fetchPage, fetchText);
            r.streamUrl == StreamOf(ExtractVideoUrl(p.html, p.playerUrl), fetchText) && r.isActive == src.isActive
  {
  }

  /** Of three lines, when the first has no stream and the second is active
      with one, the second is the primary. */
  lemma PrimaryOfThree(rs: seq<ResolvedSource>)
    requires |rs| == 3 && !HasStream(rs[0]) && ActiveWithStream(rs[1])
    ensures Primary(rs) == rs[1].streamUrl
  {
    assert forall m :: 0 <= m < 1 ==> !ActiveWithStream(rs[m]);
  }
}

=== FILE: options.dfy ===
/** The nullable values of the scraper and cache layers: a JavaScript `null` /
    `undefined` is `None`, a present value is `Some`. */
module Options {

  datatype Option<+T> = None | Some(value: T) {

    /** Returns the encapsulated value, or `default` for `None`
        (the `x || default` idiom when only absence is falsy). */
    function GetOr(default: T): T {
      match this
      case Some(v) => v
      case None => default
    }
  }

  /** JavaScript truthiness of a nullable string: absent and `""` are falsy. */
  predicate TruthyString(o: Option<string>) {
    o.Some? && o.value != ""
  }

  /** `a || b` on two nullable strings. */
  function OrElse(a: Option<string>, b: Option<string>): (r: Option<string>)
    ensures TruthyString(a) ==> r == a
    ensures !TruthyString(a) ==> r == b
  {
    if TruthyString(a) then a else b
  }

  /** The present values of `xs`, in order: what a loop pushing only the
      non-null results collects. */
  function Somes<T>(xs: seq<Option<T>>): (r: seq<T>)
    ensures |r| <= |xs|
    ensures forall i :: 0 <= i < |r| ==> Some(r[i]) in xs
  {
    if xs == [] then []
    else
      var rest := Somes(xs[1..]);
      assert forall i :: 0 <= i < |rest| ==> Some(rest[i]) in xs by {
        assert forall y :: y in xs[1..] ==> y in xs;
      }
      if xs[0].Some? then [xs[0].value] + rest else rest
  }

  /** A property of every present value holds for every collected value. */
  lemma SomesAll<T>(xs: seq<Option<T>>, p: T -> bool)
    requires forall j :: 0 <= j < |xs| && xs[j].Some? ==> p(xs[j].value)
    ensures forall i :: 0 <= i < |Somes(xs)| ==> p(Somes(xs)[i])
  {
    var r := Somes(xs);
    forall i | 0 <= i < |r| ensures p(r[i]) {
      var j :| 0 <= j < |xs| && xs[j] == Some(r[i]);
    }
  }

  /** Nothing is collected exactly when every value is absent. */
  lemma {:induction false} SomesEmpty<T>(xs: seq<Option<T>>)
    ensures Somes(xs) == [] <==> forall j :: 0 <= j < |xs| ==> xs[j].None?
  {
    if xs != [] {
      SomesEmpty(xs[1..]);
      assert forall j :: 1 <= j < |xs| ==> xs[j] == xs[1..][j - 1];
    }
  }
}

=== FILE: ordering.dfy ===
/** Sorting by a key under an abstract comparison: the `sort` with a
    `localeCompare` comparator that `generateKey` applies to the names of
    its parameters. The collation itself is not modelled; it is any strict
    total order, and code-point order is one instance. */
module Ordering {
  import opened Lists

  /** `less` is irreflexive, transitive and total on distinct values. */
  ghost predicate StrictTotalOrder(less: (string, string) -> bool) {
    && (forall a :: !less(a, a))
    && (forall a, b, c :: less(a, b) && less(b, c) ==> less(a, c))
    && (forall a, b :: a != b ==> less(a, b) || less(b, a))
  }

  /** Strictly increasing keys. */
  predicate SortedBy<T>(s: seq<T>, key: T -> string, less: (string, string) -> bool) {
    forall i, j :: 0 <= i < j < |s| ==> less(key(s[i]), key(s[j]))
  }

  /** Places `x` before the first element whose key is not below its own. */
  function Insert<T>(x: T, s: seq<T>, key: T -> string, less: (string, string) -> bool): (r: seq<T>)
    ensures |r| == |s| + 1
  {
    if s == [] then [x]
    else if less(key(x), key(s[0])) then [x] + s
    else [s[0]] + Insert(x, s[1..], key, less)
  }

  /** Insertion sort: the elements of `s`, ordered by key. */
  function SortBy<T>(s: seq<T>, key: T -> string, less: (string, string) -> bool): (r: seq<T>)
    ensures |r| == |s|
  {
    if s == [] then [] else Insert(s[0], SortBy(s[1..], key, less), key, less)
  }

  lemma {:induction false} InsertPermutes<T>(x: T, s: seq<T>, key: T -> string, less: (string, string) -> bool)
    ensures multiset(Insert(x, s, key, less)) == multiset(s) + multiset{x}
  {
    if s != [] && !less(key(x), key(s[0])) {
      InsertPermutes(x, s[1..], key, less);
      assert s == [s[0]] + s[1..];
    }
  }

  /** Every key of an insertion lies above a bound that all keys of its
      inputs lie above. */
  lemma {:induction false} InsertAbove<T>(x: T, s: seq<T>, key: T -> string, less: (string, string) -> bool, lo: string)
    requires less(lo, key(x))
    requires forall i :: 0 <= i < |s| ==> less(lo, key(s[i]))
    ensures forall i :: 0 <= i < |Insert(x, s, key, less)| ==> less(lo, key(Insert(x, s, key, less)[i]))
  {
    if s != [] && !less(key(x), key(s[0])) {
      InsertAbove(x, s[1..], key, less, lo);
      var t := Insert(x, s[1..], key, less);
      assert Insert(x, s, key, less) == [s[0]] + t;
      assert forall i :: 1 <= i < |t| + 1 ==> ([s[0]] + t)[i] == t[i - 1];
    }
  }

  /** Inserting a key absent from a sorted sequence keeps it sorted. */
  lemma {:induction false} InsertSorted<T>(x: T, s: seq<T>, key: T -> string, less: (string, string) -> bool)
    requires StrictTotalOrder(less)
    requires SortedBy(s, key, less)
    requires forall i :: 0 <= i < |s| ==> key(s[i]) != key(x)
    ensures SortedBy(Insert(x, s, key, less), key, less)
  {
    if s != [] && !less(key(x), key(s[0])) {
      var tail := s[1..];
      assert forall i :: 0 <= i < |tail| ==> tail[i] == s[i + 1];
      InsertSorted(x, tail, key, less);
      assert less(key(s[0]), key(x));
      InsertAbove(x, tail, key, less, key(s[0]));
      var t := Insert(x, tail, key, less);
      var r := [s[0]] + t;
      forall i, j | 0 <= i < j < |r| ensures less(key(r[i]), key(r[j])) {
        assert r[j] == t[j - 1];
        if i > 0 {
          assert r[i] == t[i - 1];
        }
      }
    }
  }

  /** With distinct keys the sort orders the elements strictly and permutes them. */
  lemma {:induction false} SortBySorted<T>(s: seq<T>, key: T -> string, less: (string, string) -> bool)
    requires StrictTotalOrder(less)
    requires Distinct(s, key)
    ensures SortedBy(SortBy(s, key, less), key, less)
    ensures multiset(SortBy(s, key, less)) == multiset(s)
  {
    if s != [] {
      var tail := s[1..];
      assert Distinct(tail, key) by {
        forall i, j | 0 <= i < j < |tail| ensures key(tail[i]) != key(tail[j]) {
          assert tail[i] == s[i + 1] && tail[j] == s[j + 1];
        }
      }
      SortBySorted(tail, key, less);
      var r := SortBy(tail, key, less);
      forall i | 0 <= i < |r| ensures key(r[i]) != key(s[0]) {
        assert r[i] in multiset(tail);
        var k :| 0 <= k < |tail| && tail[k] == r[i];
        assert r[i] == s[k + 1];
      }
      InsertSorted(s[0], r, key, less);
      InsertPermutes(s[0], r, key, less);
      assert s == [s[0]] + tail;
    }
  }

  /** A strictly sorted arrangement of given elements is unique. */
  lemma {:induction false} SortedUnique<T>(a: seq<T>, b: seq<T>, key: T -> string, less: (string, string) -> bool)
    requires StrictTotalOrder(less)
    requires SortedBy(a, key, less) && SortedBy(b, key, less)
    requires multiset(a) == multiset(b)
    ensures a == b
  {
    if a != [] {
      assert |b| == |a| by {
        assert |multiset(a)| == |a| && |multiset(b)| == |b|;
      }
      SortedHeads(a, b, key, less);
      MultisetTails(a, b);
      SortedTail(a, key, less);
      SortedTail(b, key, less);
      SortedUnique(a[1..], b[1..], key, less);
      assert a == [a[0]] + a[1..] && b == [b[0]] + b[1..];
    }
  }

  /** Two strict arrangements of the same elements start alike: the head is
      the element with the least key. */
  lemma SortedHeads<T>(a: seq<T>, b: seq<T>, key: T -> string, less: (string, string) -> bool)
    requires StrictTotalOrder(less)
    requires SortedBy(a, key, less) && SortedBy(b, key, less)
    requires multiset(a) == multiset(b) && a != [] && b != []
    ensures a[0] == b[0]
  {
    assert a[0] in multiset(b);
    var k :| 0 <= k < |b| && b[k] == a[0];
    assert b[0] in multiset(a);
    var m :| 0 <= m < |a| && a[m] == b[0];
    if k > 0 && m > 0 {
      assert false;
    }
  }

  lemma SortedTail<T>(a: seq<T>, key: T -> string, less: (string, string) -> bool)
    requires SortedBy(a, key, less) && a != []
    ensures SortedBy(a[1..], key, less)
  {
    forall i, j | 0 <= i < j < |a[1..]| ensures less(key(a[1..][i]), key(a[1..][j])) {
      assert a[1..][i] == a[i + 1] && a[1..][j] == a[j + 1];
    }
  }

  lemma MultisetTails<T>(a: seq<T>, b: seq<T>)
    requires a != [] && b != [] && a[0] == b[0] && multiset(a) == multiset(b)
    ensures multiset(a[1..]) == multiset(b[1..])
  {
    assert a == [a[0]] + a[1..] && b == [b[0]] + b[1..];
    assert multiset(a[1..]) == multiset(a) - multiset{a[0]};
    assert multiset(b[1..]) == multiset(b) - multiset{b[0]};
  }

  /** The sort depends only on which elements are given, not on their order. */
  lemma SortByPermutationInvariant<T>(a: seq<T>, b: seq<T>, key: T -> string, less: (string, string) -> bool)
    requires StrictTotalOrder(less)
    requires Distinct(a, key)
    requires multiset(a) == multiset(b)
    ensures SortBy(a, key, less) == SortBy(b, key, less)
  {
    SortBySorted(a, key, less);
    DistinctPermutation(a, b, key);
    SortBySorted(b, key, less);
    SortedUnique(SortBy(a, key, less), SortBy(b, key, less), key, less);
  }

  /** Distinct keys survive a permutation. */
  lemma DistinctPermutation<T>(a: seq<T>, b: seq<T>, key: T -> string)
    requires Distinct(a, key)
    requires multiset(a) == multiset(b)
    ensures Distinct(b, key)
  {
    forall i, j | 0 <= i < j < |b| ensures key(b[i]) != key(b[j]) {
      assert b[i] in multiset(a) && b[j] in multiset(a);
      var p :| 0 <= p < |a| && a[p] == b[i];
      var q :| 0 <= q < |a| && a[q] == b[j];
      if p == q {
        DistinctCount(a, key, p);
        TwiceCounted(b, i, j);
        assert false;
      }
    }
  }

  /** An element occurring at two positions is counted at least twice. */
  lemma TwiceCounted<T>(b: seq<T>, i: nat, j: nat)
    requires i < j < |b| && b[i] == b[j]
    ensures multiset(b)[b[i]] >= 2
  {
    assert b == b[..i] + [b[i]] + b[i + 1..];
    assert b[j] in b[i + 1..] by { assert b[i + 1..][j - i - 1] == b[j]; }
    assert multiset(b) == multiset(b[..i]) + multiset{b[i]} + multiset(b[i + 1..]);
  }

  /** An element of a sequence with distinct keys occurs once. */
  lemma {:induction false} DistinctCount<T>(a: seq<T>, key: T -> string, p: nat)
    requires Distinct(a, key) && p < |a|
    ensures multiset(a)[a[p]] == 1
  {
    var x := a[p];
    assert a == a[..p] + [x] + a[p + 1..];
    assert x !in a[..p] by {
      forall i | 0 <= i < p ensures a[..p][i] != x {
        assert a[..p][i] == a[i];
      }
    }
    var rest := a[p + 1..];
    assert x !in rest by {
      forall i | 0 <= i < |rest| ensures rest[i] != x {
        assert rest[i] == a[p + 1 + i];
      }
    }
    assert multiset(a) == multiset(a[..p]) + multiset{x} + multiset(a[p + 1..]);
  }

  // ---------------------------------------------------------------------------
  // Code-point order, one collation satisfying the requirement
  // ---------------------------------------------------------------------------

  /** Lexicographic order by character code: a proper prefix comes first. */
  predicate CodePointLess(a: string, b: string)
    decreases |a|
  {
    if a == [] then b != []
    else if b == [] then false
    else if a[0] == b[0] then CodePointLess(a[1..], b[1..])
    else a[0] < b[0]
  }

  lemma {:induction false} CodePointIrreflexive(a: string)
    ensures !CodePointLess(a, a)
    decreases |a|
  {
    if a != [] {
      CodePointIrreflexive(a[1..]);
    }
  }

  lemma {:induction false} CodePointTransitive(a: string, b: string, c: string)
    requires CodePointLess(a, b) && CodePointLess(b, c)
    ensures CodePointLess(a, c)
    decreases |a|
  {
    if a != [] && b != [] && c != [] && a[0] == b[0] && b[0] == c[0] {
      CodePointTransitive(a[1..], b[1..], c[1..]);
    }
  }

  lemma {:induction false} CodePointTotal(a: string, b: string)
    requires a != b
    ensures CodePointLess(a, b) || CodePointLess(b, a)
    decreases |a|
  {
    if a != [] && b != [] && a[0] == b[0] {
      assert a == [a[0]] + a[1..] && b == [b[0]] + b[1..];
      CodePointTotal(a[1..], b[1..]);
    }
  }

  /** Code-point order meets the requirement placed on the collation. */
  lemma CodePointOrder()
    ensures StrictTotalOrder(CodePointLess)
  {
    forall a ensures !CodePointLess(a, a) {
      CodePointIrreflexive(a);
    }
    forall a, b, c | CodePointLess(a, b) && CodePointLess(b, c) ensures CodePointLess(a, c) {
      CodePointTransitive(a, b, c);
    }
    forall a, b | a != b ensures CodePointLess(a, b) || CodePointLess(b, a) {
      CodePointTotal(a, b);
    }
  }
}

=== FILE: prefetch.dfy ===
/** The prefetch rules of the API server: which detail and play pages are
    resolved ahead of a user's request, when a resolved page is written to
    the cache, and how many entries of each listing start such work. A
    route reads the value `withCache` hands it, which may have come from the
    cache, so the route-side rules read JSON; the scheduled jobs and the
    prefetch tasks read the scraper's results directly. */
module Prefetch {
  import opened Options
  import opened Text
  import opened Lists
  import opened Json
  import opened Cache
  import opened Ordering
  import opened Mirrors
  import opened Episodes
  import opened Listing
  import opened Encode
  import opened Urls
  import opened Document

  /** Items of the home listing a request to the home route prefetches. */
  const HomeApiCap: nat := 10
  /** Items of the home listing the scheduled home job prefetches. */
  const HomeJobCap: nat := 15
  /** Items of a category page either the route or the job prefetches. */
  const CategoryCap: nat := 5
  /** Episodes a resolved detail page passes on to play prefetching. */
  const FollowCap: nat := 3
  /** Episodes after the one being played that are prefetched. */
  const NextCap: nat := 5
  /** Detail and play URLs one batch request may queue. */
  const BatchDetailCap: nat := 20
  const BatchPlayCap: nat := 50

  predicate NonEmpty(s: string) {
    s != ""
  }

  // ---------------------------------------------------------------------------
  // prefetchDetail / prefetchPlayUrl
  // ---------------------------------------------------------------------------

  /** The cache key of a prefetched page. The URL is a string, so the key
      takes it verbatim and the name collation is never consulted. */
  function PageKey(kind: string, url: string): (k: string)
    ensures k == KeyPrefix(kind) + url
  {
    var k := GenerateKey(kind, Verbatim(url), CodePointLess);
    assert k == k[..|KeyPrefix(kind)|] + k[|KeyPrefix(kind)|..];
    k
  }

  /** A unit of work for the admission queue. */
  datatype Task = ResolveDetail(url: string) | ResolvePlay(url: string)

  /** `prefetchDetail(url)`: a task is queued unless the detail key already
      reads back truthy; a failed read counts as a miss. */
  function PrefetchDetail(st: Store, url: string, getFault: bool): (t: Option<Task>)
    ensures t.None? <==> Truthy(Get(st, PageKey("detail", url), getFault))
    ensures t.Some? ==> t.value == ResolveDetail(url)
  {
    if Truthy(Get(st, PageKey("detail", url), getFault)) then None else Some(ResolveDetail(url))
  }

  /** `prefetchPlayUrl(url)`, the same rule under the play key. */
  function PrefetchPlay(st: Store, url: string, getFault: bool): (t: Option<Task>)
    ensures t.None? <==> Truthy(Get(st, PageKey("play", url), getFault))
    ensures t.Some? ==> t.value == ResolvePlay(url)
  {
    if Truthy(Get(st, PageKey("play", url), getFault)) then None else Some(ResolvePlay(url))
  }

  /** What a finished task leaves: the store and the play URLs it passes on. */
  datatype JobResult = JobResult(store: Store, follow: seq<string>)

  function LinkOf(e: Episode): string {
    e.link
  }

  /** The body of a detail task, given what `parseEpisodes` returned: the
      result is stored only when it has episodes, and then the first three
      episode links are prefetched, whether or not the write succeeded. */
  function RunDetailJob(st: Store, url: string, r: EpisodeList, setFault: bool): (o: JobResult)
    ensures |r.episodes| == 0 ==> o == JobResult(st, [])
    ensures |r.episodes| > 0 && st.connected && !setFault ==>
              Get(o.store, PageKey("detail", url), false) == EpisodeListJson(r)
    ensures forall k :: k != PageKey("detail", url) ==> Get(o.store, k, false) == Get(st, k, false)
    ensures |o.follow| == Min(FollowCap, |r.episodes|)
    ensures forall i :: 0 <= i < |o.follow| ==> o.follow[i] == r.episodes[i].link
  {
    if |r.episodes| > 0 then
      JobResult(Set(st, PageKey("detail", url), EpisodeListJson(r), Ttl(Detail), setFault).store,
                Map(Take(r.episodes, FollowCap), LinkOf))
    else JobResult(st, [])
  }

  /** The body of a play task: the resolution is stored only when it chose a
      non-empty stream. */
  function RunPlayJob(st: Store, url: string, p: PlayResolution, setFault: bool): (s: Store)
    ensures TruthyString(p.url) && st.connected && !setFault ==> Get(s, PageKey("play", url), false) == PlayJson(p)
    ensures !TruthyString(p.url) ==> s == st
    ensures forall k :: k != PageKey("play", url) ==> Get(s, k, false) == Get(st, k, false)
  {
    if TruthyString(p.url) then Set(st, PageKey("play", url), PlayJson(p), Ttl(PlayUrl), setFault).store
    else st
  }

  /** Once a detail task has stored its result, prefetching that page again
      queues nothing. */
  lemma DetailJobThenSkip(st: Store, url: string, r: EpisodeList)
    requires st.connected && |r.episodes| > 0
    ensures PrefetchDetail(RunDetailJob(st, url, r, false).store, url, false).None?
  {
    SetThenGet(st, PageKey("detail", url), EpisodeListJson(r), Ttl(Detail));
  }

  /** A detail without episodes is not stored, so a page never seen before
      is queued again next time. */
  lemma EmptyDetailRequeued(st: Store, url: string, r: EpisodeList)
    requires PageKey("detail", url) !in st.data && |r.episodes| == 0
    ensures PrefetchDetail(RunDetailJob(st, url, r, false).store, url, false) == Some(ResolveDetail(url))
  {
  }

  /** Once a play task has stored a stream, prefetching that page again
      queues nothing. */
  lemma PlayJobThenSkip(st: Store, url: string, p: PlayResolution)
    requires st.connected && TruthyString(p.url)
    ensures PrefetchPlay(RunPlayJob(st, url, p, false), url, false).None?
  {
    SetThenGet(st, PageKey("play", url), PlayJson(p), Ttl(PlayUrl));
  }

  /** The detail route caches every result, an empty one included, so a
      later prefetch of that page is skipped although the prefetch task
      itself would not have stored it. */
  lemma DetailRouteBlocksPrefetch(st: Store, url: string, r: EpisodeList)
    requires st.connected && PageKey("detail", url) !in st.data
    ensures var o := WithCache(st, PageKey("detail", url), Ttl(Detail), Some(EpisodeListJson(r)), false, false);
            PrefetchDetail(o.store, url, false).None?
  {
    DetailAlwaysWorth(r);
    SetThenGet(st, PageKey("detail", url), EpisodeListJson(r), Ttl(Detail));
  }

  // ---------------------------------------------------------------------------
  // Reading URL fields out of JSON lists
  // ---------------------------------------------------------------------------

  /** The non-empty string `name` fields of `items`, in order, up to the
      first `null` element, where reading the field throws and ends the loop. */
  function FieldRefs(items: seq<Json>, name: string): (r: seq<string>)
    ensures |r| <= |items|
    ensures forall i :: 0 <= i < |r| ==> r[i] != ""
  {
    if items == [] || items[0] == Null then []
    else
      var f := Field(items[0], name);
      (if f.Str? && f.s != "" then [f.s] else []) + FieldRefs(items[1..], name)
  }

  /** A `null` item ends the reading: nothing after it is read. */
  lemma {:induction false} FieldRefsStopsAtNull(a: seq<Json>, b: seq<Json>, name: string)
    requires Null !in a
    ensures FieldRefs(a + [Null] + b, name) == FieldRefs(a, name)
  {
    if a == [] {
      assert a + [Null] + b == [Null] + b;
    } else {
      assert (a + [Null] + b)[0] == a[0];
      assert (a + [Null] + b)[1..] == a[1..] + [Null] + b;
      FieldRefsStopsAtNull(a[1..], b, name);
    }
  }

  /** Reading the field back from encoded records gives the non-empty URLs
      of the records themselves. */
  lemma {:induction false} FieldRefsEncoded<T>(xs: seq<T>, enc: T -> Json, url: T -> string, name: string)
    requires forall x :: enc(x) != Null && Field(enc(x), name) == Str(url(x))
    ensures FieldRefs(Map(xs, enc), name) == Filter(Map(xs, url), NonEmpty)
  {
    if xs != [] {
      FieldRefsEncoded(xs[1..], enc, url, name);
      assert Map(xs, enc)[1..] == Map(xs[1..], enc);
      assert Map(xs, url)[1..] == Map(xs[1..], url);
      assert Map(xs, enc)[0] == enc(xs[0]);
    }
  }

  function SearchDetailUrl(i: SearchItem): string {
    i.detailUrl
  }

  lemma HomeItemFields()
    ensures forall i :: HomeItemJson(i) != Null && Field(HomeItemJson(i), "detailUrl") == Str(DetailUrlOf(i))
  {
    forall i: HomeItem ensures Field(HomeItemJson(i), "detailUrl") == Str(DetailUrlOf(i)) {
      FieldOfAt(HomeItemJson(i).fields, "detailUrl", 2);
    }
  }

  lemma CategoryItemFields()
    ensures forall i :: CategoryItemJson(i) != Null && Field(CategoryItemJson(i), "detailUrl") == Str(ItemUrl(i))
  {
    forall i: CategoryItem ensures Field(CategoryItemJson(i), "detailUrl") == Str(ItemUrl(i)) {
      FieldOfAt(CategoryItemJson(i).fields, "detailUrl", 2);
    }
  }

  lemma SearchItemFields()
    ensures forall i :: SearchItemJson(i) != Null && Field(SearchItemJson(i), "detailUrl") == Str(SearchDetailUrl(i))
  {
    forall i: SearchItem ensures Field(SearchItemJson(i), "detailUrl") == Str(SearchDetailUrl(i)) {
      FieldOfAt(SearchItemJson(i).fields, "detailUrl", 2);
    }
  }

  lemma EpisodeFields()
    ensures forall e :: EpisodeJson(e) != Null && Field(EpisodeJson(e), "link") == Str(LinkOf(e))
  {
    forall e: Episode ensures Field(EpisodeJson(e), "link") == Str(LinkOf(e)) {
      assert "name" != "link" by { assert "name"[0] != "link"[0]; }
      FieldOfAt(EpisodeJson(e).fields, "link", 1);
    }
  }

  // ---------------------------------------------------------------------------
  // The home route and the scheduled home job
  // ---------------------------------------------------------------------------

  /** `s.items || []` for one section that is not null: its items when they
      are an array, the value itself when it is another truthy value. */
  function SectionItems(s: Json): seq<Json> {
    var f := Field(s, "items");
    if !Truthy(f) then [] else if f.Arr? then f.items else [f]
  }

  /** `sections.flatMap(s => s.items || [])`; `None` when a section is null
      and reading its items throws. */
  function FlatItems(sections: seq<Json>): (r: Option<seq<Json>>)
    ensures r.None? <==> Null in sections
  {
    if sections == [] then Some([])
    else if sections[0] == Null then None
    else
      var rest := FlatItems(sections[1..]);
      assert Null in sections <==> Null in sections[1..] by {
        assert sections == [sections[0]] + sections[1..];
      }
      if rest.None? then None else Some(SectionItems(sections[0]) + rest.value)
  }

  /** The detail URLs the home route prefetches from the home listing it
      returns: the first ten items across sections with a detail URL. */
  function HomeRouteRefs(sections: Json): (r: seq<string>)
    ensures |r| <= HomeApiCap
    ensures !sections.Arr? ==> r == []
  {
    if !sections.Arr? || |sections.items| == 0 then []
    else
      match FlatItems(sections.items)
      case None => []
      case Some(all) => FieldRefs(Take(all, HomeApiCap), "detailUrl")
  }

  function SectionItemsOf(s: Section): seq<HomeItem> {
    s.items
  }

  /** Reference: the non-empty detail URLs among the first `cap` items of
      the sections, in order. */
  function HomeRefs(sections: seq<Section>, cap: nat): (r: seq<string>)
    ensures |r| <= cap
  {
    Filter(Map(Take(Flatten(Map(sections, SectionItemsOf)), cap), DetailUrlOf), NonEmpty)
  }

  lemma {:induction false} FlatItemsEncoded(sections: seq<Section>)
    ensures FlatItems(SectionsJson(sections).items) == Some(Map(Flatten(Map(sections, SectionItemsOf)), HomeItemJson))
  {
    var js := SectionsJson(sections).items;
    if sections != [] {
      var s := sections[0];
      FieldOfAt(SectionJson(s).fields, "items", 1);
      assert SectionItems(js[0]) == Map(s.items, HomeItemJson);
      assert js[1..] == SectionsJson(sections[1..]).items;
      FlatItemsEncoded(sections[1..]);
      assert Map(sections, SectionItemsOf) == [s.items] + Map(sections[1..], SectionItemsOf);
      MapAppend(s.items, Flatten(Map(sections[1..], SectionItemsOf)), HomeItemJson);
    }
  }

  /** A freshly produced home listing and the same listing read back from the
      cache start the same prefetches. */
  lemma HomeRouteRefsOfListing(sections: seq<Section>)
    ensures HomeRouteRefs(SectionsJson(sections)) == HomeRefs(sections, HomeApiCap)
  {
    var items := Flatten(Map(sections, SectionItemsOf));
    FlatItemsEncoded(sections);
    TakeMap(items, HomeItemJson, HomeApiCap);
    HomeItemFields();
    FieldRefsEncoded(Take(items, HomeApiCap), HomeItemJson, DetailUrlOf, "detailUrl");
    if sections == [] {
      assert items == [];
    }
  }

  /** The scheduled home job: a non-empty listing is stored under
      `ccios:home:recommend`, and the detail URLs among its first fifteen
      items are prefetched. */
  function HomeJob(st: Store, sections: seq<Section>, setFault: bool): (o: JobResult)
    ensures |sections| == 0 ==> o == JobResult(st, [])
    ensures |sections| > 0 && st.connected && !setFault ==>
              Get(o.store, PageKey("home", "recommend"), false) == SectionsJson(sections)
    ensures forall k :: k != PageKey("home", "recommend") ==> Get(o.store, k, false) == Get(st, k, false)
    ensures |sections| > 0 ==> o.follow == HomeRefs(sections, HomeJobCap)
  {
    if |sections| > 0 then
      JobResult(Set(st, PageKey("home", "recommend"), SectionsJson(sections), Ttl(Home), setFault).store,
                HomeRefs(sections, HomeJobCap))
    else JobResult(st, [])
  }

  /** What the home route prefetches is the start of what the scheduled job
      prefetches from the same listing. */
  lemma HomeRouteWithinJob(st: Store, sections: seq<Section>, setFault: bool)
    requires |sections| > 0
    ensures IsPrefix(HomeRouteRefs(SectionsJson(sections)), HomeJob(st, sections, setFault).follow)
  {
    HomeRouteRefsOfListing(sections);
    var items := Flatten(Map(sections, SectionItemsOf));
    TakePrefix(items, HomeApiCap, HomeJobCap);
    var d := Take(items, HomeJobCap)[|Take(items, HomeApiCap)|..];
    MapAppend(Take(items, HomeApiCap), d, DetailUrlOf);
    FilterAppend(Map(Take(items, HomeApiCap), DetailUrlOf), Map(d, DetailUrlOf), NonEmpty);
  }

  // ---------------------------------------------------------------------------
  // The category route and the scheduled category job
  // ---------------------------------------------------------------------------

  /** The detail URLs the category route prefetches: among the first five
      items of a page that has items. */
  function CategoryRouteRefs(result: Json): (r: seq<string>)
    ensures |r| <= CategoryCap
    ensures !Truthy(result) ==> r == []
  {
    var items := Field(result, "items");
    if !Truthy(result) || !items.Arr? || |items.items| == 0 then []
    else FieldRefs(Take(items.items, CategoryCap), "detailUrl")
  }

  /** Reference: the non-empty detail URLs among the first `cap` items. */
  function CategoryRefs(items: seq<CategoryItem>, cap: nat): (r: seq<string>)
    ensures |r| <= cap
  {
    Filter(Map(Take(items, cap), ItemUrl), NonEmpty)
  }

  lemma CategoryRouteRefsOfPage(p: CategoryPage)
    ensures CategoryRouteRefs(CategoryPageJson(p)) == CategoryRefs(p.items, CategoryCap)
  {
    FieldOfAt(CategoryPageJson(p).fields, "items", 0);
    TakeMap(p.items, CategoryItemJson, CategoryCap);
    CategoryItemFields();
    FieldRefsEncoded(Take(p.items, CategoryCap), CategoryItemJson, ItemUrl, "detailUrl");
  }

  /** The key of one category page: `{type, page}`, the page number in
      decimal. */
  function CategoryKey(category: string, page: nat, less: (string, string) -> bool): (k: string)
    ensures StartsWith(k, KeyPrefix("category"))
  {
    GenerateKey("category", Named([Param("type", category), Param("page", NatToString(page))]), less)
  }

  /** One visit of the scheduled category job: a page with items is stored,
      and only the first page starts detail prefetches, for its first five
      items. */
  function CategoryJob(st: Store, category: string, page: nat, result: CategoryPage, setFault: bool,
                       less: (string, string) -> bool): (o: JobResult)
    ensures |result.items| == 0 ==> o == JobResult(st, [])
    ensures |result.items| > 0 && st.connected && !setFault ==>
              Get(o.store, CategoryKey(category, page, less), false) == CategoryPageJson(result)
    ensures forall k :: k != CategoryKey(category, page, less) ==> Get(o.store, k, false) == Get(st, k, false)
    ensures page != 1 ==> o.follow == []
    ensures |result.items| > 0 && page == 1 ==> o.follow == CategoryRefs(result.items, CategoryCap)
  {
    if |result.items| == 0 then JobResult(st, [])
    else
      var stored := Set(st, CategoryKey(category, page, less), CategoryPageJson(result), Ttl(Category), setFault).store;
      JobResult(stored, if page == 1 then CategoryRefs(result.items, CategoryCap) else [])
  }

  /** On the first page the job prefetches exactly what the route would. */
  lemma CategoryJobMatchesRoute(st: Store, category: string, result: CategoryPage, setFault: bool,
                                less: (string, string) -> bool)
    requires |result.items| > 0
    ensures CategoryJob(st, category, 1, result, setFault, less).follow == CategoryRouteRefs(CategoryPageJson(result))
  {
    CategoryRouteRefsOfPage(result);
  }

  /** Pages the scheduled category job fetches per category. */
  const CategoryPages: nat := 3

  /** The scheduled category job's visiting order: every category, each for
      pages 1 to 3. */
  method CategoryVisits() returns (visits: seq<(string, nat)>)
    ensures |visits| == |Categories| * CategoryPages
    ensures forall i :: 0 <= i < |visits| ==> visits[i] == (Categories[i / CategoryPages], i % CategoryPages + 1)
  {
    visits := [];
    var c := 0;
    while c < |Categories|
      invariant 0 <= c <= |Categories|
      invariant |visits| == c * CategoryPages
      invariant forall i :: 0 <= i < |visits| ==> visits[i] == (Categories[i / CategoryPages], i % CategoryPages + 1)
    {
      var page := 1;
      while page <= CategoryPages
        invariant 1 <= page <= CategoryPages + 1
        invariant |visits| == c * CategoryPages + page - 1
        invariant forall i :: 0 <= i < |visits| ==> visits[i] == (Categories[i / CategoryPages], i % CategoryPages + 1)
      {
        visits := visits + [(Categories[c], page)];
        page := page + 1;
      }
      c := c + 1;
    }
  }

  // ---------------------------------------------------------------------------
  // The search and detail routes
  // ---------------------------------------------------------------------------

  /** The search route prefetches the detail page of every hit. */
  function SearchRouteRefs(results: Json): (r: seq<string>)
    ensures results.Arr? ==> |r| <= |results.items|
    ensures !results.Arr? ==> r == []
  {
    if results.Arr? && |results.items| > 0 then FieldRefs(results.items, "detailUrl") else []
  }

  /** Every search hit has a detail URL, so each one is prefetched, in order. */
  lemma SearchRouteRefsAll(entries: Option<seq<SearchEntry>>)
    ensures var hits := Listing.Search(entries);
            SearchRouteRefs(SearchJson(hits)) == Map(hits, SearchDetailUrl)
  {
    var hits := Listing.Search(entries);
    SearchItemFields();
    FieldRefsEncoded(hits, SearchItemJson, SearchDetailUrl, "detailUrl");
    var urls := Map(hits, SearchDetailUrl);
    forall i | 0 <= i < |urls| ensures NonEmpty(urls[i]) {
      assert hits[i] in hits;
      var j :| 0 <= j < |entries.value| && SearchKeeps(entries.value[j]) && hits[i] == SearchItemOf(entries.value[j]);
      assert |urls[i]| >= |BaseUrl|;
    }
    FilterAll(urls, NonEmpty);
  }

  /** The detail route prefetches the play page of every episode with a link. */
  function DetailRouteRefs(detail: Json): (r: seq<string>)
    ensures !Truthy(detail) ==> r == []
  {
    var eps := Field(detail, "episodes");
    if !Truthy(detail) || !eps.Arr? || |eps.items| == 0 then [] else FieldRefs(eps.items, "link")
  }

  lemma DetailRouteRefsOfList(r: EpisodeList)
    ensures DetailRouteRefs(EpisodeListJson(r)) == Filter(Map(r.episodes, LinkOf), NonEmpty)
  {
    EpisodeFields();
    FieldRefsEncoded(r.episodes, EpisodeJson, LinkOf, "link");
  }

  // ---------------------------------------------------------------------------
  // prefetchNextEpisodes
  // ---------------------------------------------------------------------------

  predicate IsLink(ep: Json, url: string) {
    Field(ep, "link") == Str(url)
  }

  /** `findIndex(ep => ep.link === url)`; `None` when there is no match or a
      null element before the match makes the search throw. */
  function MatchIndex(items: seq<Json>, url: string): (r: Option<nat>)
    ensures r.Some? ==> r.value < |items| && IsLink(items[r.value], url)
    ensures r.Some? ==> forall j :: 0 <= j < r.value ==> items[j] != Null && !IsLink(items[j], url)
    ensures r.None? && Null !in items ==> forall j :: 0 <= j < |items| ==> !IsLink(items[j], url)
  {
    if items == [] || items[0] == Null then None
    else if IsLink(items[0], url) then Some(0)
    else
      var rest := MatchIndex(items[1..], url);
      if rest.None? then
        assert Null !in items ==> Null !in items[1..];
        None
      else Some(rest.value + 1)
  }

  /** `prefetchNextEpisodes(detailUrl, url)` given the cached detail: the
      links of up to five episodes right after the first one playing `url`;
      nothing when the detail is absent, has no episodes or does not list
      `url`. */
  function NextEpisodes(detail: Json, url: string): (r: seq<string>)
    ensures |r| <= NextCap
    ensures !Truthy(detail) ==> r == []
    ensures forall i :: 0 <= i < |r| ==> r[i] != ""
  {
    var eps := Field(detail, "episodes");
    if !Truthy(detail) || !eps.Arr? then []
    else
      match MatchIndex(eps.items, url)
      case None => []
      case Some(i) => FieldRefs(Slice(eps.items, i + 1, i + 1 + NextCap), "link")
  }

  /** Reference: the first episode playing `url`. */
  function FirstPlaying(eps: seq<Episode>, url: string): (r: Option<nat>)
    ensures r.Some? ==> r.value < |eps| && eps[r.value].link == url
    ensures r.Some? ==> forall j :: 0 <= j < r.value ==> eps[j].link != url
    ensures r.None? ==> forall j :: 0 <= j < |eps| ==> eps[j].link != url
  {
    if eps == [] then None
    else if eps[0].link == url then Some(0)
    else
      var rest := FirstPlaying(eps[1..], url);
      if rest.None? then None else Some(rest.value + 1)
  }

  /** Reference: the non-empty links of the five episodes after the first
      one playing `url`. */
  function NextLinks(eps: seq<Episode>, url: string): (r: seq<string>)
    ensures |r| <= NextCap
  {
    match FirstPlaying(eps, url)
    case None => []
    case Some(i) => Filter(Map(Slice(eps, i + 1, i + 1 + NextCap), LinkOf), NonEmpty)
  }

  lemma {:induction false} MatchIndexEncoded(eps: seq<Episode>, url: string)
    ensures MatchIndex(Map(eps, EpisodeJson), url) == FirstPlaying(eps, url)
  {
    if eps != [] {
      EpisodeFields();
      assert Map(eps, EpisodeJson)[1..] == Map(eps[1..], EpisodeJson);
      MatchIndexEncoded(eps[1..], url);
    }
  }

  /** A cached detail selects the episodes its episode list selects. */
  lemma NextEpisodesOfList(r: EpisodeList, url: string)
    ensures NextEpisodes(EpisodeListJson(r), url) == NextLinks(r.episodes, url)
  {
    var eps := r.episodes;
    NextEpisodesOfItems(EpisodeListJson(r), url, Map(eps, EpisodeJson));
    MatchIndexEncoded(eps, url);
    if FirstPlaying(eps, url).Some? {
      NextWindowEncoded(eps, FirstPlaying(eps, url).value + 1);
    }
  }

  /** The links read back from a window of encoded episodes. */
  lemma NextWindowEncoded(eps: seq<Episode>, lo: nat)
    ensures FieldRefs(Slice(Map(eps, EpisodeJson), lo, lo + NextCap), "link")
            == Filter(Map(Slice(eps, lo, lo + NextCap), LinkOf), NonEmpty)
  {
    SliceMap(eps, EpisodeJson, lo, lo + NextCap);
    EpisodeFields();
    FieldRefsEncoded(Slice(eps, lo, lo + NextCap), EpisodeJson, LinkOf, "link");
  }

  lemma NextEpisodesOfItems(detail: Json, url: string, items: seq<Json>)
    requires Truthy(detail) && Field(detail, "episodes") == Arr(items)
    ensures MatchIndex(items, url).None? ==> NextEpisodes(detail, url) == []
    ensures MatchIndex(items, url).Some? ==>
              NextEpisodes(detail, url) == FieldRefs(Slice(items, MatchIndex(items, url).value + 1,
                                                           MatchIndex(items, url).value + 1 + NextCap), "link")
  {
  }

  /** Nothing is selected while the detail is not in the cache. */
  lemma NextEpisodesNeedCache(st: Store, detailUrl: string, url: string, getFault: bool)
    requires PageKey("detail", detailUrl) !in st.data
    ensures NextEpisodes(Get(st, PageKey("detail", detailUrl), getFault), url) == []
  {
  }

  // ---------------------------------------------------------------------------
  // /api/prefetch
  // ---------------------------------------------------------------------------

  /** The URLs one batch request hands to `prefetchDetail` and
      `prefetchPlayUrl`, and the `queued` count it reports. */
  datatype Batch = Batch(details: seq<Json>, plays: seq<Json>, queued: nat)

  /** `POST /api/prefetch`: the first twenty detail URLs and the first fifty
      play URLs of the arrays given; `queued` counts the calls, cached pages
      that the calls then skip included. */
  function BatchPrefetch(detailUrls: Json, playUrls: Json): (b: Batch)
    ensures b.queued == |b.details| + |b.plays|
    ensures b.queued <= BatchDetailCap + BatchPlayCap
    ensures detailUrls.Arr? ==> |b.details| == Min(BatchDetailCap, |detailUrls.items|)
                                && IsPrefix(b.details, detailUrls.items)
    ensures playUrls.Arr? ==> |b.plays| == Min(BatchPlayCap, |playUrls.items|)
                              && IsPrefix(b.plays, playUrls.items)
    ensures !detailUrls.Arr? ==> b.details == []
    ensures !playUrls.Arr? ==> b.plays == []
  {
    var details := if detailUrls.Arr? then Take(detailUrls.items, BatchDetailCap) else [];
    var plays := if playUrls.Arr? then Take(playUrls.items, BatchPlayCap) else [];
    Batch(details, plays, |details| + |plays|)
  }

  // ---------------------------------------------------------------------------
  // /api/cache/clear
  // ---------------------------------------------------------------------------

  /** Clears the kinds in order; each clear fails or succeeds on its own. */
  function ClearEach(st: Store, kinds: seq<string>, fault: string -> bool): (s: Store)
    decreases |kinds|
    ensures s.connected == st.connected
    ensures forall k :: k in s.data ==> k in st.data && s.data[k] == st.data[k]
  {
    if kinds == [] then st
    else ClearEach(ClearByPrefix(st, kinds[0], fault(kinds[0])).store, kinds[1..], fault)
  }

  /** `POST /api/cache/clear`: the given kind, or, with no kind given (the
      empty string), all five kinds `getStats` counts. */
  function ClearAll(st: Store, prefix: string, fault: string -> bool): (s: Store)
    ensures prefix != "" ==> s == ClearByPrefix(st, prefix, fault(prefix)).store
    ensures forall k :: k in s.data ==> k in st.data && s.data[k] == st.data[k]
  {
    if prefix != "" then ClearByPrefix(st, prefix, fault(prefix)).store
    else ClearEach(st, StatPrefixes, fault)
  }

  lemma {:induction false} ClearEachExact(st: Store, kinds: seq<string>, fault: string -> bool)
    requires st.connected
    requires forall i :: 0 <= i < |kinds| ==> !fault(kinds[i])
    ensures forall k :: k in ClearEach(st, kinds, fault).data <==>
              k in st.data && forall i :: 0 <= i < |kinds| ==> !StartsWith(k, KeyPrefix(kinds[i]))
    decreases |kinds|
  {
    if kinds != [] {
      var next := ClearByPrefix(st, kinds[0], false).store;
      ClearEachExact(next, kinds[1..], fault);
      forall k ensures k in ClearEach(st, kinds, fault).data <==>
                       k in st.data && forall i :: 0 <= i < |kinds| ==> !StartsWith(k, KeyPrefix(kinds[i])) {
        if k in st.data && forall i :: 1 <= i < |kinds| ==> !StartsWith(k, KeyPrefix(kinds[i])) {
          assert forall i :: 0 <= i < |kinds[1..]| ==> kinds[1..][i] == kinds[i + 1];
        }
        if !(forall i :: 0 <= i < |kinds| ==> !StartsWith(k, KeyPrefix(kinds[i]))) {
          var i :| 0 <= i < |kinds| && StartsWith(k, KeyPrefix(kinds[i]));
          if i > 0 {
            assert kinds[1..][i - 1] == kinds[i];
          }
        }
      }
    }
  }

  /** With the store up, a clear with no kind removes exactly the keys of the
      five kinds and leaves every other key untouched. */
  lemma ClearAllExact(st: Store, fault: string -> bool)
    requires st.connected
    requires forall i :: 0 <= i < |StatPrefixes| ==> !fault(StatPrefixes[i])
    ensures forall k :: k in ClearAll(st, "", fault).data <==>
              k in st.data && forall i :: 0 <= i < |StatPrefixes| ==> !StartsWith(k, KeyPrefix(StatPrefixes[i]))
  {
    ClearEachExact(st, StatPrefixes, fault);
  }
}

=== FILE: stream.dfy ===
/** `extractVideoUrlFromHtml` (backend/scraper.js): the raw stream reference of
    a play page, from the embedded player object, else from the first
    `"url":"…"` field of the page text with its escape backslashes removed. */
module StreamRef {
  import opened Options
  import opened Text
  import opened Capture

  const UrlFieldOpen: string := "\"url\":\""

  /** `/"url":"(.*?)"/` matches somewhere in the page text. */
  ghost predicate HasUrlField(html: string) {
    exists i, j :: MatchAt(html, UrlFieldOpen, '"', 0, i, j)
  }

  /** The leftmost match of `/"url":"(.*?)"/` starts at `i` and closes at `j`. */
  ghost predicate LeftmostUrlField(html: string, i: int, j: int) {
    MatchAt(html, UrlFieldOpen, '"', 0, i, j) && forall k :: 0 <= k < i ==> NoMatchAt(html, UrlFieldOpen, '"', 0, k)
  }

  /** The captured text of `/"url":"(.*?)"/`, when the page has one. */
  function UrlField(html: string): (c: Option<string>)
    ensures c.Some? ==> '"' !in c.value
    ensures c.Some? ==> exists i, j :: LeftmostUrlField(html, i, j) && c.value == html[i + |UrlFieldOpen|..j]
    ensures c.None? <==> !HasUrlField(html)
  {
    match FindMatch(html, UrlFieldOpen, '"', 0, 0)
    case None =>
      NoMatchAnywhere(html, UrlFieldOpen, '"', 0);
      None
    case Some((i, j)) =>
      assert LeftmostUrlField(html, i, j);
      var c := html[i + |UrlFieldOpen|..j];
      assert forall m :: 0 <= m < |c| ==> c[m] == html[i + |UrlFieldOpen| + m];
      Some(c)
  }

  /** The raw stream reference. A truthy player `url` wins; otherwise the
      capture of the leftmost `"url":"…"` field, with its backslashes removed,
      is used even when empty; with neither, the player value itself (absent,
      or the empty string) comes back. */
  function ExtractVideoUrl(html: string, playerUrl: Option<string>): (r: Option<string>)
    ensures TruthyString(playerUrl) ==> r == playerUrl
    ensures !TruthyString(playerUrl) && HasUrlField(html) ==>
              && r.Some? && '\\' !in r.value && '"' !in r.value
              && exists i, j :: LeftmostUrlField(html, i, j) && r.value == RemoveAll(html[i + |UrlFieldOpen|..j], '\\')
    ensures !HasUrlField(html) ==> r == playerUrl
  {
    if TruthyString(playerUrl) then playerUrl
    else
      match UrlField(html)
      case Some(c) => Some(RemoveAll(c, '\\'))
      case None => playerUrl
  }
}

=== FILE: text.dfy ===
/** The JavaScript string primitives the scraper relies on, over `seq<char>`
    (Unicode scalar values): `trim`, `\s`, `includes`, `startsWith`,
    `endsWith`, `split` on one character, `.length` in UTF-16 code units,
    decimal rendering of a number and `parseInt`. */
module Text {
  import opened Options

  // ---------------------------------------------------------------------------
  // Character classes
  // ---------------------------------------------------------------------------

  /** ECMAScript WhiteSpace or LineTerminator: what `trim()` removes and what
      the regular-expression class `\s` matches. */
  predicate IsSpace(c: char) {
    || c == ' ' || c == '\t' || c == '\n' || c == '\r'
    || c == '\U{000B}' || c == '\U{000C}' || c == '\U{00A0}' || c == '\U{1680}'
    || ('\U{2000}' <= c <= '\U{200A}')
    || c == '\U{2028}' || c == '\U{2029}' || c == '\U{202F}' || c == '\U{205F}'
    || c == '\U{3000}' || c == '\U{FEFF}'
  }

  /** ECMAScript LineTerminator: the characters a regular-expression `.`
      does not match (no `s` flag). */
  predicate IsLineTerminator(c: char) {
    c == '\n' || c == '\r' || c == '\U{2028}' || c == '\U{2029}'
  }

  /** The regular-expression class `\d`: ASCII digits only. */
  predicate IsDigit(c: char) {
    '0' <= c <= '9'
  }

  predicate AllSpace(s: string) {
    forall i :: 0 <= i < |s| ==> IsSpace(s[i])
  }

  predicate AllDigits(s: string) {
    forall i :: 0 <= i < |s| ==> IsDigit(s[i])
  }

  predicate NoLineTerminator(s: string) {
    forall i :: 0 <= i < |s| ==> !IsLineTerminator(s[i])
  }

  // ---------------------------------------------------------------------------
  // includes / startsWith / endsWith
  // ---------------------------------------------------------------------------

  predicate StartsWith(s: string, prefix: string) {
    |prefix| <= |s| && s[..|prefix|] == prefix
  }

  predicate EndsWith(s: string, suffix: string) {
    |suffix| <= |s| && s[|s| - |suffix|..] == suffix
  }

  /** `sub` occurs in `s` starting at index `i`. */
  predicate OccursAt(s: string, sub: string, i: int) {
    0 <= i <= |s| - |sub| && s[i..i + |sub|] == sub
  }

  /** `s.includes(sub)`. */
  predicate Contains(s: string, sub: string) {
    exists i | 0 <= i <= |s| - |sub| :: OccursAt(s, sub, i)
  }

  /** A string containing `sub` still contains it once text is added around it. */
  lemma ContainsExtend(a: string, s: string, b: string, sub: string)
    requires Contains(s, sub)
    ensures Contains(a + s + b, sub)
  {
    var i :| 0 <= i <= |s| - |sub| && OccursAt(s, sub, i);
    assert (a + s + b)[|a| + i..|a| + i + |sub|] == s[i..i + |sub|];
    assert OccursAt(a + s + b, sub, |a| + i);
  }

  // ---------------------------------------------------------------------------
  // trim
  // ---------------------------------------------------------------------------

  predicate IsTrimmed(s: string) {
    s == [] || (!IsSpace(s[0]) && !IsSpace(s[|s| - 1]))
  }

  /** Whitespace followed by whitespace is whitespace. */
  lemma AllSpaceAppend(a: string, b: string)
    requires AllSpace(a) && AllSpace(b)
    ensures AllSpace(a + b)
  {
    forall i | 0 <= i < |a + b| ensures IsSpace((a + b)[i]) {
      if i >= |a| {
        assert (a + b)[i] == b[i - |a|];
      }
    }
  }

  /** A whitespace character before a blank run and a suffix `r` of the
      rest makes a blank run before `r` in the whole. */
  lemma SpaceThenSuffix(s: string, r: string)
    requires |s| > 0 && IsSpace(s[0])
    requires |r| <= |s| - 1 && r == s[1..][|s| - 1 - |r|..] && AllSpace(s[1..][..|s| - 1 - |r|])
    ensures r == s[|s| - |r|..] && AllSpace(s[..|s| - |r|])
  {
    var k := |s| - |r|;
    assert s[1..][k - 1..] == s[k..];
    assert s[..k] == [s[0]] + s[1..][..k - 1];
    AllSpaceAppend([s[0]], s[1..][..k - 1]);
  }

  /** A prefix `r` of all but a final whitespace character, followed by a
      blank run, is a prefix of the whole followed by a blank run. */
  lemma PrefixThenSpace(s: string, r: string)
    requires |s| > 0 && IsSpace(s[|s| - 1])
    requires |r| <= |s| - 1 && r == s[..|s| - 1][..|r|] && AllSpace(s[..|s| - 1][|r|..])
    ensures r == s[..|r|] && AllSpace(s[|r|..])
  {
    assert s[..|s| - 1][..|r|] == s[..|r|];
    assert s[|r|..] == s[..|s| - 1][|r|..] + [s[|s| - 1]];
    AllSpaceAppend(s[..|s| - 1][|r|..], [s[|s| - 1]]);
  }

  function TrimStart(s: string): (r: string)
    ensures |r| <= |s| && r == s[|s| - |r|..]
    ensures AllSpace(s[..|s| - |r|])
    ensures r == [] || !IsSpace(r[0])
  {
    if |s| > 0 && IsSpace(s[0]) then
      var r := TrimStart(s[1..]);
      SpaceThenSuffix(s, r);
      r
    else
      assert s[..0] == [];
      s
  }

  function TrimEnd(s: string): (r: string)
    ensures |r| <= |s| && r == s[..|r|]
    ensures AllSpace(s[|r|..])
    ensures r == [] || !IsSpace(r[|r| - 1])
  {
    if |s| > 0 && IsSpace(s[|s| - 1]) then
      var r := TrimEnd(s[..|s| - 1]);
      PrefixThenSpace(s, r);
      r
    else
      assert s[|s|..] == [];
      s
  }

  /** Number of whitespace characters at the start of `s`. */
  function LeadingSpaces(s: string): (k: nat)
    ensures k <= |s|
  {
    |s| - |TrimStart(s)|
  }

  /** `s.trim()`: the result is `s` with exactly its leading and trailing
      whitespace removed. */
  function Trim(s: string): (r: string)
    ensures IsTrimmed(r)
    ensures |r| <= |s|
  {
    TrimEnd(TrimStart(s))
  }

  /** What `trim` removes: the result is the slice of `s` between its leading
      and its trailing run of whitespace. */
  lemma TrimSlice(s: string)
    ensures LeadingSpaces(s) + |Trim(s)| <= |s|
    ensures Trim(s) == s[LeadingSpaces(s)..LeadingSpaces(s) + |Trim(s)|]
    ensures AllSpace(s[..LeadingSpaces(s)]) && AllSpace(s[LeadingSpaces(s) + |Trim(s)|..])
  {
    var t := TrimStart(s);
    var r := TrimEnd(t);
    assert LeadingSpaces(s) == |s| - |t| && Trim(s) == r;
    SpaceBetween(s, t, r);
  }

  /** A start of a suffix of `s` is a slice of `s`, and a blank rest of the
      suffix is a blank rest of `s`. */
  lemma SpaceBetween(s: string, t: string, r: string)
    requires |t| <= |s| && t == s[|s| - |t|..]
    requires |r| <= |t| && r == t[..|r|] && AllSpace(t[|r|..])
    ensures r == s[|s| - |t|..|s| - |t| + |r|]
    ensures AllSpace(s[|s| - |t| + |r|..])
  {
    var k := |s| - |t|;
    assert s[k..k + |r|] == t[..|r|];
    assert s[k + |r|..] == t[|r|..];
  }

  /** Trimming a string that has no surrounding whitespace changes nothing,
      so `trim` is idempotent. */
  lemma TrimTrimmed(s: string)
    requires IsTrimmed(s)
    ensures Trim(s) == s
  {
  }

  lemma TrimIdempotent(s: string)
    ensures Trim(Trim(s)) == Trim(s)
  {
    TrimTrimmed(Trim(s));
  }

  // ---------------------------------------------------------------------------
  // replace(/\s+/g, ' ')
  // ---------------------------------------------------------------------------

  /** No whitespace other than single `' '` characters. */
  predicate SpacesCollapsed(s: string) {
    && (forall i :: 0 <= i < |s| && IsSpace(s[i]) ==> s[i] == ' ')
    && (forall i :: 0 <= i < |s| - 1 ==> !(s[i] == ' ' && s[i + 1] == ' '))
  }

  /** The non-whitespace characters of `s`, in order. */
  function Visible(s: string): string {
    if s == [] then [] else (if IsSpace(s[0]) then [] else [s[0]]) + Visible(s[1..])
  }

  lemma VisibleAppend(a: string, b: string)
    ensures Visible(a + b) == Visible(a) + Visible(b)
  {
    if a == [] {
      assert a + b == b;
    } else {
      assert (a + b)[0] == a[0];
      assert (a + b)[1..] == a[1..] + b;
      VisibleAppend(a[1..], b);
    }
  }

  lemma VisibleAllSpace(s: string)
    requires AllSpace(s)
    ensures Visible(s) == []
  {
  }

  /** Replaces every maximal run of whitespace by one space. */
  function CollapseSpaces(s: string): (r: string)
    ensures SpacesCollapsed(r)
    ensures Visible(r) == Visible(s)
    ensures r != [] && r[0] == ' ' ==> s != [] && IsSpace(s[0])
    decreases |s|
  {
    if s == [] then []
    else if IsSpace(s[0]) then
      var rest := TrimStart(s);
      assert s == s[..|s| - |rest|] + rest;
      VisibleAppend(s[..|s| - |rest|], rest);
      VisibleAllSpace(s[..|s| - |rest|]);
      var r := [' '] + CollapseSpaces(rest);
      VisibleAppend([' '], CollapseSpaces(rest));
      r
    else
      var r := [s[0]] + CollapseSpaces(s[1..]);
      VisibleAppend([s[0]], CollapseSpaces(s[1..]));
      assert s == [s[0]] + s[1..];
      VisibleAppend([s[0]], s[1..]);
      r
  }

  /** `text.replace(/\s+/g, ' ').trim()`: the description rule. */
  function NormalizeSpaces(s: string): (r: string)
  {
    Trim(CollapseSpaces(s))
  }

  lemma InfixCollapsed(s: string, k: nat, n: nat)
    requires SpacesCollapsed(s) && k + n <= |s|
    ensures SpacesCollapsed(s[k..k + n])
  {
    var t := s[k..k + n];
    forall i | 0 <= i < |t| - 1
      ensures !(t[i] == ' ' && t[i + 1] == ' ')
    {
      assert t[i] == s[k + i] && t[i + 1] == s[k + i + 1];
    }
  }

  /** The normalised description keeps every visible character of the source
      text in order, has no surrounding whitespace, and separates words by
      exactly one space. */
  lemma NormalizeSpacesSpec(s: string)
    ensures IsTrimmed(NormalizeSpaces(s))
    ensures SpacesCollapsed(NormalizeSpaces(s))
    ensures Visible(NormalizeSpaces(s)) == Visible(s)
  {
    var c := CollapseSpaces(s);
    InfixCollapsed(c, LeadingSpaces(c), |Trim(c)|);
    VisibleTrim(c);
  }

  /** Trimming removes whitespace only. */
  lemma VisibleTrim(c: string)
    ensures Visible(Trim(c)) == Visible(c)
  {
    var r := Trim(c);
    var k := LeadingSpaces(c);
    TrimSlice(c);
    var pre, post := c[..k], c[k + |r|..];
    assert c == pre + c[k..k + |r|] + post;
    assert c == pre + r + post;
    VisibleAppend(pre + r, post);
    VisibleAppend(pre, r);
    VisibleAllSpace(pre);
    VisibleAllSpace(post);
  }

  // ---------------------------------------------------------------------------
  // replace(/c/g, '')
  // ---------------------------------------------------------------------------

  /** `s.replace(/c/g, '')`: every occurrence of `c` removed, the rest kept in order. */
  function RemoveAll(s: string, c: char): (r: string)
    ensures c !in r
    ensures |r| <= |s|
    ensures c !in s ==> r == s
    ensures forall x :: x in r <==> x in s && x != c
  {
    if s == [] then []
    else
      var rest := RemoveAll(s[1..], c);
      assert forall x :: x in s <==> x == s[0] || x in s[1..];
      if s[0] == c then rest else [s[0]] + rest
  }

  /** One character is dropped exactly when it is `c`. */
  lemma RemoveAllSingle(x: char, c: char)
    ensures RemoveAll([x], c) == if x == c then [] else [x]
  {
    assert [x][1..] == [];
  }

  /** Removal works piece by piece: the order of what is kept is the order
      of the text. */
  lemma {:induction false} RemoveAllAppend(a: string, b: string, c: char)
    ensures RemoveAll(a + b, c) == RemoveAll(a, c) + RemoveAll(b, c)
  {
    if a == [] {
      assert a + b == b;
    } else {
      assert (a + b)[0] == a[0];
      assert (a + b)[1..] == a[1..] + b;
      RemoveAllAppend(a[1..], b, c);
    }
  }

  // ---------------------------------------------------------------------------
  // split / join on one character
  // ---------------------------------------------------------------------------

  /** Index of the first `c` in `s`, `|s|` when there is none. */
  function IndexOf(s: string, c: char): (i: nat)
    ensures i <= |s|
    ensures i < |s| ==> s[i] == c
    ensures c !in s[..i]
    ensures i == |s| <==> c !in s
  {
    if s == [] then 0
    else if s[0] == c then 0
    else
      var j := IndexOf(s[1..], c);
      assert s[..1 + j] == [s[0]] + s[1..][..j];
      1 + j
  }

  function Join(parts: seq<string>, sep: char): string
    requires |parts| >= 1
  {
    if |parts| == 1 then parts[0] else parts[0] + [sep] + Join(parts[1..], sep)
  }

  /** `s.split(sep)` for a one-character separator. */
  function Split(s: string, sep: char): (parts: seq<string>)
    ensures |parts| >= 1
    ensures forall i :: 0 <= i < |parts| ==> sep !in parts[i]
    ensures Join(parts, sep) == s
    ensures parts[0] == s[..IndexOf(s, sep)]
    decreases |s|
  {
    var i := IndexOf(s, sep);
    if i == |s| then [s]
    else
      var rest := Split(s[i + 1..], sep);
      var parts := [s[..i]] + rest;
      assert parts[1..] == rest;
      assert Join(parts, sep) == s[..i] + [sep] + s[i + 1..];
      assert s == s[..i] + [sep] + s[i + 1..];
      parts
  }

  /** `split` undoes `join`: the two are inverse on parts free of the separator. */
  lemma {:induction false} SplitJoin(parts: seq<string>, sep: char)
    requires |parts| >= 1
    requires forall i :: 0 <= i < |parts| ==> sep !in parts[i]
    ensures Split(Join(parts, sep), sep) == parts
    decreases |parts|
  {
    var s := Join(parts, sep);
    if |parts| == 1 {
      assert IndexOf(s, sep) == |s|;
    } else {
      var p := parts[0];
      var tail := Join(parts[1..], sep);
      assert s == p + [sep] + tail;
      assert sep !in s[..|p|] by { assert s[..|p|] == p; }
      assert s[|p|] == sep;
      IndexOfFirst(s, sep, |p|);
      assert s[|p| + 1..] == tail;
      SplitJoin(parts[1..], sep);
      assert s[..|p|] == p;
    }
  }

  lemma IndexOfFirst(s: string, c: char, i: nat)
    requires i < |s| && s[i] == c && c !in s[..i]
    ensures IndexOf(s, c) == i
  {
    var j := IndexOf(s, c);
    assert forall k :: 0 <= k < i ==> s[..i][k] == s[k];
    assert forall k :: 0 <= k < j ==> s[..j][k] == s[k];
  }

  // ---------------------------------------------------------------------------
  // .length
  // ---------------------------------------------------------------------------

  /** `s.length` in JavaScript: characters outside the Basic Multilingual
      Plane count as two UTF-16 code units. */
  function Utf16Length(s: string): (n: nat)
    ensures n >= |s|
  {
    if s == [] then 0 else (if s[0] as int > 0xFFFF then 2 else 1) + Utf16Length(s[1..])
  }

  /** `title.length > 1` holds for every title of two or more characters and
      for a single character outside the Basic Multilingual Plane. */
  lemma Utf16LengthSingle(c: char)
    ensures Utf16Length([c]) > 1 <==> c as int > 0xFFFF
  {
    assert [c][1..] == [];
  }

  // ---------------------------------------------------------------------------
  // Numbers
  // ---------------------------------------------------------------------------

  function DigitValue(c: char): (v: nat)
    requires IsDigit(c)
    ensures v < 10
  {
    (c as int - '0' as int) as nat
  }

  function DigitChar(v: nat): (c: char)
    requires v < 10
    ensures IsDigit(c) && DigitValue(c) == v
  {
    ('0' as int + v) as char
  }

  /** The value of a decimal digit string, most significant digit first. */
  function DecimalValue(ds: string): nat
    requires AllDigits(ds)
    decreases |ds|
  {
    if ds == [] then 0 else DecimalValue(ds[..|ds| - 1]) * 10 + DigitValue(ds[|ds| - 1])
  }

  /** `n.toString()` for a non-negative integer. */
  function NatToString(n: nat): (s: string)
    ensures s != [] && AllDigits(s)
    ensures |s| > 1 ==> s[0] != '0'
    ensures DecimalValue(s) == n
    decreases n
  {
    if n < 10 then [DigitChar(n)]
    else
      var s := NatToString(n / 10) + [DigitChar(n % 10)];
      assert s[..|s| - 1] == NatToString(n / 10);
      s
  }

  /** Different numbers render differently, so a page number written into a
      URL names that page alone. */
  lemma NatToStringInjective(m: nat, n: nat)
    requires NatToString(m) == NatToString(n)
    ensures m == n
  {
  }

  // ---------------------------------------------------------------------------
  // parseInt
  // ---------------------------------------------------------------------------

  predicate IsHexDigit(c: char) {
    IsDigit(c) || 'a' <= c <= 'f' || 'A' <= c <= 'F'
  }

  function HexDigitValue(c: char): (v: nat)
    requires IsHexDigit(c)
    ensures v < 16
  {
    if IsDigit(c) then DigitValue(c)
    else if 'a' <= c <= 'f' then (c as int - 'a' as int + 10) as nat
    else (c as int - 'A' as int + 10) as nat
  }

  /** Length of the longest prefix of `s` made of digits of `radix` (10 or 16). */
  function DigitPrefixLength(s: string, radix: nat): (n: nat)
    ensures n <= |s|
    ensures n < |s| ==> !(if radix == 16 then IsHexDigit(s[n]) else IsDigit(s[n]))
    ensures forall i :: 0 <= i < n ==> (if radix == 16 then IsHexDigit(s[i]) else IsDigit(s[i]))
  {
    if s != [] && (if radix == 16 then IsHexDigit(s[0]) else IsDigit(s[0]))
    then 1 + DigitPrefixLength(s[1..], radix)
    else 0
  }

  function RadixValue(ds: string, radix: nat): nat
    requires radix == 10 || radix == 16
    requires forall i :: 0 <= i < |ds| ==> (if radix == 16 then IsHexDigit(ds[i]) else IsDigit(ds[i]))
    decreases |ds|
  {
    if ds == [] then 0
    else
      var last := ds[|ds| - 1];
      RadixValue(ds[..|ds| - 1], radix) * radix + (if radix == 16 then HexDigitValue(last) else DigitValue(last))
  }

  lemma RadixValueDecimal(ds: string)
    requires AllDigits(ds)
    ensures RadixValue(ds, 10) == DecimalValue(ds)
  {
    if ds != [] {
      RadixValueDecimal(ds[..|ds| - 1]);
    }
  }

  /** `parseInt(s)` without a radix: leading whitespace is skipped, an optional
      sign is read, a `0x`/`0X` prefix switches to base 16, and the longest
      run of digits that follows is the value; no digit at all is `NaN`
      (modelled as `None`). */
  function ParseInt(s: string): (r: Option<int>)
    ensures r.Some? ==> exists k :: 0 <= k < |s| && IsHexDigit(s[k])
  {
    var t := TrimStart(s);
    var r := ParseSigned(t);
    HexDigitInSuffix(s, t, r.Some?);
    r
  }

  /** `parseInt` once the leading whitespace is gone. */
  function ParseSigned(t: string): (r: Option<int>)
    ensures r.Some? ==> exists k :: 0 <= k < |t| && IsHexDigit(t[k])
  {
    var sign := if t != [] && t[0] == '-' then -1 else 1;
    var u := if t != [] && (t[0] == '-' || t[0] == '+') then t[1..] else t;
    var hex := |u| >= 2 && u[0] == '0' && (u[1] == 'x' || u[1] == 'X');
    var radix := if hex then 16 else 10;
    var body := if hex then u[2..] else u;
    var n := DigitPrefixLength(body, radix);
    if n == 0 then None
    else
      assert t[|t| - |body|] == body[0];
      Some(sign * RadixValue(body[..n], radix))
  }

  /** A hex digit of a suffix is a hex digit of the whole. */
  lemma HexDigitInSuffix(s: string, t: string, found: bool)
    requires |t| <= |s| && t == s[|s| - |t|..]
    requires found ==> exists k :: 0 <= k < |t| && IsHexDigit(t[k])
    ensures found ==> exists k :: 0 <= k < |s| && IsHexDigit(s[k])
  {
    if found {
      var k :| 0 <= k < |t| && IsHexDigit(t[k]);
      assert s[|s| - |t| + k] == t[k];
    }
  }

  /** A plain decimal digit string parses to its decimal value. */
  lemma ParseIntDigits(ds: string)
    requires ds != [] && AllDigits(ds)
    ensures ParseInt(ds) == Some(DecimalValue(ds))
  {
    assert IsDigit(ds[0]) && !IsSpace(ds[0]);
    assert TrimStart(ds) == ds;
    ParseSignedDigits(ds);
  }

  lemma ParseSignedDigits(ds: string)
    requires ds != [] && AllDigits(ds)
    ensures ParseSigned(ds) == Some(DecimalValue(ds))
  {
    assert IsDigit(ds[0]);
    assert ds[0] != '-' && ds[0] != '+';
    assert |ds| >= 2 ==> IsDigit(ds[1]) && ds[1] != 'x' && ds[1] != 'X';
    var n := DigitPrefixLength(ds, 10);
    assert n == |ds|;
    assert ds[..n] == ds;
    RadixValueDecimal(ds);
  }

  /** Text whose first visible character is neither a sign nor a digit is
      `NaN`: a pagination label such as `下一页` contributes no page count. */
  lemma ParseIntNoDigit(s: string)
    requires TrimStart(s) == [] || !(IsDigit(TrimStart(s)[0]) || TrimStart(s)[0] == '-' || TrimStart(s)[0] == '+')
    ensures ParseInt(s) == None
  {
  }

  /** Decimal rendering followed by `parseInt` is the identity. */
  lemma ParseIntNatToString(n: nat)
    ensures ParseInt(NatToString(n)) == Some(n)
  {
    ParseIntDigits(NatToString(n));
  }
}

=== FILE: urls.dfy ===
/** URL rules of backend/scraper.js: `absoluteUrl` against the fixed origin
    `https://ccios.cc`, and the `protocol` / `host` split that `new URL(...)`
    provides to the manifest resolver. */
module Urls {
  import opened Options
  import opened Text

  const BaseUrl: string := "https://ccios.cc"

  /** `absoluteUrl(link)`: an empty or absent link is `null`; a link already
      starting with `http` is kept; a protocol-relative `//host/...` link gets
      `https:`; anything else is appended to the origin as it stands, with no
      slash inserted. */
  function AbsoluteUrl(link: string): (r: Option<string>)
    ensures r.None? <==> link == ""
    ensures r.Some? ==> StartsWith(r.value, "http") && EndsWith(r.value, link)
    ensures StartsWith(link, "http") ==> r == Some(link)
  {
    if link == "" then None
    else if StartsWith(link, "http") then Some(link)
    else if StartsWith(link, "//") then Some("https:" + link)
    else Some(BaseUrl + link)
  }

  /** The four branches of `absoluteUrl`, one per kind of link. */
  lemma AbsoluteUrlCases(link: string)
    ensures link == "" ==> AbsoluteUrl(link) == None
    ensures (link != "" && !StartsWith(link, "http") && StartsWith(link, "//"))
            ==> AbsoluteUrl(link) == Some("https:" + link)
    ensures (link != "" && !StartsWith(link, "http") && !StartsWith(link, "//"))
            ==> AbsoluteUrl(link) == Some(BaseUrl + link)
  {
  }

  /** Every result starts with `http`, so normalising twice is normalising once. */
  lemma AbsoluteUrlIdempotent(link: string)
    requires link != ""
    ensures AbsoluteUrl(AbsoluteUrl(link).value) == AbsoluteUrl(link)
  {
  }

  /** A relative path is glued to the origin without a separating slash. */
  lemma AbsoluteUrlNoSlash()
    ensures AbsoluteUrl("foo") == Some("https://ccios.ccfoo")
  {
    var foo := "foo";
    assert |foo| == 3 && foo[0] == 'f';
    assert !StartsWith(foo, "http");
    assert foo[..2] != "//";
    assert BaseUrl + foo == "https://ccios.ccfoo";
  }

  // ---------------------------------------------------------------------------
  // new URL(url).protocol / .host
  // ---------------------------------------------------------------------------

  function LowerAscii(s: string): (r: string)
    ensures |r| == |s|
  {
    seq(|s|, i requires 0 <= i < |s| => if 'A' <= s[i] <= 'Z' then (s[i] as int + 32) as char else s[i])
  }

  predicate IsSchemeChar(c: char) {
    ('a' <= c <= 'z') || ('A' <= c <= 'Z') || IsDigit(c) || c == '+' || c == '-' || c == '.'
  }

  /** End of the host: the first `/`, `?` or `#` at or after `k`, else `|s|`. */
  function HostEnd(s: string, k: nat): (e: nat)
    requires k <= |s|
    ensures k <= e <= |s|
    ensures forall m :: k <= m < e ==> s[m] !in "/?#"
    ensures e < |s| ==> s[e] in "/?#"
    decreases |s| - k
  {
    if k == |s| || s[k] in "/?#" then k else HostEnd(s, k + 1)
  }

  /** `new URL(url)` reduced to what the manifest resolver reads: for
      `<scheme>://<host><rest>` the pair (`<scheme>:` lower-cased, `<host>`
      lower-cased); any other shape throws, modelled as `None`. */
  function Origin(url: string): (r: Option<(string, string)>)
    ensures r.Some? ==> EndsWith(r.value.0, ":") && '/' !in r.value.1
  {
    var c := IndexOf(url, ':');
    if c == 0 || c + 3 > |url| || url[c..c + 3] != "://" then None
    else if !(('a' <= url[0] <= 'z') || ('A' <= url[0] <= 'Z')) then None
    else if exists m :: 0 <= m < c && !IsSchemeChar(url[m]) then None
    else
      var e := HostEnd(url, c + 3);
      if e == c + 3 then None
      else
        var host := LowerAscii(url[c + 3..e]);
        assert forall m :: 0 <= m < |host| ==> host[m] != '/' by {
          forall m | 0 <= m < |host| ensures host[m] != '/' {
            assert url[c + 3..e][m] == url[c + 3 + m];
          }
        }
        Some((LowerAscii(url[..c]) + ":", host))
  }

  /** `new URL` accepts `<scheme>://<host><rest>` whenever the scheme is made of
      scheme characters starting with a letter, contains no `:`, and the host
      is non-empty and ends at the first `/`, `?` or `#`. */
  lemma OriginAt(url: string, c: nat, e: nat)
    requires 0 < c && c + 3 < e <= |url|
    requires url[c] == ':' && ':' !in url[..c] && url[c + 1] == '/' && url[c + 2] == '/'
    requires ('a' <= url[0] <= 'z') || ('A' <= url[0] <= 'Z')
    requires forall m :: 0 <= m < c ==> IsSchemeChar(url[m])
    requires forall m :: c + 3 <= m < e ==> url[m] !in "/?#"
    requires e == |url| || url[e] in "/?#"
    ensures Origin(url) == Some((LowerAscii(url[..c]) + ":", LowerAscii(url[c + 3..e])))
  {
    IndexOfFirst(url, ':', c);
    assert url[c..c + 3] == "://";
    HostEndAt(url, c + 3, e);
  }

  lemma HostEndAt(s: string, k: nat, e: nat)
    requires k <= e <= |s|
    requires forall m :: k <= m < e ==> s[m] !in "/?#"
    requires e == |s| || s[e] in "/?#"
    ensures HostEnd(s, k) == e
    decreases e - k
  {
    if k < e {
      HostEndAt(s, k + 1, e);
    }
  }
}
